=== FILE: README.md ===
# A verified model of the AI surveillance platform's federated-learning and utility core

This Dafny project models the pure logic at the heart of the AI surveillance platform and proves
properties of it:

- **Model version registry** (`ModelVersionManager`). An append-only history of version ids, an
  insertion-ordered table from id to record, and the checkpoint files those records point at:
  save, load, latest, list, compare, rollback, best-by-metric and keep-last-N cleanup.
- **Model aggregator** (`ModelAggregator`). Strategy dispatch with a history of rounds,
  sample-weighted FedAvg, coordinate-wise median, outlier detection over a pairwise similarity,
  outlier filtering, and round metrics.
- **Secure aggregation** (`SecureAggregationProtocol`). The pairwise-secret cache,
  sign-by-ordering masking, the pass-through unmask step and the commitment check. Its headline
  theorem is that the masks cancel in the sum of a full round.
- **Blockchain SDK helpers.** The Merkle root, the transaction-format check, the custody-chain
  order check and the encoding of chaincode arguments.
- **Multi-camera tracker** (`MultiCameraTracker`). Matching an embedding against each track's
  last five embeddings, allocating fresh track ids, and removing stale tracks.
- **Gait and behaviour windows** (`GaitFeatureExtractor`, `BehaviorAnalyzer`). Bounded frame
  windows, the four-number gait feature vector, and the loitering, running and raised-arms rules.
- **Backend string helpers.** `truncate_string`, `generate_id` and `get_time_ago`.

Everything is immutable data and pure functions. Each Python object with state becomes a record
(`Registry`, `Aggregator`, `Protocol`, `Tracker`, `Extractor`, `Analyzer`), and each mutating
method becomes a function that returns the new record.

Python behaviour the model follows:
- A `KeyError` or `IndexError` becomes an `Err` value. The state that the Python code had already
  mutated before raising is kept.
- Python's negative slice bounds are modelled exactly (module `PySlice`).
- `OrderedDict`s keep their insertion order: a model state dict is its key sequence plus a map.
  The JSON objects that the blockchain helpers render are plain maps, without an order.

Outside effects become inputs, and what they produce is never assumed:
- hashes (`sha256`), JSON rendering (`dumps`) and UTF-8 encoding (`utf8`);
- random draws (`draw`, `pick`) and the seeded generator behind `torch.randn` (`gen`);
- similarity (`sim`), norm (`norm`) and Euclidean distance (`dist`);
- the ISO timestamp parser (`parseIso`);
- clock readings (`now`, `Clock`).

Numbers are exact `int` and `real`.

Shared foundations:
- `Wrappers`: `Option` and `Result`.
- `PySlice`: Python slice bounds.
- `Decimal`: `str(int)` and its inverse.
- `KeyOrder`: Python string order and `sorted` over dict keys.
- `Sorting`: a stable sort and the lower median.
- `Stats`: numpy sum, mean, variance and diff.
- `PairSums`: double sums of a pairwise term.
- `Tensors`: state dicts and the model hash.

## Model

| member | source | states |
|---|---|---|
| Versioning.VersionIdRoundTrip | ai-surveillance-platform/federated_learning/model_versioning.py:100 | splitting an id `v{epoch}_{stamp}` at its first `_` gives back the decimal epoch and the timestamp |
| Versioning.VersionIdInjective | ai-surveillance-platform/federated_learning/model_versioning.py:100 | two version ids are equal exactly when both the epoch and the timestamp are equal |
| Versioning.ModelPathInjective | ai-surveillance-platform/federated_learning/model_versioning.py:106-107 | distinct version ids get distinct checkpoint paths `storage_dir/<id>.pth` |
| Versioning.Put | ai-surveillance-platform/federated_learning/model_versioning.py:121 | assigning `versions[id]` replaces the record; a new id goes last in iteration order and an existing id keeps its place |
| Versioning.Delete | ai-surveillance-platform/federated_learning/model_versioning.py:297 | `del versions[id]` removes exactly that record |
| Versioning.NewRegistry | ai-surveillance-platform/federated_learning/model_versioning.py:64-78 | a new manager has an empty history and table, and satisfies the registry invariant |
| Versioning.SaveVersion | ai-surveillance-platform/federated_learning/model_versioning.py:80-128 | the new record carries the id, the epoch, the model hash, the path, the metrics and the metadata; the history gains the id; the table maps the id to the record; the checkpoint is stored at the path |
| Versioning.SavePreservesValid | ai-surveillance-platform/federated_learning/model_versioning.py:121-122 | saving keeps the invariant: history ids and table keys coincide, and each record names its own id and path |
| Versioning.SaveAppendsOne | ai-surveillance-platform/federated_learning/model_versioning.py:121-122 | with a fresh id, the history grows by exactly that id, the table by exactly one record, and every other id's info is unchanged |
| Versioning.LoadVersion | ai-surveillance-platform/federated_learning/model_versioning.py:130-152 | an unknown id or a missing checkpoint file loads `None`; otherwise the load is the model stored at the record's path |
| Versioning.LoadAfterSave | ai-surveillance-platform/federated_learning/model_versioning.py:80-152 | a saved model loads back unchanged and hashes to the hash recorded for it |
| Versioning.GetVersionInfo | ai-surveillance-platform/federated_learning/model_versioning.py:162-164 | `None` exactly for an id without a record |
| Versioning.GetLatestVersion | ai-surveillance-platform/federated_learning/model_versioning.py:154-160 | `None` on an empty history; otherwise the lookup of the last history id |
| Versioning.LatestExists | ai-surveillance-platform/federated_learning/model_versioning.py:154-160 | under the invariant, a non-empty history always has a latest record, named by the last history id |
| Versioning.LatestAfterSave | ai-surveillance-platform/federated_learning/model_versioning.py:80-160 | right after a save, the latest version is the record just saved |
| Versioning.ListVersions | ai-surveillance-platform/federated_learning/model_versioning.py:166-168 | succeeds exactly when every history id has a record, and then lists the records in history order |
| Versioning.ListValid | ai-surveillance-platform/federated_learning/model_versioning.py:166-168 | under the invariant, listing never raises `KeyError` |
| Versioning.CompareVersions | ai-surveillance-platform/federated_learning/model_versioning.py:170-204 | an error object exactly when either id is unknown; otherwise `epoch_diff = v2 - v1`, `metrics_diff` covers exactly the shared metrics with `v2 - v1`, and `same_hash` is hash equality |
| Versioning.CompareAntisymmetric | ai-surveillance-platform/federated_learning/model_versioning.py:188-202 | swapping the two ids negates the epoch and metric differences and keeps `same_hash` |
| Versioning.RollbackMetadata | ai-surveillance-platform/federated_learning/model_versioning.py:232-236 | the old metadata plus `rollback_from` and `rollback_at`, the two new keys overriding old ones |
| Versioning.RollbackToVersion | ai-surveillance-platform/federated_learning/model_versioning.py:206-240 | true exactly when the version loads; then one id is appended, and its record carries the old epoch and metrics, the rollback metadata and the loaded model's hash; every other record, including the source unless the new id equals it, is unchanged, and so is the storage directory; the new checkpoint, holding the loaded model, is written at the new id's path and no other file changes; on false nothing changes |
| Versioning.RollbackPreservesValid | ai-surveillance-platform/federated_learning/model_versioning.py:206-240 | a rollback keeps the registry invariant |
| Versioning.RollbackCanOverwriteItsSource | ai-surveillance-platform/federated_learning/model_versioning.py:216-237 | rolling back within the same second as the source's save reuses the source id: the source record is overwritten and the table does not grow |
| Versioning.BestFrom | ai-surveillance-platform/federated_learning/model_versioning.py:258-271 | the scan ends at `None` when no record holds the metric, else at the first record that no later record strictly beats |
| Versioning.BetterIsStrict | ai-surveillance-platform/federated_learning/model_versioning.py:264-271 | a strictly better value becomes the new first optimum |
| Versioning.BestIndex | ai-surveillance-platform/federated_learning/model_versioning.py:252-273 | the scan runs over the records in table order, minimising for `"loss"` and maximising otherwise |
| Versioning.GetBestVersion | ai-surveillance-platform/federated_learning/model_versioning.py:242-273 | `None` exactly when no version has the metric; otherwise a stored version holding it that no version beats (smaller for `"loss"`, larger otherwise), and the first such in table order |
| Versioning.RemoveAll | ai-surveillance-platform/federated_learning/model_versioning.py:287-297 | completes exactly when the ids are distinct and all recorded, then removes exactly those records and exactly their checkpoint files; files are only ever removed; a `KeyError` keeps what was already removed |
| Versioning.RemoveAllKeepsOtherLoads | ai-surveillance-platform/federated_learning/model_versioning.py:287-297 | whether or not the removal loop finishes, every surviving record still loads the model it loaded before, when each record's checkpoint is named after its id |
| Versioning.DeleteKeepsOtherLoads | ai-surveillance-platform/federated_learning/model_versioning.py:290-297 | unlinking one record's checkpoint and deleting the record leaves every other record loading what it did, since distinct ids have distinct checkpoint paths |
| Versioning.CleanupOldVersions | ai-surveillance-platform/federated_learning/model_versioning.py:275-305 | a no-op when the history is no longer than `n`; otherwise it completes exactly when the ids of `history[:-n]` are distinct and all recorded, and then deletes exactly their records and sets the history to `history[-n:]`; a `KeyError` leaves the history as it was and the records already deleted deleted; surviving records are unchanged; on completion exactly the dropped records' checkpoint files are deleted, files are only ever removed, and when every record's checkpoint is named after its id each surviving version loads what it loaded before |
| Versioning.CleanupKeepsLast | ai-surveillance-platform/federated_learning/model_versioning.py:282-300 | for `0 < n < len(history)` without repeated ids: the last `n` ids stay, exactly the dropped ids' records go, the rest are untouched, and the invariant holds |
| Versioning.CleanupZeroKeepsEverything | ai-surveillance-platform/federated_learning/model_versioning.py:285-300 | `keep_last_n = 0` leaves the registry exactly as it was |
| Versioning.CleanupKeepingLast | ai-surveillance-platform/federated_learning/model_versioning.py:275-305 | corrected cleanup: the history becomes its last `min(n, len)` ids |
| Versioning.CleanupKeepingNoneEmpties | ai-surveillance-platform/federated_learning/model_versioning.py:275-305 | corrected cleanup with `n = 0` empties the history and the table |
| Versioning.CollidingSaves | ai-surveillance-platform/federated_learning/model_versioning.py:100-122 | two saves of one epoch in one second share an id: the history lists it twice, and the table holds only the second record |
| Versioning.CleanupAfterCollision | ai-surveillance-platform/federated_learning/model_versioning.py:282-300 | after such a collision, `cleanup_old_versions(1)` deletes the shared record but keeps its id in the history, so `list_versions` raises `KeyError` |
| Tensors.ModelHash | ai-surveillance-platform/federated_learning/model_versioning.py:307-315 | the digest of the tensors taken in ascending key order, whatever order the keys were inserted in; secure_aggregation.py:207-214 defines the same hash |
| Tensors.HashIgnoresInsertionOrder | ai-surveillance-platform/federated_learning/model_versioning.py:307-315 | the model hash visits keys in sorted order, so dicts with the same tensors hash alike whatever their key order |
| Tensors.HashSeesOnlyConcatenation | ai-surveillance-platform/federated_learning/model_versioning.py:311-313 | the hashed bytes carry no key names or boundaries: `{a: [1, 2]}` and `{a: [1], b: [2]}` hash alike |
| KeyOrder.SortKeysProperties | ai-surveillance-platform/federated_learning/model_versioning.py:311 | `sorted(keys)` of distinct keys is strictly increasing in Python's string order and holds exactly those keys |
| KeyOrder.SortKeysIgnoresOrder | ai-surveillance-platform/federated_learning/model_versioning.py:311 | `sorted(keys)` depends only on which keys there are |
| KeyOrder.StrictlySortedUnique | ai-surveillance-platform/federated_learning/secure_aggregation.py:210 | two strictly increasing key lists with the same keys are equal |
| KeyOrder.LessTransitive | ai-surveillance-platform/federated_learning/model_versioning.py:311 | Python's `str` comparison is transitive |
| KeyOrder.LessTotal | ai-surveillance-platform/federated_learning/model_versioning.py:311 | any two distinct strings are ordered one way or the other |
| KeyOrder.LessAsymmetric | ai-surveillance-platform/federated_learning/model_versioning.py:311 | no two strings are each below the other |
| KeyOrder.LessIrreflexive | ai-surveillance-platform/federated_learning/model_versioning.py:311 | no string is below itself |
| KeyOrder.InsertProperties | ai-surveillance-platform/federated_learning/model_versioning.py:311 | inserting a new key into a strictly sorted list keeps it sorted and adds just that key |
| Decimal.IntRoundTrip | ai-surveillance-platform/federated_learning/model_versioning.py:100 | `int(str(n)) == n` for every integer epoch |
| Decimal.IntToStringInjective | ai-surveillance-platform/federated_learning/model_versioning.py:100 | distinct epochs render to distinct texts |
| Decimal.NoUnderscore | ai-surveillance-platform/federated_learning/model_versioning.py:100 | a rendered epoch never contains `_`, so the first `_` of an id ends the epoch |
| Decimal.NatRoundTrip | ai-surveillance-platform/backend/app/utils/helpers.py:57 | reading back the digits of a count gives the count |
| PySlice.Bound | ai-surveillance-platform/federated_learning/model_versioning.py:285-300 | a slice bound counts from the end when negative and is clamped into `[0, len]` |
| PySlice.PrefixSuffixSplit | ai-surveillance-platform/federated_learning/model_versioning.py:285-300 | the removed part `history[:-n]` and the kept part `history[-n:]` together are the whole history, for every `n` |
| PySlice.NegatedZero | ai-surveillance-platform/federated_learning/model_versioning.py:285-300 | `-0 == 0`: `s[:-0]` is empty and `s[-0:]` is all of `s` |
| PySlice.NegativeBound | ai-surveillance-platform/federated_learning/model_versioning.py:285-300 | for `0 < n <= len(s)`, `s[:-n]` drops the last `n` items and `s[-n:]` keeps exactly them |
| Aggregation.NewAggregator | ai-surveillance-platform/federated_learning/model_aggregator.py:14-22 | an aggregator keeps the given method and starts with no rounds recorded |
| Aggregation.AddScaled | ai-surveillance-platform/federated_learning/model_aggregator.py:90 | `acc + x * w` elementwise, at every coordinate |
| Aggregation.AddWeighted | ai-surveillance-platform/federated_learning/model_aggregator.py:89-90 | adding one client keeps the accumulator's layers and their sizes |
| Aggregation.AddWeightedOk | ai-surveillance-platform/federated_learning/model_aggregator.py:89-90 | a client is added without error exactly when each of its layers is in the accumulator with the same size |
| Aggregation.AddWeightedValue | ai-surveillance-platform/federated_learning/model_aggregator.py:89-90 | after one client, a coordinate grew by the client's value times its weight, or not at all if the client lacks that layer |
| Aggregation.AddClientValue | ai-surveillance-platform/federated_learning/model_aggregator.py:86-90 | the same for a whole client state dict |
| Aggregation.Accumulate | ai-surveillance-platform/federated_learning/model_aggregator.py:86-90 | the client loop keeps the accumulator's layers and sizes |
| Aggregation.AccumulateOk | ai-surveillance-platform/federated_learning/model_aggregator.py:86-90 | the loop finishes exactly when every client's layers fit the accumulator |
| Aggregation.AccumulateValue | ai-surveillance-platform/federated_learning/model_aggregator.py:86-90 | after the loop, each coordinate grew by the sum over clients of `n_i / total` times their value |
| Aggregation.FederatedAveraging | ai-surveillance-platform/federated_learning/model_aggregator.py:64-93 | a zero sample total is a `ZeroDivisionError`; otherwise it succeeds exactly when every client's layers are the first client's with the same sizes, and the result has the first client's keys and sizes |
| Aggregation.WeightedAveraging | ai-surveillance-platform/federated_learning/model_aggregator.py:95-109 | weighted averaging is FedAvg: the same result, each coordinate the sum of `(n_i / total) * m_i[key][j]` |
| Aggregation.FederatedAveragingIsWeightedSum | ai-surveillance-platform/federated_learning/model_aggregator.py:77-90 | each FedAvg coordinate is the sum of `(n_i / total) * m_i[key][j]` |
| Aggregation.WeightSumIsRatio | ai-surveillance-platform/federated_learning/model_aggregator.py:87 | the weights `n_i / total` add up to `sum(n_i) / total` |
| Aggregation.WeightsSumToOne | ai-surveillance-platform/federated_learning/model_aggregator.py:77-87 | with FedAvg's total the weights add up to one |
| Aggregation.ColumnSumOfAgreement | ai-surveillance-platform/federated_learning/model_aggregator.py:86-90 | a coordinate on which all clients agree sums to that value times the weight sum |
| Aggregation.FederatedAveragingOfAgreement | ai-surveillance-platform/federated_learning/model_aggregator.py:77-90 | where every client holds the same value, FedAvg returns it |
| Aggregation.ColumnSumBounds | ai-surveillance-platform/federated_learning/model_aggregator.py:86-90 | with non-negative sample counts, the weighted sum lies between `lo` and `hi` times the weight sum |
| Aggregation.FederatedAveragingBounded | ai-surveillance-platform/federated_learning/model_aggregator.py:77-90 | with non-negative sample counts, each FedAvg coordinate lies between the clients' least and greatest values there |
| Aggregation.TotalNonNegative | ai-surveillance-platform/federated_learning/model_aggregator.py:77 | non-negative sample counts have a non-negative total |
| Aggregation.Column | ai-surveillance-platform/federated_learning/model_aggregator.py:128-130 | stacking takes one value per client |
| Aggregation.MedianLayer | ai-surveillance-platform/federated_learning/model_aggregator.py:128-133 | stacking succeeds exactly when every client has the layer with the first client's size, and the median keeps that size |
| Aggregation.MedianLayerIsLowerMedian | ai-surveillance-platform/federated_learning/model_aggregator.py:133 | each coordinate of a stacked median is the lower median of the clients' values there |
| Aggregation.MedianFrom | ai-surveillance-platform/federated_learning/model_aggregator.py:126-133 | the key loop fills exactly the first client's keys, each with its stacked median |
| Aggregation.MedianFromOk | ai-surveillance-platform/federated_learning/model_aggregator.py:126-133 | the key loop succeeds exactly when every layer stacks |
| Aggregation.MedianAggregation | ai-surveillance-platform/federated_learning/model_aggregator.py:111-136 | succeeds exactly when every layer of the first client stacks; the result has the first client's keys, each holding its stacked median |
| Aggregation.MedianAggregationIsCoordinateMedian | ai-surveillance-platform/federated_learning/model_aggregator.py:126-133 | each coordinate of the result is the lower median of the clients' values at that coordinate |
| Aggregation.SimilarityRow | ai-surveillance-platform/federated_learning/model_aggregator.py:187-196 | a row of the `n x n` similarity matrix has `n` entries |
| Aggregation.OthersSimilarities | ai-surveillance-platform/federated_learning/model_aggregator.py:189-196 | the similarities of a client to the other `n - 1` clients: its similarity row with the diagonal entry taken out, order kept |
| Aggregation.AverageCountsDiagonal | ai-surveillance-platform/federated_learning/model_aggregator.py:187-200 | the row mean is the sum over the other clients divided by `n`, not `n - 1`: the zero diagonal stays in the mean |
| Aggregation.OutliersFrom | ai-surveillance-platform/federated_learning/model_aggregator.py:199-202 | the scan yields, in increasing order, exactly the remaining clients whose mean similarity is below the threshold |
| Aggregation.DetectOutlierClients | ai-surveillance-platform/federated_learning/model_aggregator.py:165-205 | nothing for fewer than three clients; otherwise exactly the clients whose mean similarity is below the threshold, in increasing order |
| Aggregation.AllFlaggedThoughIdentical | ai-surveillance-platform/federated_learning/model_aggregator.py:187-202 | three perfectly similar clients each average `2/3`, so a threshold of 0.7 flags all three |
| Aggregation.OrthogonalClientFlagged | ai-surveillance-platform/federated_learning/model_aggregator.py:180-205 | of three mutually similar clients and one orthogonal one, only the orthogonal one is flagged at the default threshold 0.3 |
| Aggregation.UnflaggedFrom | ai-surveillance-platform/federated_learning/model_aggregator.py:227-231 | exactly the indices not flagged, in increasing order |
| Aggregation.KeepFrom | ai-surveillance-platform/federated_learning/model_aggregator.py:227-231 | the list comprehension keeps each unflagged client, in order |
| Aggregation.FilterOutliers | ai-surveillance-platform/federated_learning/model_aggregator.py:207-234 | the input itself when nothing is flagged; otherwise exactly the unflagged clients in their original order |
| Aggregation.UnflaggedNone | ai-surveillance-platform/federated_learning/model_aggregator.py:224-231 | with nothing flagged, every index is kept |
| Aggregation.PairsFrom | ai-surveillance-platform/federated_learning/model_aggregator.py:262-263 | the nested loops visit only pairs `i < j` |
| Aggregation.RowPairs | ai-surveillance-platform/federated_learning/model_aggregator.py:263 | the inner loop visits `(i, j)` for `j` from `i + 1` up |
| Aggregation.PairsFromComplete | ai-surveillance-platform/federated_learning/model_aggregator.py:262-263 | every pair `i < j < n` is visited, and no other pair |
| Aggregation.PairsFromCount | ai-surveillance-platform/federated_learning/model_aggregator.py:262-263 | there are `n (n - 1) / 2` visits |
| Aggregation.Diversities | ai-surveillance-platform/federated_learning/model_aggregator.py:261-268 | one diversity per visited pair |
| Aggregation.ChangeFrom | ai-surveillance-platform/federated_learning/model_aggregator.py:254-257 | succeeds exactly when the new model has every old key with the same size; the magnitude is non-negative when the norm is |
| Aggregation.ComputeAggregationMetrics | ai-surveillance-platform/federated_learning/model_aggregator.py:236-278 | succeeds exactly when every old layer is in the new model with the same size; `num_clients` is the client count; diversity is 0 with at most one client; the change magnitude is non-negative; with two or more clients the diversity is the mean of `1 - sim` over all client pairs |
| Aggregation.UnchangedModelHasNoChange | ai-surveillance-platform/federated_learning/model_aggregator.py:253-257 | comparing a model with itself succeeds and gives change magnitude 0, for a norm that is 0 on zero tensors |
| Aggregation.ChangeFromSelf | ai-surveillance-platform/federated_learning/model_aggregator.py:253-257 | summing `norm(new[key] - old[key])` over the keys of an unchanged model gives 0 |
| Aggregation.DiversityOfUniformSimilarity | ai-surveillance-platform/federated_learning/model_aggregator.py:260-270 | when every pair has similarity `s`, the average diversity is `1 - s` |
| Aggregation.DiversityNonNegative | ai-surveillance-platform/federated_learning/model_aggregator.py:260-272 | similarities of at most one give a non-negative average diversity |
| Aggregation.FedAvgEqualWeights | ai-surveillance-platform/federated_learning/model_aggregator.py:77-90 | worked example: equal sample counts average plainly: 2 and 6 give 4 |
| Aggregation.FedAvgUnequalWeights | ai-surveillance-platform/federated_learning/model_aggregator.py:77-90 | worked example: weights 10/40 and 30/40 on 0 and 10 give 7.5 |
| Aggregation.MedianIgnoresOutlier | ai-surveillance-platform/federated_learning/model_aggregator.py:126-133 | worked example: the median of 1, 2 and 100 is 2 |
| Aggregation.AggregateModels | ai-surveillance-platform/federated_learning/model_aggregator.py:25-62 | no clients returns the global model and records nothing; an unknown method raises before recording; a success appends one round with the client count, the sample total and the method; `fedavg` and `weighted_avg` give exactly the FedAvg result, and `median` the coordinate median |
| Sorting.SortProperties | ai-surveillance-platform/federated_learning/model_aggregator.py:133 | sorting gives an ascending permutation with the same counts below and at most every value |
| Sorting.SortPermutes | ai-surveillance-platform/federated_learning/model_aggregator.py:133 | sorting gives an ascending permutation of its input |
| Sorting.SortCounts | ai-surveillance-platform/federated_learning/model_aggregator.py:133 | sorting keeps how many values lie below, or at most, any value |
| Sorting.SortOfSorted | ai-surveillance-platform/blockchain/sdk/utils.py:223 | an ascending list is its own sort |
| Sorting.SortedIffSortFixed | ai-surveillance-platform/blockchain/sdk/utils.py:223 | `ts == sorted(ts)` exactly when `ts` is non-decreasing |
| Sorting.LowerMedianCharacterised | ai-surveillance-platform/federated_learning/model_aggregator.py:133 | `torch.median` returns an entry of the data with at most `(n-1)/2` entries below it and more than `(n-1)/2` at or below it, and it is the only such value |
| Sorting.InsertProperties | ai-surveillance-platform/blockchain/sdk/utils.py:223 | inserting into an ascending list keeps it ascending and adds just that value |
| SecureAggregation.PairKey | ai-surveillance-platform/federated_learning/secure_aggregation.py:91 | `tuple(sorted([i, j]))` is the pair in ascending order |
| SecureAggregation.PairKeySymmetric | ai-surveillance-platform/federated_learning/secure_aggregation.py:91 | the key of `(i, j)` is the key of `(j, i)` |
| SecureAggregation.GeneratePairwiseSecret | ai-surveillance-platform/federated_learning/secure_aggregation.py:78-97 | returns the cached secret of the unordered pair, or caches and returns a fresh 32-byte draw; the cache gains only that pair, no cached secret changes, and a cache of 32-byte tokens stays one |
| SecureAggregation.PairwiseSecretSymmetric | ai-surveillance-platform/federated_learning/secure_aggregation.py:91-97 | asking for `(j, i)` is asking for `(i, j)` |
| SecureAggregation.PairwiseSecretIdempotent | ai-surveillance-platform/federated_learning/secure_aggregation.py:93-97 | a repeated request, in either order and whatever the next draw, returns the same secret and changes nothing |
| SecureAggregation.BigEndianBound | ai-surveillance-platform/federated_learning/secure_aggregation.py:178 | `int.from_bytes(b, 'big')` is below `256^len(b)` |
| SecureAggregation.BigEndianInjective | ai-surveillance-platform/federated_learning/secure_aggregation.py:178 | equal-width byte strings with the same big-endian value are equal |
| SecureAggregation.Seed | ai-surveillance-platform/federated_learning/secure_aggregation.py:178 | the seed fits in 64 bits |
| SecureAggregation.SecretToMask | ai-surveillance-platform/federated_learning/secure_aggregation.py:166-182 | the mask has the parameter's element count |
| SecureAggregation.MaskSeesFirstEightBytes | ai-surveillance-platform/federated_learning/secure_aggregation.py:178-182 | secrets sharing their first eight bytes give the same mask |
| SecureAggregation.SeedCharacterised | ai-surveillance-platform/federated_learning/secure_aggregation.py:178 | two secrets of at least eight bytes have the same seed exactly when their first eight bytes agree |
| SecureAggregation.MaskTensor | ai-surveillance-platform/federated_learning/secure_aggregation.py:119-136 | masking a layer keeps its size and only extends the secret cache |
| SecureAggregation.PairTermAntisymmetric | ai-surveillance-platform/federated_learning/secure_aggregation.py:133-136 | the pair term is `+mask` for `client < peer`, `-mask` for `client > peer` and zero for oneself, so swapping the pair negates it |
| SecureAggregation.MaskTensorValue | ai-surveillance-platform/federated_learning/secure_aggregation.py:118-138 | each masked element is the raw element plus the client's pair terms over the peers, oneself skipped |
| SecureAggregation.MaskLayers | ai-surveillance-platform/federated_learning/secure_aggregation.py:116-140 | the layer loop fills exactly the model's keys with same-size tensors |
| SecureAggregation.MaskLayersValue | ai-surveillance-platform/federated_learning/secure_aggregation.py:118-138 | each element filled by the layer loop is the raw one plus the client's pair terms |
| SecureAggregation.MaskModel | ai-surveillance-platform/federated_learning/secure_aggregation.py:99-140 | the masked model has exactly the input's keys, in its order, with the same sizes |
| SecureAggregation.MaskModelValue | ai-surveillance-platform/federated_learning/secure_aggregation.py:118-138 | each masked element is the raw element plus the client's row of pair terms |
| SecureAggregation.MaskRound | ai-surveillance-platform/federated_learning/secure_aggregation.py:99-140 | a round masks every participant in turn over one shared cache |
| SecureAggregation.MaskRoundValue | ai-surveillance-platform/federated_learning/secure_aggregation.py:118-138 | in a round, every participant's masked element is its raw element plus its pair terms under the round's final secrets |
| SecureAggregation.MaskRoundCons | ai-surveillance-platform/federated_learning/secure_aggregation.py:99-140 | a round is the first participant's masking followed by the rest of the round |
| SecureAggregation.MaskedSumSplits | ai-surveillance-platform/federated_learning/secure_aggregation.py:118-138 | the sum of the masked models is the raw sum plus every participant's row of pair terms |
| SecureAggregation.MasksCancel | ai-surveillance-platform/federated_learning/secure_aggregation.py:118-159 | when every participant masks against the full participant list, the masked models sum to the raw models' sum, whatever the secrets and the generator |
| PairSums.Fubini | ai-surveillance-platform/federated_learning/secure_aggregation.py:122-136 | a double sum of pair terms can be taken row by row or column by column |
| PairSums.AntisymmetricCancels | ai-surveillance-platform/federated_learning/secure_aggregation.py:133-159 | an antisymmetric pair term summed over every ordered pair of one list is zero |
| SecureAggregation.UnmaskAggregatedModel | ai-surveillance-platform/federated_learning/secure_aggregation.py:142-164 | the aggregated model is returned unchanged, whoever is active |
| SecureAggregation.DropoutLeavesMask | ai-surveillance-platform/federated_learning/secure_aggregation.py:157-164 | with participant 2 dropped, unmasking participant 1's model leaves their pair mask in place |
| SecureAggregation.MaskTensorHasPair | ai-surveillance-platform/federated_learning/secure_aggregation.py:122-127 | masking against a peer other than oneself caches their pair |
| SecureAggregation.VerifyClientContribution | ai-surveillance-platform/federated_learning/secure_aggregation.py:184-214 | true exactly when the hash of the tensors taken in sorted key order equals the commitment |
| SecureAggregation.VerificationIgnoresKeyOrder | ai-surveillance-platform/federated_learning/secure_aggregation.py:202-214 | the verdict does not depend on the order in which the layers were inserted |
| SecureAggregation.CommitmentAcceptsItsModel | ai-surveillance-platform/federated_learning/secure_aggregation.py:202-214 | a commitment made by hashing a masked model accepts that model |
| ChainUtils.ComputeTransactionHash | ai-surveillance-platform/blockchain/sdk/utils.py:11-23 | SHA-256 of the key-sorted JSON text of the transaction |
| ChainUtils.Pad | ai-surveillance-platform/blockchain/sdk/utils.py:68-69 | an odd level gets its last hash repeated; an even level is unchanged |
| ChainUtils.PairUp | ai-surveillance-platform/blockchain/sdk/utils.py:71-77 | one hash of `h[2i] + h[2i+1]` per pair |
| ChainUtils.Level | ai-surveillance-platform/blockchain/sdk/utils.py:67-77 | a round gives `ceil(n/2)` hashes, fewer than before when `n > 1`, the last pairing the odd hash with itself |
| ChainUtils.Leaves | ai-surveillance-platform/blockchain/sdk/utils.py:64 | one transaction hash per transaction, in order |
| ChainUtils.MerkleRoot | ai-surveillance-platform/blockchain/sdk/utils.py:50-79 | no transactions give `sha256("")`; one gives its own hash, since the loop does not run; two give the hash of their hashes concatenated |
| ChainUtils.HashPairs | ai-surveillance-platform/blockchain/sdk/utils.py:71-77 | the inner loop computes the hash of each consecutive pair |
| ChainUtils.CreateMerkleRoot | ai-surveillance-platform/blockchain/sdk/utils.py:60-79 | the imperative loop, with its in-place padding, computes the root |
| ChainUtils.LevelOfPadded | ai-surveillance-platform/blockchain/sdk/utils.py:68-69 | padding an odd level by hand gives the same next level |
| ChainUtils.DuplicateLastKeepsRoot | ai-surveillance-platform/blockchain/sdk/utils.py:68-69 | for an odd count of at least three, repeating the last transaction leaves the root unchanged |
| ChainUtils.DuplicateOfSingleChangesRoot | ai-surveillance-platform/blockchain/sdk/utils.py:60-79 | unlike odd counts of three or more, one transaction's root is its own hash, while the root of it twice is the hash of that hash repeated |
| ChainUtils.RootSeesOnlyHashes | ai-surveillance-platform/blockchain/sdk/utils.py:64-79 | the root depends on the transactions only through their hashes |
| ChainUtils.ValidateTransactionFormat | ai-surveillance-platform/blockchain/sdk/utils.py:162-173 | true exactly when `tx_id`, `channel_name`, `chaincode_name` and `function_name` are all present |
| ChainUtils.AllPresentMeansSubset | ai-surveillance-platform/blockchain/sdk/utils.py:173 | `all(f in tx for f in fields)` holds exactly when every field is a key |
| ChainUtils.ValidationIgnoresOtherFields | ai-surveillance-platform/blockchain/sdk/utils.py:172-173 | adding or changing any other field never changes the verdict |
| ChainUtils.Timestamps | ai-surveillance-platform/blockchain/sdk/utils.py:218-221 | parsing succeeds exactly when every event has a parsable text timestamp, and then gives one instant per event, in order |
| ChainUtils.VerifyEvidenceChain | ai-surveillance-platform/blockchain/sdk/utils.py:200-223 | false for an empty chain; otherwise an error exactly when a timestamp is missing or unparsable, else whether the instants are non-decreasing |
| ChainUtils.EqualTimesAccepted | ai-surveillance-platform/blockchain/sdk/utils.py:218-223 | equal timestamps are in order; a step back in time is not |
| ChainUtils.EncodeArg | ai-surveillance-platform/blockchain/sdk/utils.py:120-126 | a string is encoded as is, a list or dict as its JSON text, and anything else through `str` |
| ChainUtils.EncodeChaincodeArgs | ai-surveillance-platform/blockchain/sdk/utils.py:109-128 | one encoding per argument, same length and order |
| ChainUtils.EncodeAppend | ai-surveillance-platform/blockchain/sdk/utils.py:119-128 | encoding a concatenation is concatenating the encodings |
| ChainUtils.IntAndTextCollide | ai-surveillance-platform/blockchain/sdk/utils.py:121-126 | worked example: the integer 7 and the text "7" encode alike |
| Tracking.NewTracker | ai-surveillance-platform/ai_engine/pipelines/tracking_pipeline.py:24-27 | no tracks, next id 1, the given threshold; valid |
| Tracking.Put | ai-surveillance-platform/ai_engine/pipelines/tracking_pipeline.py:69 | `active_tracks[id] = track`: a new id goes last in iteration order, and an existing id keeps its place |
| Tracking.Recent | ai-surveillance-platform/ai_engine/pipelines/tracking_pipeline.py:99 | `embeddings[-5:]`: all of them up to five, else the last five |
| Tracking.MaxSimIsMaximum | ai-surveillance-platform/ai_engine/pipelines/tracking_pipeline.py:101-106 | the best similarity against a track bounds every recent embedding's similarity and is attained by one |
| Tracking.InnerScanIsMax | ai-surveillance-platform/ai_engine/pipelines/tracking_pipeline.py:101-106 | the inner loop changes the best so far exactly when the track's best similarity strictly exceeds it |
| Tracking.Recents | ai-surveillance-platform/ai_engine/pipelines/tracking_pipeline.py:97-99 | each track's recent embeddings, in the tracks' insertion order |
| Tracking.OuterScan | ai-surveillance-platform/ai_engine/pipelines/tracking_pipeline.py:97-106 | the track loop ends with the best so far being the threshold-beating maximum, earliest on ties |
| Tracking.ScanStep | ai-surveillance-platform/ai_engine/pipelines/tracking_pipeline.py:97-106 | one more track keeps the loop's invariant |
| Tracking.MatchToExistingTrack | ai-surveillance-platform/ai_engine/pipelines/tracking_pipeline.py:89-108 | a match is an active track |
| Tracking.MatchCharacterised | ai-surveillance-platform/ai_engine/pipelines/tracking_pipeline.py:94-108 | no match exactly when no recent embedding is strictly more similar than the threshold; a match beats the threshold, no track scores higher, and earlier tracks score strictly lower |
| Tracking.ScoreMeaning | ai-surveillance-platform/ai_engine/pipelines/tracking_pipeline.py:99-106 | a track's score is its greatest recent similarity, and it is absent only for a track without embeddings |
| Tracking.OlderEmbeddingsIgnored | ai-surveillance-platform/ai_engine/pipelines/tracking_pipeline.py:99 | embeddings older than a track's last five never change a match |
| Tracking.UpdateOne | ai-surveillance-platform/ai_engine/pipelines/tracking_pipeline.py:48-82 | a match is assigned its own id and keeps the next id; otherwise the next id is assigned and advanced by one; a missing `detections[idx]` raises `IndexError` |
| Tracking.UpdateOneGrowsByOne | ai-surveillance-platform/ai_engine/pipelines/tracking_pipeline.py:52-80 | a matched track gains exactly one embedding and one sighting and is last seen now; a new track starts with exactly one of each and confidence 0.9; every other track is untouched |
| Tracking.UpdateOnePreservesValid | ai-surveillance-platform/ai_engine/pipelines/tracking_pipeline.py:66-80 | tracks stay filed under their own ids, all below the next id, so a new id was never in use |
| Tracking.UpdateFrom | ai-surveillance-platform/ai_engine/pipelines/tracking_pipeline.py:48-82 | the loop assigns detection indices `0..n-1` in order, never lowers the next id, and keeps the tracker valid |
| Tracking.CleanupOldTracks | ai-surveillance-platform/ai_engine/pipelines/tracking_pipeline.py:110-121 | exactly the tracks not older than `max_age` seconds remain, unchanged |
| Tracking.KeepFresh | ai-surveillance-platform/ai_engine/pipelines/tracking_pipeline.py:115-121 | the ids kept are exactly the fresh ones, without repeats |
| Tracking.UpdateTracks | ai-surveillance-platform/ai_engine/pipelines/tracking_pipeline.py:29-87 | succeeds exactly when there are no more embeddings than detections, and then returns one `(track_id, idx)` pair per embedding with `idx` running `0..n-1`; the next id never decreases and the tracker stays valid |
| Tracking.EmptyBatchOnlyCleans | ai-surveillance-platform/ai_engine/pipelines/tracking_pipeline.py:48-87 | an empty batch assigns nothing and only removes stale tracks |
| Tracking.FreshIdsAreConsecutive | ai-surveillance-platform/ai_engine/pipelines/tracking_pipeline.py:66-82 | worked example: two mutually dissimilar detections on a new tracker get ids 1 and 2 |
| Tracking.SingleTrackNoMatch | ai-surveillance-platform/ai_engine/pipelines/tracking_pipeline.py:95-108 | a similarity equal to the threshold is not a match: the comparison is strict |
| Tracking.GetTrack | ai-surveillance-platform/ai_engine/pipelines/tracking_pipeline.py:123-125 | the track under that id, `None` when there is none |
| Tracking.GetAllActiveTracks | ai-surveillance-platform/ai_engine/pipelines/tracking_pipeline.py:127-129 | every active track exactly once, in insertion order |
| Tracking.GetPersonTrajectory | ai-surveillance-platform/ai_engine/pipelines/tracking_pipeline.py:131-137 | the track's sightings; `[]` for an unknown track |
| Gait.NewExtractor | ai-surveillance-platform/ai_engine/feature_extraction/gait_features.py:11-19 | no windows yet |
| Gait.AddPose | ai-surveillance-platform/ai_engine/feature_extraction/gait_features.py:21-37 | the frame is appended to that person's window, and the oldest frame is dropped when the window is over length; other people are untouched; windows stay within `sequence_length` |
| Gait.AddPoses | ai-surveillance-platform/ai_engine/feature_extraction/gait_features.py:21-37 | a person who received frames has a window |
| Gait.WindowKeepsMostRecent | ai-surveillance-platform/ai_engine/feature_extraction/gait_features.py:29-37 | after any frames arrive, the window holds the most recent `min(total, sequence_length)` frames in arrival order |
| Gait.ClearSequence | ai-surveillance-platform/ai_engine/feature_extraction/gait_features.py:156-159 | only that person's window goes; an unknown id changes nothing |
| Gait.Heights | ai-surveillance-platform/ai_engine/feature_extraction/gait_features.py:81-90 | at most one height per frame |
| Gait.GatedVariance | ai-surveillance-platform/ai_engine/feature_extraction/gait_features.py:93-103 | `np.var` of the heights when there are more than five, else 0; never negative |
| Gait.StrideFeatures | ai-surveillance-platform/ai_engine/feature_extraction/gait_features.py:73-105 | two non-negative entries: for each ankle, `np.var` of its heights when it was seen in more than five frames, else 0 |
| Gait.ProportionFeatures | ai-surveillance-platform/ai_engine/feature_extraction/gait_features.py:107-127 | exactly one non-negative entry |
| Gait.ProportionFromFirstLeg | ai-surveillance-platform/ai_engine/feature_extraction/gait_features.py:112-122 | the proportion is the hip-to-ankle height of the first frame holding both |
| Gait.ProportionWithoutLegs | ai-surveillance-platform/ai_engine/feature_extraction/gait_features.py:124-125 | without such a frame the proportion is 0 |
| Gait.CentreHeights | ai-surveillance-platform/ai_engine/feature_extraction/gait_features.py:136-145 | at most one hip midpoint per frame |
| Gait.RhythmFeatures | ai-surveillance-platform/ai_engine/feature_extraction/gait_features.py:129-154 | one entry: `np.var(np.diff(...))` of the hip-midpoint heights when there are more than five, else 0; never negative |
| Gait.ExtractFeatures | ai-surveillance-platform/ai_engine/feature_extraction/gait_features.py:39-71 | `None` exactly for an unknown person or fewer than ten frames; otherwise four non-negative numbers: two stride values, the proportion and the rhythm |
| Gait.SteadyAnklesNoStride | ai-surveillance-platform/ai_engine/feature_extraction/gait_features.py:81-97 | an ankle that stays at one height gives a zero stride feature |
| Gait.ConstantHeights | ai-surveillance-platform/ai_engine/feature_extraction/gait_features.py:81-90 | when every frame holds the landmark at one height, every collected height is that height |
| Gait.EmptyFramesGiveZeros | ai-surveillance-platform/ai_engine/feature_extraction/gait_features.py:39-154 | ten frames without landmarks still give four zeros |
| Gait.NoLandmarksNoHeights | ai-surveillance-platform/ai_engine/feature_extraction/gait_features.py:81-145 | frames without landmarks contribute no heights |
| Gait.FeaturesIgnoreCameraHeight | ai-surveillance-platform/ai_engine/feature_extraction/gait_features.py:73-154 | moving every landmark of every frame by the same height leaves the stride, proportion and rhythm features unchanged |
| Stats.VarianceNonNegative | ai-surveillance-platform/ai_engine/feature_extraction/gait_features.py:94 | `np.var` is never negative |
| Stats.VarianceOfConstant | ai-surveillance-platform/ai_engine/pipelines/behavior_analyzer.py:88-91 | constant data has zero variance |
| Stats.MeanOfConstant | ai-surveillance-platform/ai_engine/pipelines/behavior_analyzer.py:119 | the mean of a constant list is that constant |
| Stats.SumNonNegative | ai-surveillance-platform/ai_engine/feature_extraction/gait_features.py:94 | a sum of non-negative numbers is non-negative |
| Stats.SumOfConstant | ai-surveillance-platform/ai_engine/pipelines/behavior_analyzer.py:119 | `n` copies of `c` sum to `n * c` |
| Stats.Diff | ai-surveillance-platform/ai_engine/feature_extraction/gait_features.py:149 | `np.diff` has one entry fewer than its input |
| Stats.MeanShift | ai-surveillance-platform/ai_engine/pipelines/behavior_analyzer.py:88-91 | adding `c` to every observation adds `c` to the mean |
| Stats.VarianceShiftInvariant | ai-surveillance-platform/ai_engine/pipelines/behavior_analyzer.py:88-91 | `np.var` is unchanged when every observation moves by the same amount |
| Stats.DiffShift | ai-surveillance-platform/ai_engine/feature_extraction/gait_features.py:149 | `np.diff` is unchanged when every observation moves by the same amount |
| Behavior.NewAnalyzer | ai-surveillance-platform/ai_engine/pipelines/behavior_analyzer.py:23-27 | an empty history, with the thresholds from the config and defaults 20 and 5 |
| Behavior.Push | ai-surveillance-platform/ai_engine/pipelines/behavior_analyzer.py:25-57 | appending to the `maxlen=300` deque: the entry goes last, and past 300 entries the oldest falls out |
| Behavior.Center | ai-surveillance-platform/ai_engine/pipelines/behavior_analyzer.py:50-51 | the recorded centre is the midpoint of the face box in each axis |
| Behavior.DetectLoitering | ai-surveillance-platform/ai_engine/pipelines/behavior_analyzer.py:78-104 | reported exactly when there are at least 50 entries, the x and y variances of the centres sum to less than 1000, and more than the threshold's seconds have passed; the report has confidence 0.8, that elapsed time as duration and that variance sum as metadata |
| Behavior.StillPersonLoiters | ai-surveillance-platform/ai_engine/pipelines/behavior_analyzer.py:80-102 | a person who stands still for longer than the threshold is reported loitering |
| Behavior.LoiteringIgnoresPlace | ai-surveillance-platform/ai_engine/pipelines/behavior_analyzer.py:84-102 | the same movement at another place in the frame gives the same loitering verdict and report |
| Behavior.Speeds | ai-surveillance-platform/ai_engine/pipelines/behavior_analyzer.py:111-117 | one step length per consecutive pair of entries |
| Behavior.LastTen | ai-surveillance-platform/ai_engine/pipelines/behavior_analyzer.py:109 | `list(history)[-10:]` is the last ten entries |
| Behavior.DetectRunning | ai-surveillance-platform/ai_engine/pipelines/behavior_analyzer.py:106-129 | reported exactly when the mean step over the last ten entries exceeds the threshold, with confidence 0.75 and that speed |
| Behavior.SteadyPaceSpeed | ai-surveillance-platform/ai_engine/pipelines/behavior_analyzer.py:109-121 | steps of one constant length are reported as running exactly when that length exceeds the threshold |
| Behavior.DetectAggressivePose | ai-surveillance-platform/ai_engine/pipelines/behavior_analyzer.py:131-159 | reported exactly when landmarks 11, 12, 15 and 16 are present and both wrists are strictly above their shoulders |
| Behavior.WristLevelWithShoulderNotRaised | ai-surveillance-platform/ai_engine/pipelines/behavior_analyzer.py:148-151 | a wrist level with its shoulder is not raised |
| Behavior.OptionList | ai-surveillance-platform/ai_engine/pipelines/behavior_analyzer.py:61-74 | a found pattern is appended, and a missing one adds nothing |
| Behavior.Report | ai-surveillance-platform/ai_engine/pipelines/behavior_analyzer.py:59-76 | at most three patterns, in the order loitering, running, aggressive pose; loitering is reported exactly when the loitering check finds it, running exactly when there are at least 10 entries and the running check finds it, raised arms exactly when keypoints are given and the pose check finds it, and each reported pattern is the one its check returned |
| Behavior.Ranked | ai-surveillance-platform/ai_engine/pipelines/behavior_analyzer.py:59-76 | the three checks' results appended in turn: each kind appears exactly when its check found it, as that pattern, in rank order |
| Behavior.RankedConcat | ai-surveillance-platform/ai_engine/pipelines/behavior_analyzer.py:59-74 | appending the three checks' results in turn gives that order |
| Behavior.AnalyzeBehavior | ai-surveillance-platform/ai_engine/pipelines/behavior_analyzer.py:29-76 | no detection or no face box returns `[]` with the history unchanged; a box too short to index raises `IndexError`; otherwise the box centre is pushed and the report is taken on the new history; the history never exceeds 300 entries |
| Behavior.FirstSightingOnlyPose | ai-surveillance-platform/ai_engine/pipelines/behavior_analyzer.py:59-74 | a first sighting can only report an aggressive pose |
| Behavior.Reset | ai-surveillance-platform/ai_engine/pipelines/behavior_analyzer.py:161-163 | the history is emptied, and the thresholds are kept |
| Helpers.TruncateString | ai-surveillance-platform/backend/app/utils/helpers.py:82-97 | a string that fits is returned unchanged; otherwise `s[:max_length - len(suffix)] + suffix` under Python's slicing |
| Helpers.TruncateFits | ai-surveillance-platform/backend/app/utils/helpers.py:97 | with room for the suffix, the result is exactly `max_length` long: a prefix of `s`, then the suffix |
| Helpers.TruncateOverflows | ai-surveillance-platform/backend/app/utils/helpers.py:97 | `truncate_string("abcdef", 2)` is `"abcde..."`, longer than its input |
| Helpers.TruncateBounded | ai-surveillance-platform/backend/app/utils/helpers.py:82-97 | corrected truncation: never longer than `max_length` (or the input), and the same as the original whenever the suffix fits |
| Helpers.RandomPart | ai-surveillance-platform/backend/app/utils/helpers.py:20 | `length` characters, all from `[a-z0-9]` |
| Helpers.GenerateId | ai-surveillance-platform/backend/app/utils/helpers.py:9-25 | `prefix_random` for a non-empty prefix, else the random part alone, of total length `(len(prefix) + 1 if prefix else 0) + max(length, 0)` |
| Helpers.LastUnderscoreSeparates | ai-surveillance-platform/backend/app/utils/helpers.py:20-23 | the prefix is followed by `_`, and the rest of the id is the random part, which contains no `_` |
| Helpers.GetTimeAgo | ai-surveillance-platform/backend/app/utils/helpers.py:38-63 | under a minute is "just now"; then whole minutes below an hour, whole hours below a day, and whole days, each the truncated count of units elapsed |
| Helpers.PluralIffNotOne | ai-surveillance-platform/backend/app/utils/helpers.py:53-63 | the phrase ends in "s ago" exactly when the count is not one |
| Helpers.TimeAgoExamples | ai-surveillance-platform/backend/app/utils/helpers.py:53-60 | worked example: 90 seconds read "1 minute ago" and two hours "2 hours ago" |

## Left out

- Registry persistence is not modelled: `_save_version_registry`, `_load_version_registry`, `export_version_report` and `ModelVersion.to_dict` / `from_dict` are JSON file I/O. The registry is the in-memory state; in particular, a writing failure cannot be modelled.
- `torch.save` and `torch.load` are the map `files` from path to model. A failed `torch.load` is a missing file, and `unlink` failures are ignored, as in the code.
- Versioning.GetBestVersion: metric values are reals, so the `float('-inf')` / `float('inf')` start value is never attained. A metric equal to an infinity, or NaN, is not modelled.
- Every `datetime.utcnow()` and `time.time()` of one call is one input reading (`Clock`, `now`). The microsecond differences between the readings inside one Python call are not modelled.
- The model is exact over `real`: float32 rounding in FedAvg, in the median and in mask cancellation is not modelled.
- Cosine similarity, `torch.norm`, `np.dot` and the step-length square root are abstract function inputs (`sim`, `norm`, `dist`).
- `compute_model_similarity` is not modelled beyond being the abstract `sim`.
- SHA-256, `json.dumps`, UTF-8 encoding and `datetime.fromisoformat` are abstract function inputs.
- `secrets.token_bytes`, `random.choices` and the seeded `torch.randn` are inputs (`draw`, `pick`, `gen`).
- `SecureMaskGenerator` and `setup_client` are not modelled: they draw from a global generator, and no modelled operation reads their masks.
- `DifferentialPrivacy`, `SecureAggregator.add_differential_privacy` and `HomomorphicEncryption` are not modelled: they are Gaussian noise, logarithms and square roots over floats, and placeholder encryption.
- `get_aggregation_history`, `save_aggregated_model` and `load_aggregated_model` are not modelled: they are a getter and file I/O.
- SecureAggregation.SecretToMask: its own contract states only the mask's length. `torch.randn` is the abstract `gen`; what the mask depends on is stated by `MaskSeesFirstEightBytes` and `SeedCharacterised`.
- SecureAggregation.MaskTensor: tensors have no dtype. For an integer parameter, the in-place `+= mask` or `-= mask` of the float mask from `torch.randn` raises `RuntimeError` in torch. The model masks such a parameter like a float one, and `MaskModel` does the same.
- ChainUtils.MerkleRoot: its own contract gives the root in closed form for up to two transactions only. The general case is stated level by level through `Level`, `LevelOfPadded` and `CreateMerkleRoot`.
- Gait.Heights: the contract bounds the count of heights and does not list them; `ConstantHeights` and `NoLandmarksNoHeights` state what is collected.
- Aggregation.ComputeAggregationMetrics: the change magnitude is the sum over the old model's keys of `norm(new[key] - old[key])`. The contract states only that this sum is non-negative, and `UnchangedModelHasNoChange` states that it is 0 for an unchanged model. The sum is not restated because `torch.norm` is an abstract parameter, so its value has no closed form beyond that sum.
- Aggregation.FederatedAveraging: a tensor is its flat list of elements, so layers are compared by element count only. Two layers with equal counts but different shapes, such as (2, 3) and (3, 2), are accepted where torch raises on `+=`. Broadcasting is not modelled; a layer whose element count differs is an error.
- Aggregation.FederatedAveraging: tensors have no dtype. An integer layer, such as a BatchNorm `num_batches_tracked` counter, makes torch raise `RuntimeError` on the in-place `+=` of a float product. The model averages such a layer like any other.
- Aggregation.MedianAggregation: layers are compared by element count only, so two layers with equal counts but different shapes stack where `torch.stack` raises.
- Aggregation.ComputeAggregationMetrics: tensors are flat, so `new_model[key] - old_model[key]` is modelled by element count and torch's broadcasting is not modelled, in either direction. Layers with different element counts are an error in the model even where torch broadcasts them, for example a new layer of shape (1,) against an old layer of shape (3,). Layers with equal counts are subtracted elementwise whether torch broadcasts them, as with (3, 1) against (1, 3), which torch turns into a (3, 3) difference, or raises, as with (2, 3) against (3, 2).
- Versioning.ModelPath: the checkpoint path is the storage directory, `/`, the id and `.pth`, with the directory taken in normal form. How pathlib treats an empty or `.` directory, or a trailing slash, is not modelled.
- Versioning.SaveVersion: metadata values are strings. In the source they are any JSON value, but they are only stored and copied, so no behaviour depends on them.
- The blockchain helpers `verify_transaction_signature`, `create_block_header`, `decode_chaincode_response`, `create_proposal_id`, `create_custody_event`, `format_blockchain_receipt`, `extract_transaction_metadata` and `(de)serialize_for_blockchain` are not modelled: they are placeholders, clock and UUID readers, or JSON wrappers.
- ChainUtils.Json: floating-point JSON values are not part of the value type. `str` of a float is therefore not modelled by `EncodeArg`.
- ChainUtils.EncodeArg: a dict is an unordered map (`JDict`), so the key order that `json.dumps` renders, which is the dict's insertion order since no `sort_keys` is passed, is not modelled. Two dicts that differ only in insertion order are rendered alike by `dumps` in the model, where Python writes different texts.
- ChainUtils.VerifyEvidenceChain: instants are reals. The `TypeError` that Python raises when comparing timezone-aware with naive datetimes is not modelled.
- Tracking.UpdateFrom: the contract does not state that a failed loop keeps the tracks it already changed. That is visible only in `UpdateOne`.
- Tracking.MatchToExistingTrack: its own contract says only that a match is an active track. The full meaning is in `MatchCharacterised`.
- MediaPipe landmarks are records with `x` and `y`. A landmark that is present but falsy (an empty dict) counts as present.
- Gait.ExtractFeatures: the `np.float32` conversion of the feature vector is not modelled.
- Behavior.DetectLoitering: the variance is exact over `real`. The `float(total_movement)` conversion is not modelled.
- `BehaviorPattern.metadata` is a tagged value rather than a dict.
- `format_timestamp`, `parse_timestamp` and `bytes_to_human_readable` are not modelled: they are strftime/strptime wrappers and float formatting.
- Helpers.GetTimeAgo: the elapsed seconds are an input. `utcnow() - dt`, and the `TypeError` for a timezone-aware `dt`, are outside the model.

## Findings

| source | as written | input that shows it | evidently intended | confidence | as-written member | corrected member |
|---|---|---|---|---|---|---|
| ai-surveillance-platform/federated_learning/model_versioning.py:282-300 | `history[:-keep_last_n]` and `history[-keep_last_n:]`; with `keep_last_n = 0`, `-0 == 0` removes nothing and keeps everything | `cleanup_old_versions(0)` on a registry with versions leaves every version in place | keeping the last 0 versions removes them all | not executed; the slicing rule is certain, and the intent is inferred from the parameter's name | Versioning.CleanupZeroKeepsEverything | Versioning.CleanupKeepingNoneEmpties |
| ai-surveillance-platform/backend/app/utils/helpers.py:94-97 | `s[:max_length - len(suffix)] + suffix` when `max_length < len(suffix)` slices with a negative bound, counted from the end | `truncate_string("abcdef", 2)` returns `"abcde..."`, 8 characters for a limit of 2 | a result never longer than `max_length` | not executed | Helpers.TruncateOverflows | Helpers.TruncateBounded |

=== FILE: src/aggregation.dfy ===
/** `ModelAggregator` from federated_learning/model_aggregator.py: strategy dispatch
    with a history of rounds, sample-weighted FedAvg, coordinate-wise median,
    outlier detection over an abstract pairwise similarity, and round metrics. */
module Aggregation {
  import opened Wrappers
  import opened Tensors
  import Sorting
  import Stats

  /** One `(model_state_dict, num_samples)` pair. */
  datatype ClientUpdate = ClientUpdate(model: ModelState, samples: int)

  /** An entry of `aggregation_history`. */
  datatype Round = Round(numClients: nat, totalSamples: int, strategy: string)

  datatype Aggregator = Aggregator(strategy: string, history: seq<Round>)

  /** Cosine similarity of two flattened models, left abstract. */
  type Similarity = (ModelState, ModelState) -> real

  /** `ModelAggregator(aggregation_method)`: no rounds recorded yet. */
  function NewAggregator(strategy: string): (r: Aggregator)
    ensures r.strategy == strategy && r.history == []
  {
    Aggregator(strategy, [])
  }

  function TotalSamples(cs: seq<ClientUpdate>): int
  {
    if |cs| == 0 then 0 else cs[0].samples + TotalSamples(cs[1..])
  }

  // ---------------------------------------------------------------- FedAvg

  /** Elementwise `acc + x * w`. */
  function AddScaled(acc: Tensor, x: Tensor, w: real): (t: Tensor)
    requires |acc| == |x|
    ensures |t| == |acc| && forall j :: 0 <= j < |acc| ==> t[j] == acc[j] + x[j] * w
  {
    seq(|acc|, j requires 0 <= j < |acc| => acc[j] + x[j] * w)
  }

  /** Every key of `m.keys` names a tensor of `m`. */
  lemma KeysInParams(m: ModelState)
    ensures forall t :: 0 <= t < |m.keys| ==> m.keys[t] in m.params
  {
    forall t | 0 <= t < |m.keys| ensures m.keys[t] in m.params {
      assert m.keys[t] in KeyOrder.Elements(m.keys);
    }
  }

  /** Every tensor of `m` is named in `m.keys`. */
  lemma ParamsInKeys(m: ModelState)
    ensures forall k :: k in m.params ==> k in m.keys
  {
    forall k | k in m.params ensures k in m.keys {
      assert k in KeyOrder.Elements(m.keys);
    }
  }

  /** One client's inner loop: `aggregated[key] += model_state[key] * weight` for
      each key of `ks` in order. A key the accumulator lacks raises `KeyError`; a
      tensor of another size cannot be added in place. */
  function AddWeighted(acc: map<string, Tensor>, p: map<string, Tensor>, ks: seq<string>, w: real): (r: Result<map<string, Tensor>>)
    requires forall t :: 0 <= t < |ks| ==> ks[t] in p
    ensures r.Ok? ==> r.value.Keys == acc.Keys
    ensures r.Ok? ==> forall k :: k in acc ==> |r.value[k]| == |acc[k]|
  {
    if |ks| == 0 then Ok(acc)
    else
      var k := ks[0];
      if k !in acc then Err(KeyError)
      else if |p[k]| != |acc[k]| then Err(ShapeMismatch)
      else AddWeighted(acc[k := AddScaled(acc[k], p[k], w)], p, ks[1..], w)
  }

  /** Each key of `ks` is in the accumulator, with a tensor of the same size. */
  predicate FitsKeys(acc: map<string, Tensor>, p: map<string, Tensor>, ks: seq<string>)
    requires forall t :: 0 <= t < |ks| ==> ks[t] in p
  {
    forall t :: 0 <= t < |ks| ==> ks[t] in acc && |p[ks[t]]| == |acc[ks[t]]|
  }

  /** A client's layers are added without error exactly when they all fit. */
  lemma {:induction false} AddWeightedOk(acc: map<string, Tensor>, p: map<string, Tensor>, ks: seq<string>, w: real)
    requires forall t :: 0 <= t < |ks| ==> ks[t] in p
    ensures AddWeighted(acc, p, ks, w).Ok? <==> FitsKeys(acc, p, ks)
  {
    if |ks| > 0 && ks[0] in acc && |p[ks[0]]| == |acc[ks[0]]| {
      var acc' := acc[ks[0] := AddScaled(acc[ks[0]], p[ks[0]], w)];
      AddWeightedOk(acc', p, ks[1..], w);
      assert FitsKeys(acc', p, ks[1..]) <==> FitsKeys(acc, p, ks) by {
        if FitsKeys(acc', p, ks[1..]) {
          forall t | 0 <= t < |ks| ensures ks[t] in acc && |p[ks[t]]| == |acc[ks[t]]| {
            if t > 0 { assert ks[t] == ks[1..][t - 1]; }
          }
        }
      }
    }
  }

  /** After one client, each coordinate grew by that client's weighted value. */
  lemma {:induction false} AddWeightedValue(acc: map<string, Tensor>, p: map<string, Tensor>, ks: seq<string>, w: real, k: string, j: nat)
    requires forall t :: 0 <= t < |ks| ==> ks[t] in p
    requires KeyOrder.Distinct(ks)
    requires FitsKeys(acc, p, ks) && AddWeighted(acc, p, ks, w).Ok?
    requires k in acc && j < |acc[k]|
    ensures AddWeighted(acc, p, ks, w).value[k][j] == acc[k][j] + (if k in ks then p[k][j] * w else 0.0)
  {
    if |ks| > 0 {
      var k0 := ks[0];
      var acc' := acc[k0 := AddScaled(acc[k0], p[k0], w)];
      assert KeyOrder.Distinct(ks[1..]) by {
        forall a, b | 0 <= a < b < |ks[1..]| ensures ks[1..][a] != ks[1..][b] {
          assert ks[1..][a] == ks[a + 1] && ks[1..][b] == ks[b + 1];
        }
      }
      assert FitsKeys(acc', p, ks[1..]) by {
        forall t | 0 <= t < |ks[1..]| ensures ks[1..][t] in acc' && |p[ks[1..][t]]| == |acc'[ks[1..][t]]| {
          assert ks[1..][t] == ks[t + 1];
        }
      }
      AddWeightedValue(acc', p, ks[1..], w, k, j);
      assert k0 !in ks[1..] by {
        forall t | 0 <= t < |ks[1..]| ensures ks[1..][t] != k0 {
          assert ks[1..][t] == ks[t + 1];
        }
      }
      assert k in ks <==> k == k0 || k in ks[1..] by {
        assert ks == [k0] + ks[1..];
      }
    }
  }

  /** The closed form of FedAvg at coordinate `j` of layer `k`: the sum, over the
      clients holding `k`, of `m_i[k][j] * (n_i / total)`. */
  function WeightedColumnSum(cs: seq<ClientUpdate>, total: int, k: string, j: nat): real
    requires total != 0
  {
    if |cs| == 0 then 0.0
    else
      var p := cs[0].model.params;
      (if k in p && j < |p[k]| then p[k][j] * ((cs[0].samples as real) / (total as real)) else 0.0)
        + WeightedColumnSum(cs[1..], total, k, j)
  }

  /** The weight of each client, `num_samples / total_samples`. */
  function Weight(c: ClientUpdate, total: int): real
    requires total != 0
  {
    (c.samples as real) / (total as real)
  }

  /** The outer loop over clients. */
  function Accumulate(acc: map<string, Tensor>, cs: seq<ClientUpdate>, total: int): (r: Result<map<string, Tensor>>)
    requires total != 0
    ensures r.Ok? ==> r.value.Keys == acc.Keys
    ensures r.Ok? ==> forall k :: k in acc ==> |r.value[k]| == |acc[k]|
  {
    if |cs| == 0 then Ok(acc)
    else
      KeysInParams(cs[0].model);
      match AddWeighted(acc, cs[0].model.params, cs[0].model.keys, Weight(cs[0], total))
      case Err(e) => Err(e)
      case Ok(a) => Accumulate(a, cs[1..], total)
  }

  /** Every client's layers fit the accumulator. */
  predicate FitsAll(cs: seq<ClientUpdate>, acc: map<string, Tensor>)
  {
    forall i, t :: 0 <= i < |cs| && 0 <= t < |cs[i].model.keys| ==>
      cs[i].model.keys[t] in acc && cs[i].model.keys[t] in cs[i].model.params
      && |cs[i].model.params[cs[i].model.keys[t]]| == |acc[cs[i].model.keys[t]]|
  }

  lemma {:induction false} AccumulateOk(acc: map<string, Tensor>, cs: seq<ClientUpdate>, total: int)
    requires total != 0
    ensures Accumulate(acc, cs, total).Ok? <==> FitsAll(cs, acc)
  {
    if |cs| > 0 {
      var m := cs[0].model;
      KeysInParams(m);
      AddWeightedOk(acc, m.params, m.keys, Weight(cs[0], total));
      var step := AddWeighted(acc, m.params, m.keys, Weight(cs[0], total));
      if step.Ok? {
        var a := step.value;
        AccumulateOk(a, cs[1..], total);
        assert FitsAll(cs[1..], a) <==> FitsAll(cs, acc) by {
          if FitsAll(cs[1..], a) {
            forall i, t | 0 <= i < |cs| && 0 <= t < |cs[i].model.keys|
              ensures cs[i].model.keys[t] in acc && cs[i].model.keys[t] in cs[i].model.params
                && |cs[i].model.params[cs[i].model.keys[t]]| == |acc[cs[i].model.keys[t]]|
            {
              if i > 0 { assert cs[i] == cs[1..][i - 1]; }
            }
          }
          if FitsAll(cs, acc) {
            forall i, t | 0 <= i < |cs[1..]| && 0 <= t < |cs[1..][i].model.keys|
              ensures cs[1..][i].model.keys[t] in a && cs[1..][i].model.keys[t] in cs[1..][i].model.params
                && |cs[1..][i].model.params[cs[1..][i].model.keys[t]]| == |a[cs[1..][i].model.keys[t]]|
            {
              assert cs[1..][i] == cs[i + 1];
            }
          }
        }
      } else {
        assert !FitsKeys(acc, m.params, m.keys);
      }
    }
  }

  /** One whole client: coordinate `j` of layer `k` grew by the client's weighted
      value there, or not at all when the client lacks the layer. */
  lemma AddClientValue(acc: map<string, Tensor>, m: ModelState, w: real, k: string, j: nat)
    requires forall t :: 0 <= t < |m.keys| ==> m.keys[t] in m.params
    requires AddWeighted(acc, m.params, m.keys, w).Ok?
    requires k in acc && j < |acc[k]|
    ensures AddWeighted(acc, m.params, m.keys, w).value[k][j]
      == acc[k][j] + (if k in m.params && j < |m.params[k]| then m.params[k][j] * w else 0.0)
  {
    AddWeightedOk(acc, m.params, m.keys, w);
    AddWeightedValue(acc, m.params, m.keys, w, k, j);
    if k in m.params {
      assert k in KeyOrder.Elements(m.keys);
      var t :| 0 <= t < |m.keys| && m.keys[t] == k;
      assert |m.params[k]| == |acc[k]|;
    } else {
      assert k !in m.keys;
    }
  }

  lemma {:induction false} AccumulateValue(acc: map<string, Tensor>, cs: seq<ClientUpdate>, total: int, k: string, j: nat)
    requires total != 0
    requires Accumulate(acc, cs, total).Ok?
    requires k in acc && j < |acc[k]|
    ensures Accumulate(acc, cs, total).value[k][j] == acc[k][j] + WeightedColumnSum(cs, total, k, j)
  {
    if |cs| > 0 {
      var m := cs[0].model;
      var w := Weight(cs[0], total);
      KeysInParams(m);
      var step := AddWeighted(acc, m.params, m.keys, w);
      assert step.Ok?;
      AddClientValue(acc, m, w, k, j);
      AccumulateValue(step.value, cs[1..], total, k, j);
    }
  }

  /** Every client's layers are layers of the first client, with the same sizes:
      the condition under which FedAvg's in-place updates all succeed. */
  predicate CompatibleWithFirst(cs: seq<ClientUpdate>)
    requires |cs| > 0
  {
    forall i, k :: 0 <= i < |cs| && k in cs[i].model.params ==>
      k in cs[0].model.params && |cs[i].model.params[k]| == |cs[0].model.params[k]|
  }

  /** `_federated_averaging`: zero tensors shaped like the first client's, then each
      client's layers added with weight `num_samples / total_samples`. A zero sample
      total raises before any layer is touched. */
  function FederatedAveraging(cs: seq<ClientUpdate>): (r: Result<ModelState>)
    requires |cs| > 0
    ensures TotalSamples(cs) == 0 ==> r == Err(ZeroDivision)
    ensures TotalSamples(cs) != 0 ==> (r.Ok? <==> CompatibleWithFirst(cs))
    ensures r.Ok? ==> r.value.keys == cs[0].model.keys
    ensures r.Ok? ==> forall k :: k in r.value.params ==> |r.value.params[k]| == |cs[0].model.params[k]|
  {
    var total := TotalSamples(cs);
    if total == 0 then Err(ZeroDivision)
    else
      var first := cs[0].model;
      var zeros := map k | k in first.params :: Zeros(|first.params[k]|);
      AccumulateOk(zeros, cs, total);
      assert FitsAll(cs, zeros) <==> CompatibleWithFirst(cs) by {
        if CompatibleWithFirst(cs) {
          forall i, t | 0 <= i < |cs| && 0 <= t < |cs[i].model.keys|
            ensures cs[i].model.keys[t] in zeros && cs[i].model.keys[t] in cs[i].model.params
              && |cs[i].model.params[cs[i].model.keys[t]]| == |zeros[cs[i].model.keys[t]]|
          {
            KeysInParams(cs[i].model);
          }
        }
        if FitsAll(cs, zeros) {
          forall i, k | 0 <= i < |cs| && k in cs[i].model.params
            ensures k in first.params && |cs[i].model.params[k]| == |first.params[k]|
          {
            assert k in KeyOrder.Elements(cs[i].model.keys);
            var t :| 0 <= t < |cs[i].model.keys| && cs[i].model.keys[t] == k;
          }
        }
      }
      match Accumulate(zeros, cs, total)
      case Err(e) => Err(e)
      case Ok(acc) =>
        var out: ModelState := StateDict(first.keys, acc);
        Ok(out)
  }

  /** Each coordinate of the FedAvg result is the sample-weighted sum of the
      clients' values there. */
  lemma FederatedAveragingIsWeightedSum(cs: seq<ClientUpdate>, k: string, j: nat)
    requires |cs| > 0
    requires FederatedAveraging(cs).Ok?
    requires k in FederatedAveraging(cs).value.params && j < |FederatedAveraging(cs).value.params[k]|
    ensures FederatedAveraging(cs).value.params[k][j] == WeightedColumnSum(cs, TotalSamples(cs), k, j)
  {
    var first := cs[0].model;
    var zeros := map k | k in first.params :: Zeros(|first.params[k]|);
    AccumulateValue(zeros, cs, TotalSamples(cs), k, j);
  }

  /** `_weighted_averaging`: for now the same computation as FedAvg. */
  function WeightedAveraging(cs: seq<ClientUpdate>): (r: Result<ModelState>)
    requires |cs| > 0
    ensures r == FederatedAveraging(cs)
    ensures r.Ok? ==> forall k, j: nat :: k in r.value.params && j < |r.value.params[k]| ==>
      r.value.params[k][j] == WeightedColumnSum(cs, TotalSamples(cs), k, j)
  {
    assert FederatedAveraging(cs).Ok? ==> forall k, j: nat :: k in FederatedAveraging(cs).value.params && j < |FederatedAveraging(cs).value.params[k]| ==>
      FederatedAveraging(cs).value.params[k][j] == WeightedColumnSum(cs, TotalSamples(cs), k, j) by {
      if FederatedAveraging(cs).Ok? {
        forall k, j: nat | k in FederatedAveraging(cs).value.params && j < |FederatedAveraging(cs).value.params[k]|
          ensures FederatedAveraging(cs).value.params[k][j] == WeightedColumnSum(cs, TotalSamples(cs), k, j)
        {
          FederatedAveragingIsWeightedSum(cs, k, j);
        }
      }
    }
    FederatedAveraging(cs)
  }

  /** The sum of the clients' weights `n_i / total`. */
  function WeightSum(cs: seq<ClientUpdate>, total: int): real
    requires total != 0
  {
    if |cs| == 0 then 0.0 else Weight(cs[0], total) + WeightSum(cs[1..], total)
  }

  lemma {:induction false} WeightSumIsRatio(cs: seq<ClientUpdate>, total: int)
    requires total != 0
    ensures WeightSum(cs, total) == (TotalSamples(cs) as real) / (total as real)
  {
    if |cs| > 0 {
      WeightSumIsRatio(cs[1..], total);
      var a := cs[0].samples as real;
      var b := TotalSamples(cs[1..]) as real;
      var t := total as real;
      assert a / t + b / t == (a + b) / t;
    }
  }

  /** With the weights FedAvg uses, they add up to one. */
  lemma WeightsSumToOne(cs: seq<ClientUpdate>)
    requires TotalSamples(cs) != 0
    ensures WeightSum(cs, TotalSamples(cs)) == 1.0
  {
    WeightSumIsRatio(cs, TotalSamples(cs));
    var t := TotalSamples(cs) as real;
    assert t != 0.0;
    assert t / t == 1.0;
  }

  /** Every client holds coordinate `j` of layer `k`. */
  predicate HoldsCoordinate(cs: seq<ClientUpdate>, k: string, j: nat)
  {
    forall i :: 0 <= i < |cs| ==> k in cs[i].model.params && j < |cs[i].model.params[k]|
  }

  lemma {:induction false} ColumnSumOfAgreement(cs: seq<ClientUpdate>, total: int, k: string, j: nat, v: real)
    requires total != 0
    requires HoldsCoordinate(cs, k, j)
    requires forall i :: 0 <= i < |cs| ==> cs[i].model.params[k][j] == v
    ensures WeightedColumnSum(cs, total, k, j) == v * WeightSum(cs, total)
  {
    if |cs| > 0 {
      assert HoldsCoordinate(cs[1..], k, j) by {
        forall i | 0 <= i < |cs[1..]| ensures k in cs[1..][i].model.params && j < |cs[1..][i].model.params[k]| {
          assert cs[1..][i] == cs[i + 1];
        }
      }
      assert forall i :: 0 <= i < |cs[1..]| ==> cs[1..][i].model.params[k][j] == v by {
        forall i | 0 <= i < |cs[1..]| ensures cs[1..][i].model.params[k][j] == v {
          assert cs[1..][i] == cs[i + 1];
        }
      }
      ColumnSumOfAgreement(cs[1..], total, k, j, v);
      var w := Weight(cs[0], total);
      assert v * w + v * WeightSum(cs[1..], total) == v * (w + WeightSum(cs[1..], total));
    }
  }

  /** Where every client holds the same value, FedAvg reproduces it. */
  lemma FederatedAveragingOfAgreement(cs: seq<ClientUpdate>, k: string, j: nat, v: real)
    requires |cs| > 0
    requires FederatedAveraging(cs).Ok?
    requires k in FederatedAveraging(cs).value.params && j < |FederatedAveraging(cs).value.params[k]|
    requires HoldsCoordinate(cs, k, j)
    requires forall i :: 0 <= i < |cs| ==> cs[i].model.params[k][j] == v
    ensures FederatedAveraging(cs).value.params[k][j] == v
  {
    FederatedAveragingIsWeightedSum(cs, k, j);
    ColumnSumOfAgreement(cs, TotalSamples(cs), k, j, v);
    WeightsSumToOne(cs);
  }

  lemma MulMonotone(a: real, b: real, w: real)
    requires a <= b && 0.0 <= w
    ensures a * w <= b * w
  {
    assert b * w - a * w == (b - a) * w;
  }

  lemma {:induction false} ColumnSumBounds(cs: seq<ClientUpdate>, total: int, k: string, j: nat, lo: real, hi: real)
    requires total > 0
    requires forall i :: 0 <= i < |cs| ==> 0 <= cs[i].samples
    requires HoldsCoordinate(cs, k, j)
    requires forall i :: 0 <= i < |cs| ==> lo <= cs[i].model.params[k][j] <= hi
    ensures lo * WeightSum(cs, total) <= WeightedColumnSum(cs, total, k, j) <= hi * WeightSum(cs, total)
  {
    if |cs| > 0 {
      var rest := cs[1..];
      BoundedTail(cs, k, j, lo, hi);
      ColumnSumBounds(rest, total, k, j, lo, hi);
      ColumnStepBounds(cs, total, k, j, lo, hi);
    }
  }

  /** The bounds for all clients follow from the bounds for all but the first. */
  lemma ColumnStepBounds(cs: seq<ClientUpdate>, total: int, k: string, j: nat, lo: real, hi: real)
    requires total > 0 && |cs| > 0 && 0 <= cs[0].samples
    requires k in cs[0].model.params && j < |cs[0].model.params[k]|
    requires lo <= cs[0].model.params[k][j] <= hi
    requires lo * WeightSum(cs[1..], total) <= WeightedColumnSum(cs[1..], total, k, j) <= hi * WeightSum(cs[1..], total)
    ensures lo * WeightSum(cs, total) <= WeightedColumnSum(cs, total, k, j) <= hi * WeightSum(cs, total)
  {
    var w := Weight(cs[0], total);
    WeightNonNegative(cs[0], total);
    var x := cs[0].model.params[k][j];
    StepBounds(lo, hi, x, w, WeightSum(cs[1..], total), WeightedColumnSum(cs[1..], total, k, j));
  }

  /** The hypotheses of `ColumnSumBounds` pass to the remaining clients. */
  lemma BoundedTail(cs: seq<ClientUpdate>, k: string, j: nat, lo: real, hi: real)
    requires |cs| > 0
    requires forall i :: 0 <= i < |cs| ==> 0 <= cs[i].samples
    requires HoldsCoordinate(cs, k, j)
    requires forall i :: 0 <= i < |cs| ==> lo <= cs[i].model.params[k][j] <= hi
    ensures forall i :: 0 <= i < |cs[1..]| ==> 0 <= cs[1..][i].samples
    ensures HoldsCoordinate(cs[1..], k, j)
    ensures forall i :: 0 <= i < |cs[1..]| ==> lo <= cs[1..][i].model.params[k][j] <= hi
  {
    assert forall i :: 0 <= i < |cs[1..]| ==> cs[1..][i] == cs[i + 1];
  }

  lemma WeightNonNegative(c: ClientUpdate, total: int)
    requires total > 0 && 0 <= c.samples
    ensures 0.0 <= Weight(c, total)
  {
    var a := c.samples as real;
    var t := total as real;
    assert a / t == a * (1.0 / t);
    assert 0.0 < 1.0 / t;
  }

  /** One more client keeps the bounds: `lo*w <= x*w <= hi*w` added to the rest. */
  lemma StepBounds(lo: real, hi: real, x: real, w: real, ws: real, sum: real)
    requires lo <= x <= hi && 0.0 <= w
    requires lo * ws <= sum <= hi * ws
    ensures lo * (w + ws) <= x * w + sum <= hi * (w + ws)
  {
    MulMonotone(lo, x, w);
    MulMonotone(x, hi, w);
    assert lo * (w + ws) == lo * w + lo * ws;
    assert hi * (w + ws) == hi * w + hi * ws;
  }

  /** With non-negative sample counts, each FedAvg coordinate lies between the
      smallest and the largest client value there. */
  lemma FederatedAveragingBounded(cs: seq<ClientUpdate>, k: string, j: nat, lo: real, hi: real)
    requires |cs| > 0
    requires forall i :: 0 <= i < |cs| ==> 0 <= cs[i].samples
    requires FederatedAveraging(cs).Ok?
    requires k in FederatedAveraging(cs).value.params && j < |FederatedAveraging(cs).value.params[k]|
    requires HoldsCoordinate(cs, k, j)
    requires forall i :: 0 <= i < |cs| ==> lo <= cs[i].model.params[k][j] <= hi
    ensures lo <= FederatedAveraging(cs).value.params[k][j] <= hi
  {
    TotalNonNegative(cs);
    FederatedAveragingIsWeightedSum(cs, k, j);
    ColumnSumBounds(cs, TotalSamples(cs), k, j, lo, hi);
    WeightsSumToOne(cs);
  }

  lemma {:induction false} TotalNonNegative(cs: seq<ClientUpdate>)
    requires forall i :: 0 <= i < |cs| ==> 0 <= cs[i].samples
    ensures 0 <= TotalSamples(cs)
  {
    if |cs| > 0 {
      assert forall i :: 0 <= i < |cs[1..]| ==> cs[1..][i] == cs[i + 1];
      TotalNonNegative(cs[1..]);
    }
  }

  // ---------------------------------------------------------------- median

  /** The value every client holds at coordinate `j` of layer `k`. */
  function Column(cs: seq<ClientUpdate>, k: string, j: nat): (col: seq<real>)
    requires forall i :: 0 <= i < |cs| ==> k in cs[i].model.params && j < |cs[i].model.params[k]|
    ensures |col| == |cs|
  {
    seq(|cs|, i requires 0 <= i < |cs| => cs[i].model.params[k][j])
  }

  /** Every client holds layer `k`, with the first client's size. */
  predicate LayerStacks(cs: seq<ClientUpdate>, k: string)
    requires |cs| > 0 && k in cs[0].model.params
  {
    forall i :: 0 <= i < |cs| ==> k in cs[i].model.params && |cs[i].model.params[k]| == |cs[0].model.params[k]|
  }

  /** `torch.median(torch.stack([m[key] for m in models]), dim=0)[0]`. */
  function MedianLayer(cs: seq<ClientUpdate>, k: string): (r: Result<Tensor>)
    requires |cs| > 0 && k in cs[0].model.params
    ensures r.Ok? <==> LayerStacks(cs, k)
    ensures r.Ok? ==> |r.value| == |cs[0].model.params[k]|
  {
    if exists i :: 0 <= i < |cs| && k !in cs[i].model.params then Err(KeyError)
    else if exists i :: 0 <= i < |cs| && |cs[i].model.params[k]| != |cs[0].model.params[k]| then Err(ShapeMismatch)
    else
      var n := |cs[0].model.params[k]|;
      Ok(seq(n, j requires 0 <= j < n => Sorting.LowerMedian(Column(cs, k, j))))
  }

  /** Each coordinate of a stacked median is the lower median of that column. */
  lemma MedianLayerIsLowerMedian(cs: seq<ClientUpdate>, k: string, j: nat)
    requires |cs| > 0 && k in cs[0].model.params
    requires MedianLayer(cs, k).Ok? && j < |MedianLayer(cs, k).value|
    ensures Sorting.IsLowerMedian(Column(cs, k, j), MedianLayer(cs, k).value[j])
  {
    Sorting.LowerMedianCharacterised(Column(cs, k, j), MedianLayer(cs, k).value[j]);
  }

  /** The loop over the keys `ks` of the first client. */
  function MedianFrom(cs: seq<ClientUpdate>, ks: seq<string>, acc: map<string, Tensor>): (r: Result<map<string, Tensor>>)
    requires |cs| > 0
    requires forall t :: 0 <= t < |ks| ==> ks[t] in cs[0].model.params
    ensures r.Ok? ==> r.value.Keys == acc.Keys + KeyOrder.Elements(ks)
    ensures r.Ok? ==> forall k :: k in acc && k !in ks ==> r.value[k] == acc[k]
    ensures r.Ok? ==> forall k :: k in ks ==> MedianLayer(cs, k) == Ok(r.value[k])
  {
    if |ks| == 0 then Ok(acc)
    else
      match MedianLayer(cs, ks[0])
      case Err(e) => Err(e)
      case Ok(t) =>
        KeyOrder.ElementsCons(ks);
        MedianFrom(cs, ks[1..], acc[ks[0] := t])
  }

  lemma {:induction false} MedianFromOk(cs: seq<ClientUpdate>, ks: seq<string>, acc: map<string, Tensor>)
    requires |cs| > 0
    requires forall t :: 0 <= t < |ks| ==> ks[t] in cs[0].model.params
    ensures MedianFrom(cs, ks, acc).Ok? <==> forall t :: 0 <= t < |ks| ==> LayerStacks(cs, ks[t])
  {
    if |ks| > 0 && LayerStacks(cs, ks[0]) {
      MedianFromOk(cs, ks[1..], acc[ks[0] := MedianLayer(cs, ks[0]).value]);
      assert forall t :: 1 <= t < |ks| ==> ks[t] == ks[1..][t - 1];
    }
  }

  /** `_median_aggregation`: one stacked median per layer of the first client. A
      layer some client lacks raises `KeyError`; tensors of unequal size cannot be
      stacked. */
  function MedianAggregation(cs: seq<ClientUpdate>): (r: Result<ModelState>)
    requires |cs| > 0
    ensures r.Ok? <==> forall k :: k in cs[0].model.params ==> LayerStacks(cs, k)
    ensures r.Ok? ==> r.value.keys == cs[0].model.keys
    ensures r.Ok? ==> forall k :: k in r.value.params ==> MedianLayer(cs, k) == Ok(r.value.params[k])
  {
    var keys := cs[0].model.keys;
    KeysInParams(cs[0].model);
    MedianFromOk(cs, keys, map[]);
    ParamsInKeys(cs[0].model);
    match MedianFrom(cs, keys, map[])
    case Err(e) => Err(e)
    case Ok(acc) =>
      assert acc.Keys == cs[0].model.params.Keys;
      var out: ModelState := StateDict(keys, acc);
      Ok(out)
  }

  /** Each coordinate of the median aggregate is the lower median of the clients'
      values there, and the layer keeps the first client's size. */
  lemma MedianAggregationIsCoordinateMedian(cs: seq<ClientUpdate>, k: string, j: nat)
    requires |cs| > 0
    requires MedianAggregation(cs).Ok? && k in MedianAggregation(cs).value.params
    ensures k in cs[0].model.params && LayerStacks(cs, k)
    ensures |MedianAggregation(cs).value.params[k]| == |cs[0].model.params[k]|
    ensures j < |cs[0].model.params[k]| ==>
      Sorting.IsLowerMedian(Column(cs, k, j), MedianAggregation(cs).value.params[k][j])
  {
    if j < |cs[0].model.params[k]| {
      MedianLayerIsLowerMedian(cs, k, j);
    }
  }

  // ---------------------------------------------------------------- outliers

  /** Entry `(i, j)` of the similarity matrix: only `sim(c_i, c_j)` for `i < j` is
      computed and copied to both halves; the diagonal keeps its zero. */
  function SimilarityEntry(sim: Similarity, cs: seq<ClientUpdate>, i: nat, j: nat): real
    requires i < |cs| && j < |cs|
  {
    if i < j then sim(cs[i].model, cs[j].model)
    else if j < i then sim(cs[j].model, cs[i].model)
    else 0.0
  }

  /** Row `i` of the similarity matrix. */
  function SimilarityRow(sim: Similarity, cs: seq<ClientUpdate>, i: nat): (row: seq<real>)
    requires i < |cs|
    ensures |row| == |cs|
  {
    seq(|cs|, j requires 0 <= j < |cs| => SimilarityEntry(sim, cs, i, j))
  }

  /** `np.mean(similarities[i, :])`. */
  function AverageSimilarity(sim: Similarity, cs: seq<ClientUpdate>, i: nat): real
    requires i < |cs|
  {
    Stats.Mean(SimilarityRow(sim, cs, i))
  }

  predicate IsOutlier(sim: Similarity, cs: seq<ClientUpdate>, threshold: real, i: nat)
    requires i < |cs|
  {
    AverageSimilarity(sim, cs, i) < threshold
  }

  /** The similarities of client `i` to every other client, in index order. */
  function OthersSimilarities(sim: Similarity, cs: seq<ClientUpdate>, i: nat): (xs: seq<real>)
    requires i < |cs|
    ensures |xs| == |cs| - 1
    ensures forall k :: 0 <= k < |xs| ==> xs[k] == SimilarityRow(sim, cs, i)[if k < i then k else k + 1]
  {
    var row := SimilarityRow(sim, cs, i);
    row[..i] + row[i + 1..]
  }

  /** The zero diagonal stays in the mean: the average is the sum over the other
      clients divided by `n`, not by `n - 1`. */
  lemma AverageCountsDiagonal(sim: Similarity, cs: seq<ClientUpdate>, i: nat)
    requires i < |cs|
    ensures AverageSimilarity(sim, cs, i) == Stats.Sum(OthersSimilarities(sim, cs, i)) / (|cs| as real)
  {
    var row := SimilarityRow(sim, cs, i);
    assert row == row[..i] + [row[i]] + row[i + 1..];
    Stats.SumAppend(row[..i] + [row[i]], row[i + 1..]);
    Stats.SumAppend(row[..i], [row[i]]);
    Stats.SumAppend(row[..i], row[i + 1..]);
    assert Stats.Sum([row[i]]) == 0.0;
  }

  predicate StrictlyIncreasing(xs: seq<nat>)
  {
    forall a, b :: 0 <= a < b < |xs| ==> xs[a] < xs[b]
  }

  /** The scan over clients `i..n-1`. */
  function OutliersFrom(sim: Similarity, cs: seq<ClientUpdate>, threshold: real, i: nat): (r: seq<nat>)
    requires i <= |cs|
    ensures StrictlyIncreasing(r)
    ensures forall t :: 0 <= t < |r| ==> i <= r[t] < |cs|
    ensures forall x :: x in r <==> i <= x < |cs| && IsOutlier(sim, cs, threshold, x)
    decreases |cs| - i
  {
    if i == |cs| then []
    else
      var rest := OutliersFrom(sim, cs, threshold, i + 1);
      if IsOutlier(sim, cs, threshold, i) then [i] + rest else rest
  }

  /** `detect_outlier_clients`: nothing with fewer than three clients; otherwise
      the indices whose average similarity is below the threshold, in order. */
  function DetectOutlierClients(sim: Similarity, cs: seq<ClientUpdate>, threshold: real): (r: seq<nat>)
    ensures |cs| < 3 ==> r == []
    ensures StrictlyIncreasing(r)
    ensures forall x: nat :: x in r <==> 3 <= |cs| && x < |cs| && IsOutlier(sim, cs, threshold, x)
  {
    if |cs| < 3 then [] else OutliersFrom(sim, cs, threshold, 0)
  }

  /** With every pair as similar as can be, three clients all average 2/3: under a
      threshold of 0.7 every client is flagged, because the diagonal counts. */
  lemma AllFlaggedThoughIdentical(sim: Similarity, cs: seq<ClientUpdate>)
    requires |cs| == 3
    requires forall a, b :: sim(a, b) == 1.0
    ensures DetectOutlierClients(sim, cs, 0.7) == [0, 1, 2]
  {
    forall i | 0 <= i < 3 ensures AverageSimilarity(sim, cs, i) == 2.0 / 3.0 {
      AverageCountsDiagonal(sim, cs, i);
      var others := OthersSimilarities(sim, cs, i);
      forall t | 0 <= t < |others| ensures others[t] == 1.0 {
        assert others[t] == if t < i then SimilarityEntry(sim, cs, i, t) else SimilarityEntry(sim, cs, i, t + 1);
      }
      Stats.SumOfConstant(others, 1.0);
    }
    assert OutliersFrom(sim, cs, 0.7, 3) == [];
    assert OutliersFrom(sim, cs, 0.7, 2) == [2];
    assert OutliersFrom(sim, cs, 0.7, 1) == [1, 2];
  }

  /** The indices `i..n-1` absent from `flagged`, in order. */
  function UnflaggedFrom(n: nat, flagged: seq<nat>, i: nat): (u: seq<nat>)
    requires i <= n
    ensures StrictlyIncreasing(u)
    ensures forall t :: 0 <= t < |u| ==> i <= u[t] < n
    ensures forall x :: x in u <==> i <= x < n && x !in flagged
    decreases n - i
  {
    if i == n then []
    else
      var rest := UnflaggedFrom(n, flagged, i + 1);
      if i in flagged then rest else [i] + rest
  }

  /** The list comprehension `[c_i for i in range(n) if i not in flagged]`. */
  function KeepFrom(cs: seq<ClientUpdate>, flagged: seq<nat>, i: nat): (r: seq<ClientUpdate>)
    requires i <= |cs|
    ensures |r| == |UnflaggedFrom(|cs|, flagged, i)|
    ensures forall t :: 0 <= t < |r| ==> r[t] == cs[UnflaggedFrom(|cs|, flagged, i)[t]]
    decreases |cs| - i
  {
    if i == |cs| then []
    else
      var rest := KeepFrom(cs, flagged, i + 1);
      if i in flagged then rest else [cs[i]] + rest
  }

  /** `filter_outliers`: the input itself when nothing is flagged, else exactly the
      unflagged clients in their original order. */
  function FilterOutliers(sim: Similarity, cs: seq<ClientUpdate>, threshold: real): (r: seq<ClientUpdate>)
    ensures DetectOutlierClients(sim, cs, threshold) == [] ==> r == cs
    ensures var u := UnflaggedFrom(|cs|, DetectOutlierClients(sim, cs, threshold), 0);
      |r| == |u| && forall t :: 0 <= t < |r| ==> r[t] == cs[u[t]]
  {
    var flagged := DetectOutlierClients(sim, cs, threshold);
    if flagged == [] then
      UnflaggedNone(|cs|, 0);
      cs
    else KeepFrom(cs, flagged, 0)
  }

  /** With nothing flagged the unflagged indices are all of them. */
  lemma {:induction false} UnflaggedNone(n: nat, i: nat)
    requires i <= n
    ensures |UnflaggedFrom(n, [], i)| == n - i
    ensures forall t :: 0 <= t < n - i ==> UnflaggedFrom(n, [], i)[t] == i + t
    decreases n - i
  {
    if i < n {
      UnflaggedNone(n, i + 1);
    }
  }

  // ---------------------------------------------------------------- metrics

  /** The pairs `(i, j)` with `i < j < n` in the order of the nested loops. */
  function PairsFrom(i: nat, n: nat): (ps: seq<(nat, nat)>)
    requires i <= n
    ensures forall t :: 0 <= t < |ps| ==> i <= ps[t].0 < ps[t].1 < n
    decreases n - i
  {
    if i == n then [] else RowPairs(i, i + 1, n) + PairsFrom(i + 1, n)
  }

  function RowPairs(i: nat, j: nat, n: nat): (ps: seq<(nat, nat)>)
    requires i < j <= n
    ensures |ps| == n - j
    ensures forall t :: 0 <= t < |ps| ==> ps[t] == (i, j + t)
    decreases n - j
  {
    if j == n then [] else [(i, j)] + RowPairs(i, j + 1, n)
  }

  /** Every unordered pair of distinct clients is visited exactly once. */
  lemma {:induction false} PairsFromComplete(i: nat, n: nat, a: nat, b: nat)
    requires i <= n
    ensures (a, b) in PairsFrom(i, n) <==> i <= a < b < n
    decreases n - i
  {
    if i < n {
      PairsFromComplete(i + 1, n, a, b);
      var row := RowPairs(i, i + 1, n);
      if a == i && i < b < n {
        assert row[b - i - 1] == (a, b);
      }
      assert (a, b) in PairsFrom(i, n) <==> (a, b) in row || (a, b) in PairsFrom(i + 1, n);
    }
  }

  lemma {:induction false} PairsFromCount(i: nat, n: nat)
    requires i <= n
    ensures 2 * |PairsFrom(i, n)| == (n - i) * (n - i - 1)
    decreases n - i
  {
    if i < n {
      PairsFromCount(i + 1, n);
      assert (n - i) * (n - i - 1) == 2 * (n - i - 1) + (n - i - 1) * (n - i - 2);
    }
  }

  /** `1 - sim(c_i, c_j)` for every pair, in loop order. */
  function Diversities(sim: Similarity, cs: seq<ClientUpdate>): (ds: seq<real>)
    ensures |ds| == |PairsFrom(0, |cs|)|
  {
    var ps := PairsFrom(0, |cs|);
    seq(|ps|, t requires 0 <= t < |ps| => 1.0 - sim(cs[ps[t].0].model, cs[ps[t].1].model))
  }

  datatype Metrics = Metrics(changeMagnitude: real, avgClientDiversity: real, numClients: nat)

  /** The loop over the previous model's keys: `norm(next[key] - prev[key])` summed. A key
      the new model lacks raises `KeyError`; tensors of different sizes cannot be
      subtracted. */
  function ChangeFrom(norm: Tensor -> real, prev: ModelState, next: ModelState, ks: seq<string>): (r: Result<real>)
    requires forall t :: 0 <= t < |ks| ==> ks[t] in prev.params
    ensures r.Ok? <==> forall t :: 0 <= t < |ks| ==> ks[t] in next.params && |next.params[ks[t]]| == |prev.params[ks[t]]|
    ensures r.Ok? && (forall x :: 0.0 <= norm(x)) ==> 0.0 <= r.value
  {
    if |ks| == 0 then Ok(0.0)
    else
      var k := ks[0];
      if k !in next.params then Err(KeyError)
      else if |next.params[k]| != |prev.params[k]| then Err(ShapeMismatch)
      else
        match ChangeFrom(norm, prev, next, ks[1..])
        case Err(e) => Err(e)
        case Ok(rest) => Ok(norm(Sub(next.params[k], prev.params[k])) + rest)
  }

  /** `compute_aggregation_metrics` with `torch.norm` and the similarity abstract. */
  function ComputeAggregationMetrics(norm: Tensor -> real, sim: Similarity, prev: ModelState, next: ModelState, cs: seq<ClientUpdate>): (r: Result<Metrics>)
    ensures r.Ok? <==> forall k :: k in prev.params ==> k in next.params && |next.params[k]| == |prev.params[k]|
    ensures r.Ok? ==> r.value.numClients == |cs|
    ensures r.Ok? && |cs| <= 1 ==> r.value.avgClientDiversity == 0.0
    ensures r.Ok? && |cs| > 1 ==> r.value.avgClientDiversity == Stats.Mean(Diversities(sim, cs))
    ensures r.Ok? && (forall x :: 0.0 <= norm(x)) ==> 0.0 <= r.value.changeMagnitude
  {
    KeysInParams(prev);
    ParamsInKeys(prev);
    assert (forall t :: 0 <= t < |prev.keys| ==> prev.keys[t] in next.params && |next.params[prev.keys[t]]| == |prev.params[prev.keys[t]]|)
      <==> (forall k :: k in prev.params ==> k in next.params && |next.params[k]| == |prev.params[k]|) by {
      forall k | k in prev.params ensures exists t :: 0 <= t < |prev.keys| && prev.keys[t] == k {
        assert k in prev.keys;
      }
    }
    match ChangeFrom(norm, prev, next, prev.keys)
    case Err(e) => Err(e)
    case Ok(change) =>
      var diversity := if |cs| > 1 then Stats.Mean(DiversitiesNonEmpty(sim, cs)) else 0.0;
      Ok(Metrics(change, diversity, |cs|))
  }

  /** With two or more clients there is at least one pair to average over. */
  function DiversitiesNonEmpty(sim: Similarity, cs: seq<ClientUpdate>): (ds: seq<real>)
    requires |cs| > 1
    ensures |ds| > 0 && ds == Diversities(sim, cs)
  {
    PairsFromCount(0, |cs|);
    Diversities(sim, cs)
  }

  /** A layer that did not move contributes nothing: over keys of an unchanged
      model the summed norms are zero, given a norm that is zero on zeros. */
  lemma {:induction false} ChangeFromSelf(norm: Tensor -> real, m: ModelState, ks: seq<string>)
    requires forall x :: (forall j :: 0 <= j < |x| ==> x[j] == 0.0) ==> norm(x) == 0.0
    requires forall t :: 0 <= t < |ks| ==> ks[t] in m.params
    ensures ChangeFrom(norm, m, m, ks) == Ok(0.0)
    decreases |ks|
  {
    if |ks| > 0 {
      ChangeFromSelf(norm, m, ks[1..]);
      var x := m.params[ks[0]];
      assert norm(Sub(x, x)) == 0.0;
    }
  }

  /** Comparing a model with itself succeeds and reports no change. */
  lemma UnchangedModelHasNoChange(norm: Tensor -> real, sim: Similarity, m: ModelState, cs: seq<ClientUpdate>)
    requires forall x :: (forall j :: 0 <= j < |x| ==> x[j] == 0.0) ==> norm(x) == 0.0
    ensures ComputeAggregationMetrics(norm, sim, m, m, cs).Ok?
    ensures ComputeAggregationMetrics(norm, sim, m, m, cs).value.changeMagnitude == 0.0
  {
    KeysInParams(m);
    ChangeFromSelf(norm, m, m.keys);
  }

  /** When every pair has similarity `s`, the average diversity is `1 - s`. */
  lemma DiversityOfUniformSimilarity(norm: Tensor -> real, sim: Similarity, prev: ModelState, next: ModelState, cs: seq<ClientUpdate>, s: real)
    requires |cs| > 1
    requires forall a, b :: sim(a, b) == s
    requires ComputeAggregationMetrics(norm, sim, prev, next, cs).Ok?
    ensures ComputeAggregationMetrics(norm, sim, prev, next, cs).value.avgClientDiversity == 1.0 - s
  {
    var ds := DiversitiesNonEmpty(sim, cs);
    forall t | 0 <= t < |ds| ensures ds[t] == 1.0 - s {
      var ps := PairsFrom(0, |cs|);
      assert ds[t] == 1.0 - sim(cs[ps[t].0].model, cs[ps[t].1].model);
    }
    Stats.MeanOfConstant(ds, 1.0 - s);
  }

  /** Similarities of at most one give a non-negative diversity. */
  lemma DiversityNonNegative(norm: Tensor -> real, sim: Similarity, prev: ModelState, next: ModelState, cs: seq<ClientUpdate>)
    requires forall a, b :: sim(a, b) <= 1.0
    requires ComputeAggregationMetrics(norm, sim, prev, next, cs).Ok?
    ensures 0.0 <= ComputeAggregationMetrics(norm, sim, prev, next, cs).value.avgClientDiversity
  {
    if |cs| > 1 {
      var ds := DiversitiesNonEmpty(sim, cs);
      forall t | 0 <= t < |ds| ensures 0.0 <= ds[t] {
        var ps := PairsFrom(0, |cs|);
        assert ds[t] == 1.0 - sim(cs[ps[t].0].model, cs[ps[t].1].model);
      }
      Stats.SumNonNegative(ds);
    }
  }

  // ---------------------------------------------------------------- examples

  /** A model with the single scalar layer `"w"`. */
  function Scalar(v: real): (m: ModelState)
    ensures m.keys == ["w"] && m.params == map["w" := [v]]
  {
    assert KeyOrder.Elements(["w"]) == {"w"};
    StateDict(["w"], map["w" := [v]])
  }

  /** Equal sample counts average plainly: 2 and 6 give 4. */
  lemma FedAvgEqualWeights()
    ensures FederatedAveraging([ClientUpdate(Scalar(2.0), 10), ClientUpdate(Scalar(6.0), 10)]).Ok?
    ensures FederatedAveraging([ClientUpdate(Scalar(2.0), 10), ClientUpdate(Scalar(6.0), 10)]).value.params["w"] == [4.0]
  {
    var cs := [ClientUpdate(Scalar(2.0), 10), ClientUpdate(Scalar(6.0), 10)];
    assert TotalSamples(cs) == 20;
    assert CompatibleWithFirst(cs);
    var r := FederatedAveraging(cs).value.params["w"];
    FederatedAveragingIsWeightedSum(cs, "w", 0);
    assert WeightedColumnSum(cs[1..][1..], 20, "w", 0) == 0.0;
    assert r == [r[0]];
  }

  /** Weights 10/40 and 30/40 on 0 and 10 give 7.5. */
  lemma FedAvgUnequalWeights()
    ensures FederatedAveraging([ClientUpdate(Scalar(0.0), 10), ClientUpdate(Scalar(10.0), 30)]).Ok?
    ensures FederatedAveraging([ClientUpdate(Scalar(0.0), 10), ClientUpdate(Scalar(10.0), 30)]).value.params["w"] == [7.5]
  {
    var cs := [ClientUpdate(Scalar(0.0), 10), ClientUpdate(Scalar(10.0), 30)];
    assert TotalSamples(cs) == 40;
    assert CompatibleWithFirst(cs);
    var r := FederatedAveraging(cs).value.params["w"];
    FederatedAveragingIsWeightedSum(cs, "w", 0);
    assert WeightedColumnSum(cs[1..][1..], 40, "w", 0) == 0.0;
    assert r == [r[0]];
  }

  /** The median ignores the outlier: 1, 2 and 100 give 2. */
  lemma MedianIgnoresOutlier()
    ensures MedianAggregation([ClientUpdate(Scalar(1.0), 1), ClientUpdate(Scalar(2.0), 1), ClientUpdate(Scalar(100.0), 1)]).Ok?
    ensures MedianAggregation([ClientUpdate(Scalar(1.0), 1), ClientUpdate(Scalar(2.0), 1), ClientUpdate(Scalar(100.0), 1)]).value.params["w"] == [2.0]
  {
    var cs := [ClientUpdate(Scalar(1.0), 1), ClientUpdate(Scalar(2.0), 1), ClientUpdate(Scalar(100.0), 1)];
    assert LayerStacks(cs, "w");
    assert forall k :: k in cs[0].model.params ==> k == "w";
    var r := MedianAggregation(cs).value.params["w"];
    MedianAggregationIsCoordinateMedian(cs, "w", 0);
    var col := Column(cs, "w", 0);
    assert col == [1.0, 2.0, 100.0];
    LowerMedianOfExample();
    assert r == [r[0]];
  }

  lemma LowerMedianOfExample()
    ensures Sorting.IsLowerMedian([1.0, 2.0, 100.0], 2.0)
  {
    var col := [1.0, 2.0, 100.0];
    assert col[1..] == [2.0, 100.0] && col[1..][1..] == [100.0] && col[1..][1..][1..] == [];
    assert Sorting.CountLess([100.0], 2.0) == 0 && Sorting.CountAtMost([100.0], 2.0) == 0;
    assert Sorting.CountLess([2.0, 100.0], 2.0) == 0 && Sorting.CountAtMost([2.0, 100.0], 2.0) == 1;
  }

  /** Three mutually similar clients and one orthogonal one: only the orthogonal
      client falls below 0.3, and a threshold of -1 flags nobody. */
  lemma OrthogonalClientFlagged(sim: Similarity, cs: seq<ClientUpdate>)
    requires |cs| == 4
    requires forall a, b :: 0 <= a < b < 3 ==> sim(cs[a].model, cs[b].model) == 0.99
    requires forall a :: 0 <= a < 3 ==> sim(cs[a].model, cs[3].model) == 0.0
    ensures DetectOutlierClients(sim, cs, 0.3) == [3]
    ensures DetectOutlierClients(sim, cs, -1.0) == []
  {
    forall i | 0 <= i < 4
      ensures AverageSimilarity(sim, cs, i) == if i < 3 then 1.98 / 4.0 else 0.0
    {
      AverageCountsDiagonal(sim, cs, i);
      var others := OthersSimilarities(sim, cs, i);
      var row := SimilarityRow(sim, cs, i);
      assert |others| == 3;
      assert others == [others[0], others[1], others[2]];
      assert others[0] == (if i == 0 then row[1] else row[0]);
      assert others[1] == (if i <= 1 then row[2] else row[1]);
      assert others[2] == (if i <= 2 then row[3] else row[2]);
      Stats.SumOfThree(others[0], others[1], others[2]);
    }
    assert OutliersFrom(sim, cs, 0.3, 4) == [];
    assert OutliersFrom(sim, cs, 0.3, 3) == [3];
    assert OutliersFrom(sim, cs, 0.3, 2) == [3];
    assert OutliersFrom(sim, cs, 0.3, 1) == [3];
    assert OutliersFrom(sim, cs, -1.0, 4) == [];
    assert OutliersFrom(sim, cs, -1.0, 3) == [];
    assert OutliersFrom(sim, cs, -1.0, 2) == [];
    assert OutliersFrom(sim, cs, -1.0, 1) == [];
  }

  // ---------------------------------------------------------------- dispatch

  predicate KnownStrategy(strategy: string)
  {
    strategy == "fedavg" || strategy == "weighted_avg" || strategy == "median"
  }

  /** `aggregate_models`: an empty round returns the global model untouched; an
      unknown strategy raises before anything is recorded; a successful round appends
      one record to the history. */
  function AggregateModels(agg: Aggregator, cs: seq<ClientUpdate>, global: ModelState): (r: Result<(ModelState, Aggregator)>)
    ensures |cs| == 0 ==> r == Ok((global, agg))
    ensures |cs| > 0 && !KnownStrategy(agg.strategy) ==> r == Err(UnknownMethod)
    ensures |cs| > 0 && r.Ok? ==>
      r.value.1 == agg.(history := agg.history + [Round(|cs|, TotalSamples(cs), agg.strategy)])
    ensures |cs| > 0 && agg.strategy == "fedavg" ==>
      r.Ok? == FederatedAveraging(cs).Ok? && (r.Ok? ==> r.value.0 == FederatedAveraging(cs).value)
    ensures |cs| > 0 && agg.strategy == "weighted_avg" ==>
      r.Ok? == FederatedAveraging(cs).Ok? && (r.Ok? ==> r.value.0 == FederatedAveraging(cs).value)
    ensures |cs| > 0 && agg.strategy == "median" ==>
      r.Ok? == MedianAggregation(cs).Ok? && (r.Ok? ==> r.value.0 == MedianAggregation(cs).value)
  {
    if |cs| == 0 then Ok((global, agg))
    else
      var aggregated :=
        if agg.strategy == "fedavg" then FederatedAveraging(cs)
        else if agg.strategy == "weighted_avg" then WeightedAveraging(cs)
        else if agg.strategy == "median" then MedianAggregation(cs)
        else Err(UnknownMethod);
      match aggregated
      case Err(e) => Err(e)
      case Ok(m) => Ok((m, agg.(history := agg.history + [Round(|cs|, TotalSamples(cs), agg.strategy)])))
  }
}

=== FILE: src/behavior.dfy ===
/** `BehaviorAnalyzer` from ai_engine/pipelines/behavior_analyzer.py: a bounded
    history of face positions and the loitering, running and raised-arms rules.

    `time.time()` is the input `now`; the Euclidean step length (a square root)
    is the abstract `dist`. */
module Behavior {
  import opened Wrappers
  import Stats
  import Gait

  type Point = (real, real)

  /** One `position_history` entry. */
  datatype Entry = Entry(center: Point, timestamp: real, frame: int)

  /** What the rules read of a `DetectionResult`: the face box (empty when absent)
      and the pose landmarks (`None` when the pose dict is missing, empty or has no
      `keypoints`). */
  datatype DetectionResult = DetectionResult(faceBbox: seq<real>, poseKeypoints: Option<map<int, Gait.Keypoint>>)

  datatype Metadata = MovementVariance(variance: real) | AvgSpeed(speed: real) | ArmsRaised

  /** `BehaviorPattern`. */
  datatype Pattern = Pattern(patternType: string, confidence: real, duration: real, metadata: Metadata)

  /** `deque(maxlen=300)`. */
  const MaxHistory := 300

  datatype Analyzer = Analyzer(history: seq<Entry>, loiteringThreshold: real, runningThreshold: real)

  /** `BehaviorAnalyzer(config)`: the two thresholds with their defaults 20 and 5. */
  function NewAnalyzer(config: map<string, real>): (a: Analyzer)
    ensures a.history == []
    ensures a.loiteringThreshold == (if "loitering_threshold" in config then config["loitering_threshold"] else 20.0)
    ensures a.runningThreshold == (if "running_threshold" in config then config["running_threshold"] else 5.0)
  {
    Analyzer([],
             if "loitering_threshold" in config then config["loitering_threshold"] else 20.0,
             if "running_threshold" in config then config["running_threshold"] else 5.0)
  }

  predicate Bounded(a: Analyzer)
  {
    |a.history| <= MaxHistory
  }

  /** Appending to the deque: past 300 entries the oldest falls out. */
  function Push(h: seq<Entry>, e: Entry): (r: seq<Entry>)
    requires |h| <= MaxHistory
    ensures |r| == if |h| < MaxHistory then |h| + 1 else MaxHistory
    ensures r[|r| - 1] == e
    ensures r[..|r| - 1] == (if |h| < MaxHistory then h else h[1..])
  {
    if |h| < MaxHistory then h + [e] else h[1..] + [e]
  }

  /** The midpoint of a face box `(x0, y0, x1, y1)`. */
  function Center(bbox: seq<real>): (c: Point)
    requires |bbox| >= 4
    ensures bbox[0] <= c.0 <= bbox[2] || bbox[2] <= c.0 <= bbox[0]
    ensures bbox[1] <= c.1 <= bbox[3] || bbox[3] <= c.1 <= bbox[1]
    ensures c.0 - bbox[0] == bbox[2] - c.0 && c.1 - bbox[1] == bbox[3] - c.1
  {
    ((bbox[0] + bbox[2]) / 2.0, (bbox[1] + bbox[3]) / 2.0)
  }

  // ---------------------------------------------------------------- rules

  function Xs(h: seq<Entry>): (xs: seq<real>)
    ensures |xs| == |h| && forall i :: 0 <= i < |h| ==> xs[i] == h[i].center.0
  {
    seq(|h|, i requires 0 <= i < |h| => h[i].center.0)
  }

  function Ys(h: seq<Entry>): (ys: seq<real>)
    ensures |ys| == |h| && forall i :: 0 <= i < |h| ==> ys[i] == h[i].center.1
  {
    seq(|h|, i requires 0 <= i < |h| => h[i].center.1)
  }

  /** `_detect_loitering`: at least 50 entries whose positions vary by less than
      1000 (sum of the two coordinate variances) over more than the threshold's
      seconds. */
  function DetectLoitering(a: Analyzer): (p: Option<Pattern>)
    ensures |a.history| < 50 ==> p == None
    ensures p.Some? <==>
      && |a.history| >= 50
      && Stats.Variance(Xs(a.history)) + Stats.Variance(Ys(a.history)) < 1000.0
      && a.history[|a.history| - 1].timestamp - a.history[0].timestamp > a.loiteringThreshold
    ensures p.Some? ==>
      && p.value.patternType == "loitering" && p.value.confidence == 0.8
      && p.value.duration == a.history[|a.history| - 1].timestamp - a.history[0].timestamp
      && p.value.duration > a.loiteringThreshold
      && p.value.metadata == MovementVariance(Stats.Variance(Xs(a.history)) + Stats.Variance(Ys(a.history)))
      && 0.0 <= p.value.metadata.variance < 1000.0
  {
    if |a.history| < 50 then None
    else
      var h := a.history;
      var movement := Stats.Variance(Xs(h)) + Stats.Variance(Ys(h));
      var duration := h[|h| - 1].timestamp - h[0].timestamp;
      Stats.VarianceNonNegative(Xs(h));
      Stats.VarianceNonNegative(Ys(h));
      if movement < 1000.0 && duration > a.loiteringThreshold then
        Some(Pattern("loitering", 0.8, duration, MovementVariance(movement)))
      else None
  }

  /** A person who stands still for longer than the threshold is loitering. */
  lemma StillPersonLoiters(a: Analyzer)
    requires |a.history| >= 50
    requires forall i :: 0 <= i < |a.history| ==> a.history[i].center == a.history[0].center
    requires a.history[|a.history| - 1].timestamp - a.history[0].timestamp > a.loiteringThreshold
    ensures DetectLoitering(a).Some?
  {
    Stats.VarianceOfConstant(Xs(a.history), a.history[0].center.0);
    Stats.VarianceOfConstant(Ys(a.history), a.history[0].center.1);
  }

  /** The history with every centre moved by `(dx, dy)`. */
  function Translate(h: seq<Entry>, dx: real, dy: real): (r: seq<Entry>)
    ensures |r| == |h|
    ensures forall i :: 0 <= i < |h| ==>
      r[i] == Entry((h[i].center.0 + dx, h[i].center.1 + dy), h[i].timestamp, h[i].frame)
  {
    seq(|h|, i requires 0 <= i < |h| => Entry((h[i].center.0 + dx, h[i].center.1 + dy), h[i].timestamp, h[i].frame))
  }

  /** Loitering is judged on how much a person moves, not where they stand: the
      same walk at another spot of the frame gives the same verdict and report. */
  lemma LoiteringIgnoresPlace(a: Analyzer, dx: real, dy: real)
    ensures DetectLoitering(a.(history := Translate(a.history, dx, dy))) == DetectLoitering(a)
  {
    var h := a.history;
    var t := Translate(h, dx, dy);
    assert Xs(t) == Stats.Shift(Xs(h), dx);
    assert Ys(t) == Stats.Shift(Ys(h), dy);
    if |h| >= 50 {
      Stats.VarianceShiftInvariant(Xs(h), dx);
      Stats.VarianceShiftInvariant(Ys(h), dy);
    }
  }

  /** The step lengths between consecutive entries of `h`. */
  function Speeds(dist: (Point, Point) -> real, h: seq<Entry>): (s: seq<real>)
    requires |h| >= 1
    ensures |s| == |h| - 1
    ensures forall i :: 0 <= i < |s| ==> s[i] == dist(h[i].center, h[i + 1].center)
  {
    seq(|h| - 1, i requires 0 <= i < |h| - 1 => dist(h[i].center, h[i + 1].center))
  }

  /** `list(history)[-10:]` for a history of at least ten entries. */
  function LastTen(h: seq<Entry>): (r: seq<Entry>)
    requires |h| >= 10
    ensures |r| == 10 && forall i :: 0 <= i < 10 ==> r[i] == h[|h| - 10 + i]
  {
    h[|h| - 10..]
  }

  /** `_detect_running`: the mean step length over the last ten entries exceeds
      the running threshold. */
  function DetectRunning(dist: (Point, Point) -> real, a: Analyzer): (p: Option<Pattern>)
    requires |a.history| >= 10
    ensures p.Some? <==> Stats.Mean(Speeds(dist, LastTen(a.history))) > a.runningThreshold
    ensures p.Some? ==> p.value == Pattern("running", 0.75, 1.0, AvgSpeed(Stats.Mean(Speeds(dist, LastTen(a.history)))))
  {
    var avg := Stats.Mean(Speeds(dist, LastTen(a.history)));
    if avg > a.runningThreshold then Some(Pattern("running", 0.75, 1.0, AvgSpeed(avg))) else None
  }

  /** Steps of one constant length `v` give mean speed `v`. */
  lemma SteadyPaceSpeed(dist: (Point, Point) -> real, a: Analyzer, v: real)
    requires |a.history| >= 10
    requires forall i :: 0 <= i < 9 ==> dist(LastTen(a.history)[i].center, LastTen(a.history)[i + 1].center) == v
    ensures DetectRunning(dist, a).Some? <==> v > a.runningThreshold
  {
    Stats.MeanOfConstant(Speeds(dist, LastTen(a.history)), v);
  }

  const LeftShoulder := 11
  const RightShoulder := 12
  const LeftWrist := 15
  const RightWrist := 16

  /** `_detect_aggressive_pose`: both wrists strictly above (smaller `y` than)
      their shoulders, all four landmarks present. */
  function DetectAggressivePose(kps: map<int, Gait.Keypoint>): (p: Option<Pattern>)
    ensures p.Some? <==>
      && LeftWrist in kps && RightWrist in kps && LeftShoulder in kps && RightShoulder in kps
      && kps[LeftWrist].y < kps[LeftShoulder].y && kps[RightWrist].y < kps[RightShoulder].y
    ensures p.Some? ==> p.value == Pattern("aggressive_pose", 0.6, 0.1, ArmsRaised)
  {
    if !(LeftWrist in kps && RightWrist in kps && LeftShoulder in kps && RightShoulder in kps) then None
    else if kps[LeftWrist].y < kps[LeftShoulder].y && kps[RightWrist].y < kps[RightShoulder].y then
      Some(Pattern("aggressive_pose", 0.6, 0.1, ArmsRaised))
    else None
  }

  /** One wrist at shoulder height is not a raised arm: the comparison is strict. */
  lemma WristLevelWithShoulderNotRaised(kps: map<int, Gait.Keypoint>)
    requires LeftWrist in kps && RightWrist in kps && LeftShoulder in kps && RightShoulder in kps
    requires kps[LeftWrist].y == kps[LeftShoulder].y
    ensures DetectAggressivePose(kps) == None
  {
  }

  // ---------------------------------------------------------------- analysis

  function OptionList(p: Option<Pattern>): (l: seq<Pattern>)
    ensures |l| <= 1 && (p.None? ==> l == []) && (p.Some? ==> l == [p.value])
  {
    if p.Some? then [p.value] else []
  }

  /** The position of a pattern kind in the report. */
  function Rank(kind: string): int
  {
    if kind == "loitering" then 0 else if kind == "running" then 1 else 2
  }

  /** The report on an updated history: loitering, then running (ten entries or
      more), then raised arms, each at most once. */
  function Report(dist: (Point, Point) -> real, a: Analyzer, pose: Option<map<int, Gait.Keypoint>>): (r: seq<Pattern>)
    ensures |r| <= 3
    ensures forall i, j :: 0 <= i < j < |r| ==> Rank(r[i].patternType) < Rank(r[j].patternType)
    ensures forall i :: 0 <= i < |r| ==> r[i].patternType in {"loitering", "running", "aggressive_pose"}
    ensures forall i :: 0 <= i < |r| ==> (r[i].patternType == "loitering" ==> |a.history| >= 50)
    ensures forall i :: 0 <= i < |r| ==> (r[i].patternType == "running" ==> |a.history| >= 10)
    ensures DetectLoitering(a).Some? <==> exists i :: 0 <= i < |r| && r[i].patternType == "loitering"
    ensures forall i :: 0 <= i < |r| && r[i].patternType == "loitering" ==> Some(r[i]) == DetectLoitering(a)
    ensures (|a.history| >= 10 && DetectRunning(dist, a).Some?) <==> exists i :: 0 <= i < |r| && r[i].patternType == "running"
    ensures forall i :: 0 <= i < |r| && r[i].patternType == "running" ==> Some(r[i]) == DetectRunning(dist, a)
    ensures (pose.Some? && DetectAggressivePose(pose.value).Some?) <==> exists i :: 0 <= i < |r| && r[i].patternType == "aggressive_pose"
    ensures forall i :: 0 <= i < |r| && r[i].patternType == "aggressive_pose" ==> pose.Some? && Some(r[i]) == DetectAggressivePose(pose.value)
  {
    Ranked(DetectLoitering(a),
           if |a.history| >= 10 then DetectRunning(dist, a) else None,
           if pose.Some? then DetectAggressivePose(pose.value) else None)
  }

  /** The patterns found, in rank order: each kind is in the list exactly when it
      was found, and is then the pattern found. */
  function Ranked(loitering: Option<Pattern>, running: Option<Pattern>, aggressive: Option<Pattern>): (r: seq<Pattern>)
    requires loitering.Some? ==> loitering.value.patternType == "loitering"
    requires running.Some? ==> running.value.patternType == "running"
    requires aggressive.Some? ==> aggressive.value.patternType == "aggressive_pose"
    ensures |r| <= 3
    ensures forall i, j :: 0 <= i < j < |r| ==> Rank(r[i].patternType) < Rank(r[j].patternType)
    ensures forall i :: 0 <= i < |r| ==> r[i].patternType in {"loitering", "running", "aggressive_pose"}
    ensures loitering.Some? <==> exists i :: 0 <= i < |r| && r[i].patternType == "loitering"
    ensures forall i :: 0 <= i < |r| && r[i].patternType == "loitering" ==> Some(r[i]) == loitering
    ensures running.Some? <==> exists i :: 0 <= i < |r| && r[i].patternType == "running"
    ensures forall i :: 0 <= i < |r| && r[i].patternType == "running" ==> Some(r[i]) == running
    ensures aggressive.Some? <==> exists i :: 0 <= i < |r| && r[i].patternType == "aggressive_pose"
    ensures forall i :: 0 <= i < |r| && r[i].patternType == "aggressive_pose" ==> Some(r[i]) == aggressive
  {
    var x, y, z := OptionList(loitering), OptionList(running), OptionList(aggressive);
    RankedConcat(x, y, z);
    x + y + z
  }

  /** Three lists of at most one pattern each, of ranks 0, 1 and 2, concatenate
      to a list of strictly increasing rank whose entries each come from the list
      of their kind. */
  lemma RankedConcat(x: seq<Pattern>, y: seq<Pattern>, z: seq<Pattern>)
    requires |x| <= 1 && |y| <= 1 && |z| <= 1
    requires forall i :: 0 <= i < |x| ==> x[i].patternType == "loitering"
    requires forall i :: 0 <= i < |y| ==> y[i].patternType == "running"
    requires forall i :: 0 <= i < |z| ==> z[i].patternType == "aggressive_pose"
    ensures forall i, j :: 0 <= i < j < |x + y + z| ==> Rank((x + y + z)[i].patternType) < Rank((x + y + z)[j].patternType)
    ensures forall i :: 0 <= i < |x + y + z| ==> (x + y + z)[i].patternType in {"loitering", "running", "aggressive_pose"}
    ensures forall i :: 0 <= i < |x + y + z| && (x + y + z)[i].patternType == "loitering" ==> |x| == 1 && (x + y + z)[i] == x[0]
    ensures forall i :: 0 <= i < |x + y + z| && (x + y + z)[i].patternType == "running" ==> |y| == 1 && (x + y + z)[i] == y[0]
    ensures forall i :: 0 <= i < |x + y + z| && (x + y + z)[i].patternType == "aggressive_pose" ==> |z| == 1 && (x + y + z)[i] == z[0]
    ensures |x| == 1 ==> (x + y + z)[0] == x[0]
    ensures |y| == 1 ==> (x + y + z)[|x|] == y[0]
    ensures |z| == 1 ==> (x + y + z)[|x| + |y|] == z[0]
  {
    var r := x + y + z;
    forall p | 0 <= p < |r|
      ensures p < |x| ==> r[p].patternType == "loitering" && r[p] == x[0]
      ensures |x| <= p < |x| + |y| ==> r[p].patternType == "running" && r[p] == y[0]
      ensures |x| + |y| <= p ==> r[p].patternType == "aggressive_pose" && r[p] == z[0]
    {
      if p < |x| {
        assert r[p] == x[p];
      } else if p < |x| + |y| {
        assert r[p] == y[p - |x|];
      } else {
        assert r[p] == z[p - |x| - |y|];
      }
    }
  }

  /** `analyze_behavior`: without a detection or face box nothing is recorded and
      nothing reported; a box of one to three numbers raises `IndexError`;
      otherwise the face centre is recorded before the rules run. */
  function AnalyzeBehavior(dist: (Point, Point) -> real, a: Analyzer, det: Option<DetectionResult>,
                           frame: int, now: real): (out: (Analyzer, Result<seq<Pattern>>))
    requires Bounded(a)
    ensures Bounded(out.0)
    ensures out.0.loiteringThreshold == a.loiteringThreshold && out.0.runningThreshold == a.runningThreshold
    ensures det.None? || |det.value.faceBbox| == 0 ==> out == (a, Ok([]))
    ensures out.1.Err? <==> det.Some? && 0 < |det.value.faceBbox| < 4
    ensures out.1.Err? ==> out.0 == a && out.1.error == IndexError
    ensures det.Some? && |det.value.faceBbox| >= 4 ==>
      && out.0.history == Push(a.history, Entry(Center(det.value.faceBbox), now, frame))
      && out.1 == Ok(Report(dist, out.0, det.value.poseKeypoints))
  {
    if det.None? || |det.value.faceBbox| == 0 then (a, Ok([]))
    else if |det.value.faceBbox| < 4 then (a, Err(IndexError))
    else
      var a1 := a.(history := Push(a.history, Entry(Center(det.value.faceBbox), now, frame)));
      (a1, Ok(Report(dist, a1, det.value.poseKeypoints)))
  }

  /** `reset`: an empty history, thresholds kept. */
  function Reset(a: Analyzer): (r: Analyzer)
    ensures r.history == [] && Bounded(r)
    ensures r.loiteringThreshold == a.loiteringThreshold && r.runningThreshold == a.runningThreshold
  {
    a.(history := [])
  }

  /** A first sighting can only be an aggressive pose: the loitering and running
      windows are not yet filled. */
  lemma FirstSightingOnlyPose(dist: (Point, Point) -> real, config: map<string, real>, det: DetectionResult, frame: int, now: real)
    requires |det.faceBbox| >= 4
    ensures var out := AnalyzeBehavior(dist, NewAnalyzer(config), Some(det), frame, now);
      && out.1.Ok? && |out.0.history| == 1
      && forall i :: 0 <= i < |out.1.value| ==> out.1.value[i].patternType == "aggressive_pose"
  {
    var a := NewAnalyzer(config);
    var a1 := a.(history := Push(a.history, Entry(Center(det.faceBbox), now, frame)));
    assert |a1.history| == 1;
    assert AnalyzeBehavior(dist, a, Some(det), frame, now) == (a1, Ok(Report(dist, a1, det.poseKeypoints)));
  }
}

=== FILE: src/chain_utils.dfy ===
/** The pure helpers of blockchain/sdk/utils.py: the Merkle root over transaction
    hashes, the transaction-format check, the custody-chain order check and the
    encoding of chaincode arguments.

    SHA-256 (FIPS 180-4) over the UTF-8 text of a string, rendered as a hex digest,
    is the abstract `sha256`; `json.dumps` is the abstract `dumps`; UTF-8 encoding
    is the abstract `utf8`; `datetime.fromisoformat` is the abstract `parseIso`,
    whose instants are reals. */
module ChainUtils {
  import opened Wrappers
  import Decimal
  import Sorting

  /** A JSON-like Python value. Floats are not modelled. */
  datatype Json =
    | JNull
    | JBool(b: bool)
    | JInt(n: int)
    | JStr(s: string)
    | JList(items: seq<Json>)
    | JDict(fields: map<string, Json>)

  type Tx = map<string, Json>

  type Byte = bv8

  /** `compute_transaction_hash`: SHA-256 of the key-sorted JSON text. */
  function ComputeTransactionHash(sha256: string -> string, dumpsSorted: Json -> string, tx: Tx): (h: string)
    ensures h == sha256(dumpsSorted(JDict(tx)))
  {
    sha256(dumpsSorted(JDict(tx)))
  }

  // ---------------------------------------------------------------- Merkle root

  /** An odd level gets its last hash duplicated. */
  function Pad(hs: seq<string>): (p: seq<string>)
    requires |hs| > 0
    ensures |p| % 2 == 0 && |p| == |hs| + |hs| % 2
    ensures p[..|hs|] == hs
    ensures |hs| % 2 == 1 ==> p[|hs|] == hs[|hs| - 1]
  {
    if |hs| % 2 != 0 then hs + [hs[|hs| - 1]] else hs
  }

  /** The hashes of consecutive pairs of an even-length level. */
  function PairUp(sha256: string -> string, hs: seq<string>): (r: seq<string>)
    requires |hs| % 2 == 0
    ensures |r| == |hs| / 2
    ensures forall i :: 0 <= i < |r| ==> r[i] == sha256(hs[2 * i] + hs[2 * i + 1])
  {
    seq(|hs| / 2, i requires 0 <= i < |hs| / 2 => sha256(hs[2 * i] + hs[2 * i + 1]))
  }

  /** One round of the tree loop: `ceil(n / 2)` parent hashes. */
  function Level(sha256: string -> string, hs: seq<string>): (r: seq<string>)
    requires |hs| > 0
    ensures |r| == (|hs| + 1) / 2 && |r| > 0
    ensures |hs| > 1 ==> |r| < |hs|
    ensures forall i :: 0 <= i < |r| && 2 * i + 1 < |hs| ==> r[i] == sha256(hs[2 * i] + hs[2 * i + 1])
    ensures |hs| % 2 == 1 ==> r[|r| - 1] == sha256(hs[|hs| - 1] + hs[|hs| - 1])
  {
    var p := Pad(hs);
    assert forall k :: 0 <= k < |hs| ==> p[k] == hs[k] by {
      forall k | 0 <= k < |hs| ensures p[k] == hs[k] {
        assert p[..|hs|][k] == p[k];
      }
    }
    PairUp(sha256, p)
  }

  /** Rounds until one hash remains. */
  function Reduce(sha256: string -> string, hs: seq<string>): string
    requires |hs| > 0
    decreases |hs|
  {
    if |hs| == 1 then hs[0] else Reduce(sha256, Level(sha256, hs))
  }

  /** The leaf level: one transaction hash per transaction. */
  function Leaves(txHash: Tx -> string, txs: seq<Tx>): (hs: seq<string>)
    ensures |hs| == |txs|
    ensures forall i :: 0 <= i < |txs| ==> hs[i] == txHash(txs[i])
  {
    seq(|txs|, i requires 0 <= i < |txs| => txHash(txs[i]))
  }

  /** `create_merkle_root`, with `compute_transaction_hash` as `txHash`. */
  function MerkleRoot(sha256: string -> string, txHash: Tx -> string, txs: seq<Tx>): (root: string)
    ensures |txs| == 0 ==> root == sha256("")
    ensures |txs| == 1 ==> root == txHash(txs[0])
    ensures |txs| == 2 ==> root == sha256(txHash(txs[0]) + txHash(txs[1]))
  {
    if |txs| == 0 then sha256("")
    else
      var hs := Leaves(txHash, txs);
      assert |txs| == 2 ==> Level(sha256, hs) == [sha256(hs[0] + hs[1])];
      assert |txs| == 2 ==> Reduce(sha256, hs) == Reduce(sha256, [sha256(hs[0] + hs[1])]);
      Reduce(sha256, hs)
  }

  /** The inner loop of `create_merkle_root`: hash each consecutive pair. */
  method HashPairs(sha256: string -> string, hashes: seq<string>) returns (next: seq<string>)
    requires |hashes| % 2 == 0
    ensures next == PairUp(sha256, hashes)
  {
    next := [];
    var i := 0;
    while i < |hashes|
      invariant 0 <= i <= |hashes| && i % 2 == 0
      invariant |next| == i / 2
      invariant forall k :: 0 <= k < |next| ==> next[k] == sha256(hashes[2 * k] + hashes[2 * k + 1])
      decreases |hashes| - i
    {
      next := next + [sha256(hashes[i] + hashes[i + 1])];
      i := i + 2;
    }
  }

  /** The loop of `create_merkle_root` as written: pad, pair, repeat. */
  method CreateMerkleRoot(sha256: string -> string, txHash: Tx -> string, txs: seq<Tx>) returns (root: string)
    ensures root == MerkleRoot(sha256, txHash, txs)
  {
    if |txs| == 0 {
      return sha256("");
    }
    var hashes := Leaves(txHash, txs);
    while |hashes| > 1
      invariant |hashes| > 0
      invariant Reduce(sha256, hashes) == MerkleRoot(sha256, txHash, txs)
      decreases |hashes|
    {
      var before := hashes;
      if |hashes| % 2 != 0 {
        hashes := hashes + [hashes[|hashes| - 1]];
      }
      assert hashes == Pad(before);
      hashes := HashPairs(sha256, hashes);
      assert hashes == Level(sha256, before);
    }
    return hashes[0];
  }

  /** Padding an odd level by hand changes nothing: the round pads it anyway. */
  lemma LevelOfPadded(sha256: string -> string, hs: seq<string>)
    requires |hs| % 2 == 1
    ensures Level(sha256, hs + [hs[|hs| - 1]]) == Level(sha256, hs)
  {
    assert Pad(hs + [hs[|hs| - 1]]) == Pad(hs);
  }

  /** For an odd count of at least three, repeating the last transaction leaves the
      root unchanged: two different transaction lists share a root. */
  lemma DuplicateLastKeepsRoot(sha256: string -> string, txHash: Tx -> string, txs: seq<Tx>)
    requires |txs| >= 3 && |txs| % 2 == 1
    ensures MerkleRoot(sha256, txHash, txs + [txs[|txs| - 1]]) == MerkleRoot(sha256, txHash, txs)
  {
    var hs := Leaves(txHash, txs);
    var hs' := Leaves(txHash, txs + [txs[|txs| - 1]]);
    assert hs' == hs + [hs[|hs| - 1]];
    LevelOfPadded(sha256, hs);
  }

  /** With a single transaction the duplicate does matter: the root of `[t, t]` is
      a hash of the leaf, the root of `[t]` the leaf itself. */
  lemma DuplicateOfSingleChangesRoot(sha256: string -> string, txHash: Tx -> string, t: Tx)
    ensures MerkleRoot(sha256, txHash, [t]) == txHash(t)
    ensures MerkleRoot(sha256, txHash, [t, t]) == sha256(txHash(t) + txHash(t))
  {
  }

  /** The root depends on the transactions only through their hashes. */
  lemma RootSeesOnlyHashes(sha256: string -> string, h1: Tx -> string, h2: Tx -> string, txs: seq<Tx>, txs': seq<Tx>)
    requires |txs| == |txs'|
    requires forall i :: 0 <= i < |txs| ==> h1(txs[i]) == h2(txs'[i])
    ensures MerkleRoot(sha256, h1, txs) == MerkleRoot(sha256, h2, txs')
  {
    assert Leaves(h1, txs) == Leaves(h2, txs');
  }

  // ---------------------------------------------------------------- validation

  const RequiredFields: seq<string> := ["tx_id", "channel_name", "chaincode_name", "function_name"]

  /** `all(field in tx for field in fields)`. */
  function AllPresent(fields: seq<string>, tx: Tx): bool
  {
    |fields| == 0 || (fields[0] in tx && AllPresent(fields[1..], tx))
  }

  /** `validate_transaction_format`. */
  function ValidateTransactionFormat(tx: Tx): (ok: bool)
    ensures ok <==> "tx_id" in tx && "channel_name" in tx && "chaincode_name" in tx && "function_name" in tx
  {
    AllPresentMeansSubset(RequiredFields, tx);
    assert RequiredFields[0] == "tx_id" && RequiredFields[1] == "channel_name";
    assert RequiredFields[2] == "chaincode_name" && RequiredFields[3] == "function_name";
    AllPresent(RequiredFields, tx)
  }

  lemma {:induction false} AllPresentMeansSubset(fields: seq<string>, tx: Tx)
    ensures AllPresent(fields, tx) <==> forall i :: 0 <= i < |fields| ==> fields[i] in tx
  {
    if |fields| > 0 {
      AllPresentMeansSubset(fields[1..], tx);
      assert forall i :: 1 <= i < |fields| ==> fields[i] == fields[1..][i - 1];
    }
  }

  /** Only the four field names matter: extra fields and their values are ignored. */
  lemma ValidationIgnoresOtherFields(tx: Tx, k: string, v: Json)
    requires k !in RequiredFields
    ensures ValidateTransactionFormat(tx[k := v]) == ValidateTransactionFormat(tx)
  {
    assert k != "tx_id" && k != "channel_name" && k != "chaincode_name" && k != "function_name" by {
      assert RequiredFields[0] == "tx_id" && RequiredFields[1] == "channel_name";
      assert RequiredFields[2] == "chaincode_name" && RequiredFields[3] == "function_name";
    }
  }

  // ---------------------------------------------------------------- custody chain

  /** `[datetime.fromisoformat(e["timestamp"]) for e in chain]`: the first event
      without a timestamp raises `KeyError`, a non-string one `TypeError`, an
      unparsable one `ValueError`. */
  function Timestamps(parseIso: string -> Option<real>, chain: seq<Tx>): (r: Result<seq<real>>)
    ensures r.Ok? <==> forall i :: 0 <= i < |chain| ==>
      "timestamp" in chain[i] && chain[i]["timestamp"].JStr? && parseIso(chain[i]["timestamp"].s).Some?
    ensures r.Ok? ==> |r.value| == |chain|
    ensures r.Ok? ==> forall i :: 0 <= i < |chain| ==> r.value[i] == parseIso(chain[i]["timestamp"].s).value
  {
    if |chain| == 0 then Ok([])
    else if "timestamp" !in chain[0] then Err(KeyError)
    else if !chain[0]["timestamp"].JStr? then Err(TypeError)
    else match parseIso(chain[0]["timestamp"].s)
      case None => Err(ValueError)
      case Some(t) =>
        match Timestamps(parseIso, chain[1..])
        case Err(e) =>
          assert forall i :: 1 <= i < |chain| ==> chain[i] == chain[1..][i - 1];
          Err(e)
        case Ok(ts) =>
          assert forall i :: 1 <= i < |chain| ==> chain[i] == chain[1..][i - 1];
          Ok([t] + ts)
  }

  /** `verify_evidence_chain`: false for an empty chain, otherwise whether the
      timestamps equal their sorted order. */
  function VerifyEvidenceChain(parseIso: string -> Option<real>, chain: seq<Tx>): (r: Result<bool>)
    ensures |chain| == 0 ==> r == Ok(false)
    ensures |chain| > 0 ==> (r.Ok? <==> Timestamps(parseIso, chain).Ok?)
    ensures r.Ok? && |chain| > 0 ==> (r.value <==> Sorting.Sorted(Timestamps(parseIso, chain).value))
  {
    if |chain| == 0 then Ok(false)
    else match Timestamps(parseIso, chain)
      case Err(e) => Err(e)
      case Ok(ts) =>
        Sorting.SortedIffSortFixed(ts);
        Ok(ts == Sorting.Sort(ts))
  }

  /** Equal timestamps are in order, one step back in time is not. */
  lemma EqualTimesAccepted(parseIso: string -> Option<real>, e1: Tx, e2: Tx, a: string, b: string)
    requires "timestamp" in e1 && "timestamp" in e2
    requires e1["timestamp"] == JStr(a) && e2["timestamp"] == JStr(b)
    requires parseIso(a).Some? && parseIso(b).Some?
    ensures parseIso(a).value == parseIso(b).value ==> VerifyEvidenceChain(parseIso, [e1, e2]) == Ok(true)
    ensures parseIso(a).value > parseIso(b).value ==> VerifyEvidenceChain(parseIso, [e1, e2]) == Ok(false)
  {
    var ts := Timestamps(parseIso, [e1, e2]).value;
    assert ts == [parseIso(a).value, parseIso(b).value];
  }

  // ---------------------------------------------------------------- arguments

  /** `str(arg)` for the scalar kinds. */
  function ScalarText(a: Json): string
  {
    match a
    case JNull => "None"
    case JBool(b) => if b then "True" else "False"
    case JInt(n) => Decimal.IntToString(n)
    case _ => ""
  }

  /** One argument: text as is, lists and dicts as JSON, anything else through `str`. */
  function EncodeArg(utf8: string -> seq<Byte>, dumps: Json -> string, a: Json): (b: seq<Byte>)
    ensures a.JStr? ==> b == utf8(a.s)
    ensures a.JList? || a.JDict? ==> b == utf8(dumps(a))
    ensures a.JInt? ==> b == utf8(Decimal.IntToString(a.n))
    ensures a.JNull? ==> b == utf8("None")
    ensures a.JBool? ==> b == utf8(if a.b then "True" else "False")
  {
    match a
    case JStr(s) => utf8(s)
    case JList(_) => utf8(dumps(a))
    case JDict(_) => utf8(dumps(a))
    case _ => utf8(ScalarText(a))
  }

  /** `encode_chaincode_args`: one encoding per argument, in order. */
  function EncodeChaincodeArgs(utf8: string -> seq<Byte>, dumps: Json -> string, args: seq<Json>): (r: seq<seq<Byte>>)
    ensures |r| == |args|
    ensures forall i :: 0 <= i < |args| ==> r[i] == EncodeArg(utf8, dumps, args[i])
  {
    if |args| == 0 then []
    else [EncodeArg(utf8, dumps, args[0])] + EncodeChaincodeArgs(utf8, dumps, args[1..])
  }

  /** Encoding distributes over concatenation of argument lists. */
  lemma EncodeAppend(utf8: string -> seq<Byte>, dumps: Json -> string, a: seq<Json>, b: seq<Json>)
    ensures EncodeChaincodeArgs(utf8, dumps, a + b) == EncodeChaincodeArgs(utf8, dumps, a) + EncodeChaincodeArgs(utf8, dumps, b)
  {
    var l := EncodeChaincodeArgs(utf8, dumps, a + b);
    var ea, eb := EncodeChaincodeArgs(utf8, dumps, a), EncodeChaincodeArgs(utf8, dumps, b);
    forall i | 0 <= i < |l| ensures l[i] == (ea + eb)[i] {
      if i < |a| {
        assert (a + b)[i] == a[i];
      } else {
        assert (a + b)[i] == b[i - |a|];
      }
    }
  }

  /** The integer 7 and the text "7" encode alike. */
  lemma IntAndTextCollide(utf8: string -> seq<Byte>, dumps: Json -> string)
    ensures EncodeArg(utf8, dumps, JInt(7)) == EncodeArg(utf8, dumps, JStr("7"))
  {
    assert Decimal.IntToString(7) == "7";
  }
}

=== FILE: src/decimal.dfy ===
/** Python's `str(n)` / f-string rendering of an integer in base ten, and its inverse. */
module Decimal {

  predicate IsDigit(c: char)
  {
    '0' <= c <= '9'
  }

  function DigitChar(d: nat): (c: char)
    requires d < 10
    ensures IsDigit(c)
  {
    "0123456789"[d]
  }

  function DigitValue(c: char): int
  {
    (c as int) - ('0' as int)
  }

  /** Decimal digits of `n`, most significant first, with no leading zero. */
  function NatToString(n: nat): (s: string)
    ensures |s| >= 1
    ensures forall i :: 0 <= i < |s| ==> IsDigit(s[i])
    decreases n
  {
    if n < 10 then [DigitChar(n)] else NatToString(n / 10) + [DigitChar(n % 10)]
  }

  /** `str(n)`: a leading minus sign for negative values. */
  function IntToString(n: int): string
  {
    if n < 0 then "-" + NatToString(-n) else NatToString(n)
  }

  /** Reads a run of decimal digits. */
  function ParseDigits(s: string): int
  {
    if |s| == 0 then 0 else ParseDigits(s[..|s| - 1]) * 10 + DigitValue(s[|s| - 1])
  }

  /** Python's `int(s)` on the texts `IntToString` produces. */
  function ParseInt(s: string): int
  {
    if |s| > 0 && s[0] == '-' then -ParseDigits(s[1..]) else ParseDigits(s)
  }

  lemma {:induction false} NatRoundTrip(n: nat)
    ensures ParseDigits(NatToString(n)) == n
    decreases n
  {
    if n >= 10 {
      var s := NatToString(n);
      NatRoundTrip(n / 10);
      assert s[..|s| - 1] == NatToString(n / 10);
      assert DigitValue(s[|s| - 1]) == n % 10 by {
        assert s[|s| - 1] == "0123456789"[n % 10];
      }
    } else {
      assert DigitValue("0123456789"[n]) == n;
    }
  }

  /** Reading back the rendering of any integer gives that integer. */
  lemma IntRoundTrip(n: int)
    ensures ParseInt(IntToString(n)) == n
  {
    if n < 0 {
      NatRoundTrip(-n);
      assert ("-" + NatToString(-n))[1..] == NatToString(-n);
    } else {
      NatRoundTrip(n);
    }
  }

  /** Distinct integers render to distinct texts. */
  lemma IntToStringInjective(a: int, b: int)
    requires IntToString(a) == IntToString(b)
    ensures a == b
  {
    IntRoundTrip(a);
    IntRoundTrip(b);
  }

  /** A rendering never contains `_`: it is `-` or digits. */
  lemma NoUnderscore(n: int)
    ensures '_' !in IntToString(n)
  {
    var s := NatToString(if n < 0 then -n else n);
    assert forall i :: 0 <= i < |s| ==> s[i] != '_';
  }
}

=== FILE: src/gait.dfy ===
/** `GaitFeatureExtractor` from ai_engine/feature_extraction/gait_features.py: a
    bounded window of pose frames per person and the four-number gait feature
    vector computed from it. */
module Gait {
  import opened Wrappers
  import Stats

  /** A MediaPipe landmark; only its height is read. */
  datatype Keypoint = Keypoint(x: real, y: real)

  /** One frame: `pose.get('keypoints', {})`, landmarks by index. */
  datatype Pose = Pose(keypoints: Option<map<int, Keypoint>>)

  function Landmarks(p: Pose): map<int, Keypoint>
  {
    if p.keypoints.Some? then p.keypoints.value else map[]
  }

  const LeftHip := 23
  const RightHip := 24
  const LeftAnkle := 27
  const RightAnkle := 28

  /** The fewest frames features are computed from. */
  const MinFrames := 10

  datatype Extractor = Extractor(sequenceLength: int, sequences: map<int, seq<Pose>>)

  /** `GaitFeatureExtractor(sequence_length)`. */
  function NewExtractor(sequenceLength: int): (g: Extractor)
    ensures g.sequences == map[] && g.sequenceLength == sequenceLength
  {
    Extractor(sequenceLength, map[])
  }

  function MaxNat(a: int): nat
  {
    if a > 0 then a else 0
  }

  /** Every window holds at most `sequence_length` frames (none when that is not
      positive). */
  predicate Bounded(g: Extractor)
  {
    forall id :: id in g.sequences ==> |g.sequences[id]| <= MaxNat(g.sequenceLength)
  }

  // ---------------------------------------------------------------- window

  /** `add_pose`: append the frame, then drop the oldest one if the window is over
      its length. */
  function AddPose(g: Extractor, id: int, pose: Pose): (r: Extractor)
    ensures r.sequenceLength == g.sequenceLength && id in r.sequences
    ensures forall other :: other != id ==> (other in r.sequences <==> other in g.sequences)
    ensures forall other :: other != id && other in g.sequences ==> r.sequences[other] == g.sequences[other]
    ensures var prior := if id in g.sequences then g.sequences[id] else [];
      && (|prior| + 1 > g.sequenceLength ==> r.sequences[id] == (prior + [pose])[1..])
      && (|prior| + 1 <= g.sequenceLength ==> r.sequences[id] == prior + [pose])
    ensures Bounded(g) ==> Bounded(r)
  {
    var prior := if id in g.sequences then g.sequences[id] else [];
    var s := prior + [pose];
    var s' := if |s| > g.sequenceLength then s[1..] else s;
    Extractor(g.sequenceLength, g.sequences[id := s'])
  }

  /** Adding the frames `ps` one by one. */
  function AddPoses(g: Extractor, id: int, ps: seq<Pose>): (r: Extractor)
    ensures r.sequenceLength == g.sequenceLength
    ensures id in g.sequences || |ps| > 0 ==> id in r.sequences
    decreases |ps|
  {
    if |ps| == 0 then g else AddPoses(AddPose(g, id, ps[0]), id, ps[1..])
  }

  /** After adding frames to a window within its length, the window holds the
      most recent `sequence_length` frames (all of them if fewer), in arrival
      order. */
  lemma {:induction false} WindowKeepsMostRecent(g: Extractor, id: int, prior: seq<Pose>, ps: seq<Pose>)
    requires g.sequenceLength >= 1
    requires id in g.sequences && g.sequences[id] == prior && |prior| <= g.sequenceLength
    ensures var all := prior + ps;
      var n := if |all| <= g.sequenceLength then |all| else g.sequenceLength;
      AddPoses(g, id, ps).sequences[id] == all[|all| - n..]
    decreases |ps|
  {
    if |ps| > 0 {
      var g1 := AddPose(g, id, ps[0]);
      var next := g1.sequences[id];
      WindowKeepsMostRecent(g1, id, next, ps[1..]);
      WindowStep(prior, ps, next, g.sequenceLength);
    }
  }

  lemma WindowStep(prior: seq<Pose>, ps: seq<Pose>, next: seq<Pose>, len: int)
    requires len >= 1 && |prior| <= len && |ps| > 0
    requires |prior| + 1 > len ==> next == (prior + [ps[0]])[1..]
    requires |prior| + 1 <= len ==> next == prior + [ps[0]]
    ensures var all, all1 := prior + ps, next + ps[1..];
      var n := if |all| <= len then |all| else len;
      var n1 := if |all1| <= len then |all1| else len;
      all1[|all1| - n1..] == all[|all| - n..]
  {
    var s := prior + [ps[0]];
    var all, all1 := prior + ps, next + ps[1..];
    assert s + ps[1..] == all;
    if |s| > len {
      assert next == s[1..];
      assert all1 == all[1..];
    } else {
      assert next == s;
      assert all1 == all;
    }
  }

  /** `clear_sequence`: forget one person; an unknown id changes nothing. */
  function ClearSequence(g: Extractor, id: int): (r: Extractor)
    ensures id !in r.sequences && r.sequenceLength == g.sequenceLength
    ensures r.sequences.Keys == g.sequences.Keys - {id}
    ensures forall other :: other in r.sequences ==> r.sequences[other] == g.sequences[other]
    ensures id !in g.sequences ==> r == g
  {
    if id in g.sequences then Extractor(g.sequenceLength, g.sequences - {id}) else g
  }

  // ---------------------------------------------------------------- features

  /** The heights of the frames holding landmark `k`, in frame order. */
  function Heights(seqn: seq<Pose>, k: int): (ys: seq<real>)
    ensures |ys| <= |seqn|
  {
    if |seqn| == 0 then []
    else
      var rest := Heights(seqn[1..], k);
      if k in Landmarks(seqn[0]) then [Landmarks(seqn[0])[k].y] + rest else rest
  }

  /** Variance of at least six observations, else 0. */
  function GatedVariance(ys: seq<real>): (v: real)
    ensures v >= 0.0
    ensures |ys| <= 5 ==> v == 0.0
    ensures |ys| > 5 ==> v == Stats.Variance(ys)
  {
    if |ys| > 5 then
      Stats.VarianceNonNegative(ys);
      Stats.Variance(ys)
    else 0.0
  }

  /** `_extract_stride_features`: the height variances of the left and the right
      ankle. */
  function StrideFeatures(seqn: seq<Pose>): (f: seq<real>)
    ensures |f| == 2
    ensures f[0] == GatedVariance(Heights(seqn, LeftAnkle)) && f[1] == GatedVariance(Heights(seqn, RightAnkle))
    ensures var l := Heights(seqn, LeftAnkle); |l| > 5 ==> f[0] == Stats.Variance(l)
    ensures var r := Heights(seqn, RightAnkle); |r| > 5 ==> f[1] == Stats.Variance(r)
    ensures f[0] >= 0.0 && f[1] >= 0.0
  {
    [GatedVariance(Heights(seqn, LeftAnkle)), GatedVariance(Heights(seqn, RightAnkle))]
  }

  function Abs(x: real): (a: real)
    ensures a >= 0.0 && (a == x || a == -x)
  {
    if x < 0.0 then -x else x
  }

  /** Whether a frame holds both the left hip and the left ankle. */
  predicate HasLeg(p: Pose)
  {
    LeftHip in Landmarks(p) && LeftAnkle in Landmarks(p)
  }

  function LegLength(p: Pose): real
    requires HasLeg(p)
  {
    Abs(Landmarks(p)[LeftHip].y - Landmarks(p)[LeftAnkle].y)
  }

  /** `_extract_proportion_features`: the leg length of the first frame that has a
      leg, else 0. */
  function ProportionFeatures(seqn: seq<Pose>): (f: seq<real>)
    ensures |f| == 1 && f[0] >= 0.0
  {
    if |seqn| == 0 then [0.0]
    else if HasLeg(seqn[0]) then [LegLength(seqn[0])]
    else ProportionFeatures(seqn[1..])
  }

  /** The proportion feature comes from the first frame with a leg; without one it
      is 0. */
  lemma {:induction false} ProportionFromFirstLeg(seqn: seq<Pose>, k: nat)
    requires k < |seqn| && HasLeg(seqn[k])
    requires forall j :: 0 <= j < k ==> !HasLeg(seqn[j])
    ensures ProportionFeatures(seqn) == [LegLength(seqn[k])]
  {
    if k > 0 {
      assert !HasLeg(seqn[0]);
      ProportionFromFirstLeg(seqn[1..], k - 1);
    }
  }

  lemma {:induction false} ProportionWithoutLegs(seqn: seq<Pose>)
    requires forall j :: 0 <= j < |seqn| ==> !HasLeg(seqn[j])
    ensures ProportionFeatures(seqn) == [0.0]
  {
    if |seqn| > 0 {
      ProportionWithoutLegs(seqn[1..]);
    }
  }

  /** The hip midpoint heights of the frames holding both hips, in frame order. */
  function CentreHeights(seqn: seq<Pose>): (c: seq<real>)
    ensures |c| <= |seqn|
  {
    if |seqn| == 0 then []
    else
      var rest := CentreHeights(seqn[1..]);
      var lm := Landmarks(seqn[0]);
      if LeftHip in lm && RightHip in lm then [(lm[LeftHip].y + lm[RightHip].y) / 2.0] + rest else rest
  }

  /** `_extract_rhythm_features`: the variance of the frame-to-frame change of the
      hip midpoint height, from at least six such frames. */
  function RhythmFeatures(seqn: seq<Pose>): (f: seq<real>)
    ensures |f| == 1 && f[0] >= 0.0
    ensures |CentreHeights(seqn)| <= 5 ==> f == [0.0]
    ensures |CentreHeights(seqn)| > 5 ==> f == [Stats.Variance(Stats.Diff(CentreHeights(seqn)))]
  {
    var c := CentreHeights(seqn);
    if |c| > 5 then
      var d := Stats.Diff(c);
      Stats.VarianceNonNegative(d);
      [Stats.Variance(d)]
    else [0.0]
  }

  /** `extract_features`: `None` for an unknown person or fewer than ten frames,
      else two stride values, one proportion value and one rhythm value, none of
      them negative. */
  function ExtractFeatures(g: Extractor, id: int): (f: Option<seq<real>>)
    ensures f.None? <==> id !in g.sequences || |g.sequences[id]| < MinFrames
    ensures f.Some? ==> |f.value| == 4 && forall i :: 0 <= i < 4 ==> f.value[i] >= 0.0
    ensures f.Some? ==> var s := g.sequences[id];
      && f.value[..2] == StrideFeatures(s) && f.value[2] == ProportionFeatures(s)[0] && f.value[3] == RhythmFeatures(s)[0]
  {
    if id !in g.sequences then None
    else
      var s := g.sequences[id];
      if |s| < MinFrames then None
      else Some(StrideFeatures(s) + ProportionFeatures(s) + RhythmFeatures(s))
  }

  /** Ankles that stay at one height give zero stride features. */
  lemma SteadyAnklesNoStride(seqn: seq<Pose>, h: real)
    requires forall j :: 0 <= j < |seqn| ==> LeftAnkle in Landmarks(seqn[j]) && Landmarks(seqn[j])[LeftAnkle].y == h
    ensures StrideFeatures(seqn)[0] == 0.0
  {
    ConstantHeights(seqn, LeftAnkle, h);
    var ys := Heights(seqn, LeftAnkle);
    if |ys| > 5 {
      Stats.VarianceOfConstant(ys, h);
    }
  }

  lemma {:induction false} ConstantHeights(seqn: seq<Pose>, k: int, h: real)
    requires forall j :: 0 <= j < |seqn| ==> k in Landmarks(seqn[j]) && Landmarks(seqn[j])[k].y == h
    ensures |Heights(seqn, k)| == |seqn|
    ensures forall i :: 0 <= i < |Heights(seqn, k)| ==> Heights(seqn, k)[i] == h
  {
    if |seqn| > 0 {
      assert forall j :: 1 <= j < |seqn| ==> seqn[j] == seqn[1..][j - 1];
      ConstantHeights(seqn[1..], k, h);
    }
  }

  /** A window of ten frames without any landmark still yields four zeros. */
  lemma EmptyFramesGiveZeros(g: Extractor, id: int)
    requires id in g.sequences && |g.sequences[id]| >= MinFrames
    requires forall j :: 0 <= j < |g.sequences[id]| ==> g.sequences[id][j].keypoints == None
    ensures ExtractFeatures(g, id) == Some([0.0, 0.0, 0.0, 0.0])
  {
    var s := g.sequences[id];
    NoLandmarksNoHeights(s);
    ProportionWithoutLegs(s);
    assert StrideFeatures(s) == [0.0, 0.0];
    assert RhythmFeatures(s) == [0.0];
    assert StrideFeatures(s) + ProportionFeatures(s) + RhythmFeatures(s) == [0.0, 0.0, 0.0, 0.0];
  }

  lemma {:induction false} NoLandmarksNoHeights(seqn: seq<Pose>)
    requires forall j :: 0 <= j < |seqn| ==> seqn[j].keypoints == None
    ensures Heights(seqn, LeftAnkle) == [] && Heights(seqn, RightAnkle) == [] && CentreHeights(seqn) == []
  {
    if |seqn| > 0 {
      assert forall j :: 1 <= j < |seqn| ==> seqn[j] == seqn[1..][j - 1];
      NoLandmarksNoHeights(seqn[1..]);
    }
  }

  // ---------------------------------------------------------------- camera height

  /** Every landmark of every frame moved vertically by `c`, as when the camera is
      raised or lowered. */
  function Lift(seqn: seq<Pose>, c: real): (r: seq<Pose>)
    ensures |r| == |seqn|
    ensures forall j, k :: 0 <= j < |seqn| && k in Landmarks(seqn[j]) ==>
      k in Landmarks(r[j]) && Landmarks(r[j])[k] == Keypoint(Landmarks(seqn[j])[k].x, Landmarks(seqn[j])[k].y + c)
    ensures forall j :: 0 <= j < |seqn| ==> Landmarks(r[j]).Keys == Landmarks(seqn[j]).Keys
  {
    seq(|seqn|, j requires 0 <= j < |seqn| =>
      var lm := Landmarks(seqn[j]);
      Pose(Some(map k | k in lm :: Keypoint(lm[k].x, lm[k].y + c))))
  }

  lemma {:induction false} HeightsLift(seqn: seq<Pose>, k: int, c: real)
    ensures Heights(Lift(seqn, c), k) == Stats.Shift(Heights(seqn, k), c)
    decreases |seqn|
  {
    if |seqn| > 0 {
      assert Lift(seqn, c)[1..] == Lift(seqn[1..], c);
      HeightsLift(seqn[1..], k, c);
    }
  }

  lemma {:induction false} CentreHeightsLift(seqn: seq<Pose>, c: real)
    ensures CentreHeights(Lift(seqn, c)) == Stats.Shift(CentreHeights(seqn), c)
    decreases |seqn|
  {
    if |seqn| > 0 {
      assert Lift(seqn, c)[1..] == Lift(seqn[1..], c);
      CentreHeightsLift(seqn[1..], c);
    }
  }

  /** The gait features describe how a person walks, not where the camera is:
      moving every landmark by the same height changes none of them. */
  lemma FeaturesIgnoreCameraHeight(seqn: seq<Pose>, c: real)
    ensures StrideFeatures(Lift(seqn, c)) == StrideFeatures(seqn)
    ensures ProportionFeatures(Lift(seqn, c)) == ProportionFeatures(seqn)
    ensures RhythmFeatures(Lift(seqn, c)) == RhythmFeatures(seqn)
  {
    HeightsLift(seqn, LeftAnkle, c);
    HeightsLift(seqn, RightAnkle, c);
    var l, r := Heights(seqn, LeftAnkle), Heights(seqn, RightAnkle);
    if |l| > 5 { Stats.VarianceShiftInvariant(l, c); }
    if |r| > 5 { Stats.VarianceShiftInvariant(r, c); }
    ProportionLift(seqn, c);
    CentreHeightsLift(seqn, c);
    Stats.DiffShift(CentreHeights(seqn), c);
  }

  lemma {:induction false} ProportionLift(seqn: seq<Pose>, c: real)
    ensures ProportionFeatures(Lift(seqn, c)) == ProportionFeatures(seqn)
    decreases |seqn|
  {
    if |seqn| > 0 {
      assert Lift(seqn, c)[1..] == Lift(seqn[1..], c);
      ProportionLift(seqn[1..], c);
    }
  }
}

=== FILE: src/helpers.dfy ===
/** String helpers from backend/app/utils/helpers.py: `truncate_string`,
    `generate_id` and `get_time_ago`.

    The random draws of `generate_id` are the input `pick` (the `i`-th draw,
    reduced into the alphabet); the elapsed time of `get_time_ago` is the input
    `seconds`. */
module Helpers {
  import PySlice
  import Decimal

  // ---------------------------------------------------------------- truncate

  /** `truncate_string(s, max_length, suffix)` as written: keep `s` when it fits,
      else `s[:max_length - len(suffix)] + suffix`. */
  function TruncateString(s: string, maxLength: int, suffix: string): (r: string)
    ensures |s| <= maxLength ==> r == s
    ensures |s| > maxLength ==> r == PySlice.Prefix(s, maxLength - |suffix|) + suffix
  {
    if |s| <= maxLength then s else PySlice.Prefix(s, maxLength - |suffix|) + suffix
  }

  /** With room for the suffix, a long string is cut to exactly `max_length`: a
      prefix of `s` followed by the suffix. */
  lemma TruncateFits(s: string, maxLength: int, suffix: string)
    requires |s| > maxLength >= |suffix|
    ensures var r := TruncateString(s, maxLength, suffix);
      && |r| == maxLength
      && r[..maxLength - |suffix|] == s[..maxLength - |suffix|]
      && r[maxLength - |suffix|..] == suffix
  {
  }

  /** Without room for the suffix the bound in the slice goes negative and counts
      from the end: `truncate_string("abcdef", 2)` is `"abcde..."`, longer than
      the string it truncates. */
  lemma TruncateOverflows()
    ensures TruncateString("abcdef", 2, "...") == "abcde..."
    ensures |TruncateString("abcdef", 2, "...")| > |"abcdef"|
  {
    assert PySlice.Prefix("abcdef", -1) == "abcde";
  }

  function MaxZero(n: int): nat
  {
    if n > 0 then n else 0
  }

  /** Truncation that never exceeds `max_length`: when the suffix itself does not
      fit, only as much of it as fits. */
  function TruncateBounded(s: string, maxLength: int, suffix: string): (r: string)
    ensures |s| <= maxLength ==> r == s
    ensures |r| <= |s|
    ensures |r| <= MaxZero(maxLength)
    ensures maxLength >= |suffix| ==> r == TruncateString(s, maxLength, suffix)
  {
    if |s| <= maxLength then s
    else if maxLength >= |suffix| then TruncateString(s, maxLength, suffix)
    else suffix[..MaxZero(maxLength)]
  }

  // ---------------------------------------------------------------- ids

  /** `string.ascii_lowercase + string.digits`. */
  const Alphabet: string := "abcdefghijklmnopqrstuvwxyz0123456789"

  /** `''.join(random.choices(Alphabet, k=length))`, draw `i` being `pick(i)`. */
  function RandomPart(pick: nat -> nat, length: int): (r: string)
    ensures |r| == MaxZero(length)
    ensures forall i :: 0 <= i < |r| ==> r[i] in Alphabet
  {
    seq(MaxZero(length), i requires 0 <= i < MaxZero(length) => Alphabet[pick(i) % |Alphabet|])
  }

  /** `generate_id(prefix, length)`. */
  function GenerateId(pick: nat -> nat, prefix: string, length: int): (id: string)
    ensures |prefix| == 0 ==> id == RandomPart(pick, length)
    ensures |prefix| > 0 ==> id == prefix + "_" + RandomPart(pick, length)
    ensures |id| == (if |prefix| > 0 then |prefix| + 1 else 0) + MaxZero(length)
  {
    var r := RandomPart(pick, length);
    if |prefix| > 0 then prefix + "_" + r else r
  }

  /** The random part never contains `_`, so the text after the id's last `_` is
      exactly the random part. */
  lemma LastUnderscoreSeparates(pick: nat -> nat, prefix: string, length: int)
    requires |prefix| > 0
    ensures var id := GenerateId(pick, prefix, length);
      && id[|prefix|] == '_'
      && id[..|prefix|] == prefix
      && id[|prefix| + 1..] == RandomPart(pick, length)
      && forall i :: |prefix| < i < |id| ==> id[i] != '_'
  {
    var id := GenerateId(pick, prefix, length);
    var r := RandomPart(pick, length);
    assert '_' !in Alphabet;
    forall i | |prefix| < i < |id| ensures id[i] != '_' {
      assert id[i] == r[i - |prefix| - 1];
    }
  }

  // ---------------------------------------------------------------- time ago

  /** `f"{n} {unit}{'s' if n != 1 else ''} ago"`. */
  function Phrase(n: int, unit: string): string
  {
    Decimal.IntToString(n) + " " + unit + (if n != 1 then "s" else "") + " ago"
  }

  /** `get_time_ago` on the elapsed seconds: under a minute "just now", then whole
      minutes, hours or days, each truncated toward zero. */
  function GetTimeAgo(seconds: real): (r: string)
    ensures seconds < 60.0 ==> r == "just now"
    ensures 60.0 <= seconds < 3600.0 ==> exists m :: 1 <= m < 60 && m as real * 60.0 <= seconds < (m + 1) as real * 60.0 && r == Phrase(m, "minute")
    ensures 3600.0 <= seconds < 86400.0 ==> exists h :: 1 <= h < 24 && h as real * 3600.0 <= seconds < (h + 1) as real * 3600.0 && r == Phrase(h, "hour")
    ensures 86400.0 <= seconds ==> exists d :: 1 <= d && d as real * 86400.0 <= seconds < (d + 1) as real * 86400.0 && r == Phrase(d, "day")
  {
    if seconds < 60.0 then "just now"
    else if seconds < 3600.0 then
      var m := (seconds / 60.0).Floor;
      FloorBounds(seconds, 60.0);
      Phrase(m, "minute")
    else if seconds < 86400.0 then
      var h := (seconds / 3600.0).Floor;
      FloorBounds(seconds, 3600.0);
      Phrase(h, "hour")
    else
      var d := (seconds / 86400.0).Floor;
      FloorBounds(seconds, 86400.0);
      Phrase(d, "day")
  }

  /** `int(x / u)` for positive `x` is the whole number of units in `x`. */
  lemma FloorBounds(x: real, u: real)
    requires u > 0.0 && x >= 0.0
    ensures (x / u).Floor as real * u <= x < ((x / u).Floor + 1) as real * u
  {
    var q := x / u;
    assert q * u == x;
    var f := q.Floor;
    assert f as real <= q < f as real + 1.0;
    MulMono(f as real, q, u);
    MulMono(q, f as real + 1.0, u);
    var g := f as real + 1.0;
    assert (f + 1) as real == g;
    assert x < g * u;
    assert f as real * u <= x;
  }

  lemma MulMono(a: real, b: real, u: real)
    requires u > 0.0
    ensures a <= b ==> a * u <= b * u
    ensures a < b ==> a * u < b * u
  {
  }

  /** The plural "s" appears exactly when the count is not one. */
  lemma PluralIffNotOne(n: int, unit: string)
    requires |unit| > 0 && unit[|unit| - 1] != 's'
    ensures var p := Phrase(n, unit);
      |p| >= 5 && (p[|p| - 5..] == "s ago" <==> n != 1)
  {
    var p := Phrase(n, unit);
    var head := Decimal.IntToString(n) + " " + unit;
    if n != 1 {
      assert p == head + "s ago";
    } else {
      assert p == head + " ago";
      assert p[|p| - 5] == unit[|unit| - 1];
    }
  }

  /** Ninety seconds read "1 minute ago", two hours "2 hours ago". */
  lemma TimeAgoExamples()
    ensures GetTimeAgo(90.0) == "1 minute ago"
    ensures GetTimeAgo(7200.0) == "2 hours ago"
  {
    assert (90.0 / 60.0).Floor == 1;
    assert (7200.0 / 3600.0).Floor == 2;
    assert Decimal.IntToString(1) == "1";
    assert Decimal.IntToString(2) == "2";
  }
}

=== FILE: src/key_order.dfy ===
/** Python's ordering of `str` values (code point by code point, a proper prefix
    first) and `sorted()` over the distinct keys of a dict. */
module KeyOrder {

  /** `a < b` on Python strings. */
  predicate Less(a: string, b: string)
  {
    if |a| == 0 then |b| > 0
    else if |b| == 0 then false
    else if a[0] == b[0] then Less(a[1..], b[1..])
    else a[0] < b[0]
  }

  lemma {:induction false} LessIrreflexive(a: string)
    ensures !Less(a, a)
  {
    if |a| > 0 {
      LessIrreflexive(a[1..]);
    }
  }

  lemma {:induction false} LessAsymmetric(a: string, b: string)
    requires Less(a, b)
    ensures !Less(b, a)
  {
    if |a| > 0 && |b| > 0 && a[0] == b[0] {
      LessAsymmetric(a[1..], b[1..]);
    }
  }

  lemma {:induction false} LessTransitive(a: string, b: string, c: string)
    requires Less(a, b) && Less(b, c)
    ensures Less(a, c)
  {
    if |a| > 0 && |b| > 0 && |c| > 0 && a[0] == b[0] && b[0] == c[0] {
      LessTransitive(a[1..], b[1..], c[1..]);
    }
  }

  lemma {:induction false} LessTotal(a: string, b: string)
    requires a != b
    ensures Less(a, b) || Less(b, a)
  {
    if |a| > 0 && |b| > 0 && a[0] == b[0] {
      assert a == [a[0]] + a[1..];
      assert b == [b[0]] + b[1..];
      LessTotal(a[1..], b[1..]);
    }
  }

  predicate StrictlySorted(s: seq<string>)
  {
    forall i, j :: 0 <= i < j < |s| ==> Less(s[i], s[j])
  }

  predicate Distinct<T(==)>(s: seq<T>)
  {
    forall i, j :: 0 <= i < j < |s| ==> s[i] != s[j]
  }

  /** Inserts `x` before the first element greater than it. */
  function Insert(x: string, s: seq<string>): seq<string>
  {
    if |s| == 0 then [x]
    else if Less(x, s[0]) then [x] + s
    else [s[0]] + Insert(x, s[1..])
  }

  /** `sorted(keys)` */
  function SortKeys(keys: seq<string>): seq<string>
  {
    if |keys| == 0 then [] else Insert(keys[0], SortKeys(keys[1..]))
  }

  /** The keys a sequence holds. */
  function Elements(s: seq<string>): set<string>
  {
    set x | x in s
  }

  /** A non-empty sequence holds its head and the keys of its tail. */
  lemma ElementsCons(s: seq<string>)
    requires |s| > 0
    ensures Elements(s) == {s[0]} + Elements(s[1..])
    ensures forall x :: x in s <==> x == s[0] || x in s[1..]
  {
    assert s == [s[0]] + s[1..];
  }

  lemma {:induction false} InsertProperties(x: string, s: seq<string>)
    requires StrictlySorted(s) && x !in s
    ensures StrictlySorted(Insert(x, s))
    ensures Elements(Insert(x, s)) == Elements(s) + {x}
  {
    if |s| == 0 {
    } else if Less(x, s[0]) {
      var r := [x] + s;
      forall i, j | 0 <= i < j < |r|
        ensures Less(r[i], r[j])
      {
        if i == 0 && j > 1 {
          LessTransitive(x, s[0], s[j - 1]);
        }
      }
    } else {
      var t := s[1..];
      assert s == [s[0]] + t;
      InsertProperties(x, t);
      var it := Insert(x, t);
      var r := [s[0]] + it;
      LessTotal(x, s[0]);
      forall i, j | 0 <= i < j < |r|
        ensures Less(r[i], r[j])
      {
        if i == 0 {
          var y := r[j];
          assert y in Elements(it) by { assert it[j - 1] == y; }
          if y != x {
            assert y in t;
            var k :| 0 <= k < |t| && t[k] == y;
            assert s[k + 1] == y;
          }
        }
      }
    }
  }

  /** `sorted()` of distinct keys is strictly increasing and holds exactly those keys. */
  lemma {:induction false} SortKeysProperties(keys: seq<string>)
    requires Distinct(keys)
    ensures StrictlySorted(SortKeys(keys))
    ensures Elements(SortKeys(keys)) == Elements(keys)
  {
    if |keys| > 0 {
      var t := keys[1..];
      SortKeysProperties(t);
      forall k | 0 <= k < |t|
        ensures t[k] != keys[0]
      {
        assert t[k] == keys[k + 1];
      }
      assert keys[0] !in Elements(SortKeys(t));
      InsertProperties(keys[0], SortKeys(t));
      assert Elements(keys) == {keys[0]} + Elements(t) by {
        forall y | y in Elements(t) ensures y in Elements(keys) {
          var k :| 0 <= k < |t| && t[k] == y;
          assert keys[k + 1] == y;
        }
        assert keys[0] in Elements(keys);
      }
    }
  }

  lemma ElementsEmpty(s: seq<string>)
    ensures Elements(s) == {} <==> |s| == 0
  {
    if |s| > 0 {
      assert s[0] in Elements(s);
    }
  }

  /** Two strictly increasing sequences over the same elements are equal. */
  lemma {:induction false} StrictlySortedUnique(a: seq<string>, b: seq<string>)
    requires StrictlySorted(a) && StrictlySorted(b)
    requires Elements(a) == Elements(b)
    ensures a == b
    decreases |a|
  {
    if |a| == 0 {
      ElementsEmpty(b);
    } else {
      assert a[0] in Elements(b);
      assert b[0] in Elements(a);
      var ka :| 0 <= ka < |a| && a[ka] == b[0];
      var kb :| 0 <= kb < |b| && b[kb] == a[0];
      if ka > 0 {
        assert Less(a[0], a[ka]);
        if kb > 0 {
          assert Less(b[0], b[kb]);
          LessAsymmetric(a[0], b[0]);
        } else {
          LessIrreflexive(a[0]);
        }
      }
      assert a[0] == b[0];
      var a' := a[1..];
      var b' := b[1..];
      assert Elements(a') == Elements(b') by {
        forall y | y in Elements(a') ensures y in Elements(b') {
          var k :| 0 <= k < |a'| && a'[k] == y;
          assert a[k + 1] == y;
          assert Less(a[0], y);
          assert y in Elements(a);
          var m :| 0 <= m < |b| && b[m] == y;
          if m == 0 { LessIrreflexive(y); }
          assert b'[m - 1] == y;
        }
        forall y | y in Elements(b') ensures y in Elements(a') {
          var k :| 0 <= k < |b'| && b'[k] == y;
          assert b[k + 1] == y;
          assert Less(b[0], y);
          assert y in Elements(b);
          var m :| 0 <= m < |a| && a[m] == y;
          if m == 0 { LessIrreflexive(y); }
          assert a'[m - 1] == y;
        }
      }
      StrictlySortedUnique(a', b');
      assert a == [a[0]] + a';
      assert b == [b[0]] + b';
    }
  }

  /** `sorted(keys)` depends only on which keys there are, not on their order. */
  lemma SortKeysIgnoresOrder(k1: seq<string>, k2: seq<string>)
    requires Distinct(k1) && Distinct(k2)
    requires Elements(k1) == Elements(k2)
    ensures SortKeys(k1) == SortKeys(k2)
  {
    SortKeysProperties(k1);
    SortKeysProperties(k2);
    StrictlySortedUnique(SortKeys(k1), SortKeys(k2));
  }
}

=== FILE: src/pair_sums.dfy ===
/** Finite sums of a pairwise term `h(a, b)` over lists of participants, and the
    fact that an antisymmetric term sums to zero over all ordered pairs. */
module PairSums {

  /** `h(a, b)` summed over `b` in `bs`. */
  function RowSum(h: (int, int) -> real, a: int, bs: seq<int>): real
  {
    if |bs| == 0 then 0.0 else h(a, bs[0]) + RowSum(h, a, bs[1..])
  }

  /** `h(a, b)` summed over `a` in `as_`. */
  function ColSum(h: (int, int) -> real, as_: seq<int>, b: int): real
  {
    if |as_| == 0 then 0.0 else h(as_[0], b) + ColSum(h, as_[1..], b)
  }

  /** `h(a, b)` summed over `a` in `as_` and `b` in `bs`, row by row. */
  function DoubleSum(h: (int, int) -> real, as_: seq<int>, bs: seq<int>): real
  {
    if |as_| == 0 then 0.0 else RowSum(h, as_[0], bs) + DoubleSum(h, as_[1..], bs)
  }

  /** The same double sum, column by column. */
  function DoubleSumByColumns(h: (int, int) -> real, as_: seq<int>, bs: seq<int>): real
  {
    if |bs| == 0 then 0.0 else ColSum(h, as_, bs[0]) + DoubleSumByColumns(h, as_, bs[1..])
  }

  ghost predicate Antisymmetric(h: (int, int) -> real)
  {
    forall a, b :: h(a, b) == -h(b, a)
  }

  /** Adding one row to every column adds that row's sum. */
  lemma {:induction false} ColumnsPlusRow(h: (int, int) -> real, a: int, as_: seq<int>, bs: seq<int>)
    ensures DoubleSumByColumns(h, [a] + as_, bs) == RowSum(h, a, bs) + DoubleSumByColumns(h, as_, bs)
  {
    if |bs| > 0 {
      ColumnsPlusRow(h, a, as_, bs[1..]);
      assert ([a] + as_)[1..] == as_;
    }
  }

  /** Summation order does not matter. */
  lemma {:induction false} Fubini(h: (int, int) -> real, as_: seq<int>, bs: seq<int>)
    ensures DoubleSum(h, as_, bs) == DoubleSumByColumns(h, as_, bs)
  {
    if |as_| == 0 {
      EmptyColumns(h, bs);
    } else {
      Fubini(h, as_[1..], bs);
      ColumnsPlusRow(h, as_[0], as_[1..], bs);
      assert [as_[0]] + as_[1..] == as_;
    }
  }

  lemma {:induction false} EmptyColumns(h: (int, int) -> real, bs: seq<int>)
    ensures DoubleSumByColumns(h, [], bs) == 0.0
  {
    if |bs| > 0 {
      EmptyColumns(h, bs[1..]);
    }
  }

  /** For an antisymmetric term a column is the negated row. */
  lemma {:induction false} ColumnIsNegatedRow(h: (int, int) -> real, as_: seq<int>, b: int)
    requires Antisymmetric(h)
    ensures ColSum(h, as_, b) == -RowSum(h, b, as_)
  {
    if |as_| > 0 {
      ColumnIsNegatedRow(h, as_[1..], b);
      var a := as_[0];
      assert h(a, b) == -h(b, a);
    }
  }

  lemma {:induction false} ColumnsAreNegatedRows(h: (int, int) -> real, as_: seq<int>, bs: seq<int>)
    requires Antisymmetric(h)
    ensures DoubleSumByColumns(h, as_, bs) == -DoubleSum(h, bs, as_)
  {
    if |bs| > 0 {
      ColumnsAreNegatedRows(h, as_, bs[1..]);
      ColumnIsNegatedRow(h, as_, bs[0]);
    }
  }

  /** An antisymmetric term summed over every ordered pair of one list cancels. */
  lemma AntisymmetricCancels(h: (int, int) -> real, ids: seq<int>)
    requires Antisymmetric(h)
    ensures DoubleSum(h, ids, ids) == 0.0
  {
    Fubini(h, ids, ids);
    ColumnsAreNegatedRows(h, ids, ids);
  }
}

=== FILE: src/pyslice.dfy ===
/** Python's rules for the bounds of `s[:j]` and `s[i:]`: a negative bound counts
    from the end, and every bound is clamped into `[0, len(s)]`. */
module PySlice {

  /** The position a Python slice bound `i` denotes in a sequence of length `n`. */
  function Bound(i: int, n: nat): (b: nat)
    ensures b <= n
    ensures 0 <= i <= n ==> b == i
    ensures i < 0 && 0 <= i + n ==> b == n + i
    ensures i > n ==> b == n
    ensures i + n < 0 ==> b == 0
  {
    if i < 0 then (if i + n < 0 then 0 else i + n)
    else if i > n then n
    else i
  }

  /** `s[:j]` */
  function Prefix<T>(s: seq<T>, j: int): seq<T>
  {
    s[..Bound(j, |s|)]
  }

  /** `s[i:]` */
  function Suffix<T>(s: seq<T>, i: int): seq<T>
  {
    s[Bound(i, |s|)..]
  }

  /** `s[:i] + s[i:] == s` for every integer `i`, negative or out of range. */
  lemma PrefixSuffixSplit<T>(s: seq<T>, i: int)
    ensures Prefix(s, i) + Suffix(s, i) == s
  {
  }

  /** `-0 == 0`, so `s[:-0]` is empty and `s[-0:]` is all of `s`. */
  lemma NegatedZero<T>(s: seq<T>)
    ensures Prefix(s, -0) == []
    ensures Suffix(s, -0) == s
  {
  }

  /** For `0 < n <= len(s)`, `s[:-n]` drops the last `n` items and `s[-n:]` keeps them. */
  lemma NegativeBound<T>(s: seq<T>, n: int)
    requires 0 < n <= |s|
    ensures Prefix(s, -n) == s[..|s| - n]
    ensures Suffix(s, -n) == s[|s| - n..]
    ensures |Suffix(s, -n)| == n
  {
  }
}

=== FILE: src/secure_aggregation.dfy ===
/** `SecureAggregationProtocol` from federated_learning/secure_aggregation.py: a
    cache of pairwise secrets, sign-by-ordering masks, the pass-through unmask
    step and the commitment check.

    The 32 random bytes drawn for a new pair are an input `draw`, indexed by the
    sorted pair; the seeded generator behind `torch.randn` is an input `gen`
    giving element `j` of a mask of `n` elements for a 64-bit seed. */
module SecureAggregation {
  import opened Tensors
  import PySlice
  import PairSums

  newtype byte = b: int | 0 <= b < 256

  type Secret = seq<byte>

  /** What `secrets.token_bytes(32)` returns: 32 bytes. */
  type Token = s: Secret | |s| == 32 witness seq(32, _ => 0)

  /** `secrets.token_bytes(32)` for a pair that has no secret yet. */
  type Draw = ((int, int)) -> Token

  /** Every cached secret is a 32-byte token. */
  predicate TokensOnly(p: Protocol)
  {
    forall key :: key in p.secrets ==> |p.secrets[key]| == 32
  }

  /** The seeded `torch.randn`: element `j` of an `n`-element mask for `seed`. */
  type Generator = (nat, nat, nat) -> real

  datatype Protocol = Protocol(secrets: map<(int, int), Secret>)

  /** `tuple(sorted([i, j]))`. */
  function PairKey(i: int, j: int): (key: (int, int))
    ensures key.0 <= key.1
    ensures (key.0 == i && key.1 == j) || (key.0 == j && key.1 == i)
  {
    if i <= j then (i, j) else (j, i)
  }

  lemma PairKeySymmetric(i: int, j: int)
    ensures PairKey(i, j) == PairKey(j, i)
  {
  }

  /** Every secret `q` held by `p` is still held, unchanged, by `q`. */
  ghost predicate Extends(q: Protocol, p: Protocol)
  {
    forall key :: key in p.secrets ==> key in q.secrets && q.secrets[key] == p.secrets[key]
  }

  /** `generate_pairwise_secret`: the cached secret of the unordered pair, or a
      fresh draw that is cached first. */
  function GeneratePairwiseSecret(p: Protocol, draw: Draw, i: int, j: int): (r: (Secret, Protocol))
    ensures PairKey(i, j) in r.1.secrets && r.0 == r.1.secrets[PairKey(i, j)]
    ensures r.1.secrets.Keys == p.secrets.Keys + {PairKey(i, j)}
    ensures Extends(r.1, p)
    ensures PairKey(i, j) in p.secrets ==> r == (p.secrets[PairKey(i, j)], p)
    ensures PairKey(i, j) !in p.secrets ==> r.0 == draw(PairKey(i, j)) && |r.0| == 32
    ensures TokensOnly(p) ==> |r.0| == 32 && TokensOnly(r.1)
  {
    var key := PairKey(i, j);
    if key in p.secrets then (p.secrets[key], p)
    else
      var secret := draw(key);
      (secret, Protocol(p.secrets[key := secret]))
  }

  /** Asking for `(j, i)` is asking for `(i, j)`. */
  lemma PairwiseSecretSymmetric(p: Protocol, draw: Draw, i: int, j: int)
    ensures GeneratePairwiseSecret(p, draw, i, j) == GeneratePairwiseSecret(p, draw, j, i)
  {
    PairKeySymmetric(i, j);
  }

  /** A second request, in either order, returns the same secret and changes nothing. */
  lemma PairwiseSecretIdempotent(p: Protocol, draw: Draw, draw2: Draw, i: int, j: int)
    ensures var (s1, p1) := GeneratePairwiseSecret(p, draw, i, j);
      GeneratePairwiseSecret(p1, draw2, i, j) == (s1, p1)
      && GeneratePairwiseSecret(p1, draw2, j, i) == (s1, p1)
  {
    PairKeySymmetric(i, j);
  }

  // ---------------------------------------------------------------- masks

  /** `int.from_bytes(bs, 'big')`. */
  function BigEndian(bs: seq<byte>): (v: nat)
  {
    if |bs| == 0 then 0 else BigEndian(bs[..|bs| - 1]) * 256 + bs[|bs| - 1] as nat
  }

  function Pow256(n: nat): (p: nat)
    ensures p > 0
  {
    if n == 0 then 1 else 256 * Pow256(n - 1)
  }

  lemma {:induction false} BigEndianBound(bs: seq<byte>)
    ensures BigEndian(bs) < Pow256(|bs|)
  {
    if |bs| > 0 {
      BigEndianBound(bs[..|bs| - 1]);
    }
  }

  /** Big-endian decoding loses nothing: equal values of equal width are equal bytes. */
  lemma {:induction false} BigEndianInjective(a: seq<byte>, b: seq<byte>)
    requires |a| == |b| && BigEndian(a) == BigEndian(b)
    ensures a == b
  {
    if |a| > 0 {
      var n := |a| - 1;
      var x, y := BigEndian(a[..n]), BigEndian(b[..n]);
      var p, q := a[n] as int, b[n] as int;
      assert x * 256 + p == y * 256 + q;
      assert p == q && x == y by {
        assert (x * 256 + p) % 256 == p;
        assert (y * 256 + q) % 256 == q;
      }
      BigEndianInjective(a[..n], b[..n]);
      assert a == a[..n] + [a[n]] && b == b[..n] + [b[n]];
    }
  }

  /** The generator seed: the first eight bytes of the secret, big-endian. */
  function Seed(secret: Secret): (s: nat)
    ensures s < Pow256(8)
  {
    var head := PySlice.Prefix(secret, 8);
    BigEndianBound(head);
    SmallerPow(|head|, 8);
    BigEndian(head)
  }

  lemma {:induction false} SmallerPow(a: nat, b: nat)
    requires a <= b
    ensures Pow256(a) <= Pow256(b)
  {
    if a < b {
      SmallerPow(a, b - 1);
    }
  }

  /** `_secret_to_mask`: `n` generator outputs for the secret's seed. */
  function SecretToMask(gen: Generator, secret: Secret, n: nat): (m: Tensor)
    ensures |m| == n
  {
    seq(n, j requires 0 <= j < n => gen(Seed(secret), n, j))
  }

  /** Only the first eight bytes reach the generator: secrets that share them
      give the same mask, and a secret shorter than eight bytes is used whole. */
  lemma MaskSeesFirstEightBytes(gen: Generator, s1: Secret, s2: Secret, n: nat)
    requires PySlice.Prefix(s1, 8) == PySlice.Prefix(s2, 8)
    ensures SecretToMask(gen, s1, n) == SecretToMask(gen, s2, n)
  {
    assert Seed(s1) == Seed(s2);
  }

  /** Two secrets of at least eight bytes have the same seed exactly when their
      first eight bytes agree. */
  lemma SeedCharacterised(s1: Secret, s2: Secret)
    requires |s1| >= 8 && |s2| >= 8
    ensures Seed(s1) == Seed(s2) <==> s1[..8] == s2[..8]
  {
    if Seed(s1) == Seed(s2) {
      BigEndianInjective(s1[..8], s2[..8]);
    }
  }

  /** `mask_model`'s inner loop for one layer: for each peer other than the
      client, add the pair's mask when `client < peer`, subtract it otherwise. */
  function MaskTensor(p: Protocol, draw: Draw, gen: Generator, client: int, x: Tensor, peers: seq<int>): (r: (Tensor, Protocol))
    ensures |r.0| == |x|
    ensures Extends(r.1, p)
    decreases |peers|
  {
    if |peers| == 0 then (x, p)
    else if peers[0] == client then MaskTensor(p, draw, gen, client, x, peers[1..])
    else
      var (secret, p1) := GeneratePairwiseSecret(p, draw, client, peers[0]);
      var mask := SecretToMask(gen, secret, |x|);
      var x1 := if client < peers[0] then Add(x, mask) else Sub(x, mask);
      var r := MaskTensor(p1, draw, gen, client, x1, peers[1..]);
      ExtendsTransitive(r.1, p1, p);
      r
  }

  lemma ExtendsTransitive(r: Protocol, q: Protocol, p: Protocol)
    requires Extends(r, q) && Extends(q, p)
    ensures Extends(r, p)
  {
  }

  /** The mask term of the ordered pair `(a, b)` at element `j` of an `n`-element
      layer, with every pair's secret read from `final`: `+mask` when `a < b`,
      `-mask` when `a > b`, nothing for `a == b`. */
  function PairTerm(final: ((int, int)) -> Secret, gen: Generator, n: nat, j: nat): (h: (int, int) -> real)
  {
    (a: int, b: int) =>
      if a == b then 0.0
      else if a < b then gen(Seed(final(PairKey(a, b))), n, j)
      else -gen(Seed(final(PairKey(a, b))), n, j)
  }

  lemma PairTermAntisymmetric(final: ((int, int)) -> Secret, gen: Generator, n: nat, j: nat)
    ensures PairSums.Antisymmetric(PairTerm(final, gen, n, j))
  {
    var h := PairTerm(final, gen, n, j);
    forall a, b ensures h(a, b) == -h(b, a) {
      PairKeySymmetric(a, b);
    }
  }

  /** `final` hands out the secret `p` holds for every pair `p` knows. */
  ghost predicate Agrees(final: ((int, int)) -> Secret, p: Protocol)
  {
    forall key :: key in p.secrets ==> final(key) == p.secrets[key]
  }

  /** Read against any assignment of secrets that agrees with the cache the loop
      ends with, each masked element is the raw element plus the row of pair
      terms. */
  lemma {:induction false} MaskTensorValue(p: Protocol, draw: Draw, gen: Generator, client: int, x: Tensor, peers: seq<int>,
                                          final: ((int, int)) -> Secret, j: nat)
    requires Agrees(final, MaskTensor(p, draw, gen, client, x, peers).1)
    requires j < |x|
    ensures MaskTensor(p, draw, gen, client, x, peers).0[j]
      == x[j] + PairSums.RowSum(PairTerm(final, gen, |x|, j), client, peers)
    decreases |peers|
  {
    var h := PairTerm(final, gen, |x|, j);
    if |peers| > 0 {
      if peers[0] == client {
        MaskTensorValue(p, draw, gen, client, x, peers[1..], final, j);
      } else {
        var (secret, p1) := GeneratePairwiseSecret(p, draw, client, peers[0]);
        var mask := SecretToMask(gen, secret, |x|);
        var x1 := if client < peers[0] then Add(x, mask) else Sub(x, mask);
        var r := MaskTensor(p1, draw, gen, client, x1, peers[1..]);
        assert final(PairKey(client, peers[0])) == secret;
        MaskTensorValue(p1, draw, gen, client, x1, peers[1..], final, j);
        assert x1[j] == x[j] + h(client, peers[0]);
      }
    }
  }

  /** `mask_model`'s outer loop over the layers `ks`, threading the cache. */
  function MaskLayers(p: Protocol, draw: Draw, gen: Generator, client: int, m: ModelState, ks: seq<string>,
                      peers: seq<int>, acc: map<string, Tensor>): (r: (map<string, Tensor>, Protocol))
    requires forall t :: 0 <= t < |ks| ==> ks[t] in m.params
    ensures r.0.Keys == acc.Keys + KeyOrder.Elements(ks)
    ensures forall k :: k in r.0 && k !in ks ==> r.0[k] == acc[k]
    ensures forall k :: k in ks ==> |r.0[k]| == |m.params[k]|
    ensures Extends(r.1, p)
    decreases |ks|
  {
    if |ks| == 0 then (acc, p)
    else
      var (t, p1) := MaskTensor(p, draw, gen, client, m.params[ks[0]], peers);
      var r := MaskLayers(p1, draw, gen, client, m, ks[1..], peers, acc[ks[0] := t]);
      KeyOrder.ElementsCons(ks);
      ExtendsTransitive(r.1, p1, p);
      r
  }

  /** `mask_model`: a masked copy of every layer, in the model's own key order. */
  function MaskModel(p: Protocol, draw: Draw, gen: Generator, client: int, m: ModelState, peers: seq<int>): (r: (ModelState, Protocol))
    ensures r.0.keys == m.keys && r.0.params.Keys == m.params.Keys
    ensures forall k :: k in r.0.params ==> k in m.params && |r.0.params[k]| == |m.params[k]|
    ensures Extends(r.1, p)
  {
    KeysInModel(m);
    var (layers, p1) := MaskLayers(p, draw, gen, client, m, m.keys, peers, map[]);
    var out: ModelState := StateDict(m.keys, layers);
    (out, p1)
  }

  lemma KeysInModel(m: ModelState)
    ensures forall t :: 0 <= t < |m.keys| ==> m.keys[t] in m.params
    ensures forall k :: k in m.params ==> k in m.keys
  {
    forall t | 0 <= t < |m.keys| ensures m.keys[t] in m.params {
      assert m.keys[t] in KeyOrder.Elements(m.keys);
    }
    forall k | k in m.params ensures k in m.keys {
      assert k in KeyOrder.Elements(m.keys);
    }
  }

  lemma {:induction false} MaskLayersValue(p: Protocol, draw: Draw, gen: Generator, client: int, m: ModelState, ks: seq<string>,
                                          peers: seq<int>, acc: map<string, Tensor>, final: ((int, int)) -> Secret, k: string, j: nat)
    requires forall t :: 0 <= t < |ks| ==> ks[t] in m.params
    requires Agrees(final, MaskLayers(p, draw, gen, client, m, ks, peers, acc).1)
    requires k in ks && j < |m.params[k]|
    ensures MaskLayers(p, draw, gen, client, m, ks, peers, acc).0[k][j]
      == m.params[k][j] + PairSums.RowSum(PairTerm(final, gen, |m.params[k]|, j), client, peers)
    decreases |ks|
  {
    var (t, p1) := MaskTensor(p, draw, gen, client, m.params[ks[0]], peers);
    var r := MaskLayers(p1, draw, gen, client, m, ks[1..], peers, acc[ks[0] := t]);
    if k in ks[1..] {
      MaskLayersValue(p1, draw, gen, client, m, ks[1..], peers, acc[ks[0] := t], final, k, j);
    } else {
      assert k == ks[0] by { assert ks == [ks[0]] + ks[1..]; }
      assert r.0[k] == t;
      MaskTensorValue(p, draw, gen, client, m.params[k], peers, final, j);
    }
  }

  /** Each masked element is the raw one plus that client's row of pair terms. */
  lemma MaskModelValue(p: Protocol, draw: Draw, gen: Generator, client: int, m: ModelState, peers: seq<int>,
                       final: ((int, int)) -> Secret, k: string, j: nat)
    requires Agrees(final, MaskModel(p, draw, gen, client, m, peers).1)
    requires k in m.params && j < |m.params[k]|
    ensures k in MaskModel(p, draw, gen, client, m, peers).0.params
    ensures MaskModel(p, draw, gen, client, m, peers).0.params[k][j]
      == m.params[k][j] + PairSums.RowSum(PairTerm(final, gen, |m.params[k]|, j), client, peers)
  {
    KeysInModel(m);
    MaskLayersValue(p, draw, gen, client, m, m.keys, peers, map[], final, k, j);
  }

  // ---------------------------------------------------------------- a round

  datatype Participant = Participant(id: int, model: ModelState)

  function Ids(cs: seq<Participant>): (ids: seq<int>)
    ensures |ids| == |cs| && forall i :: 0 <= i < |cs| ==> ids[i] == cs[i].id
  {
    seq(|cs|, i requires 0 <= i < |cs| => cs[i].id)
  }

  /** Every participant calls `mask_model` in turn against the same peer list,
      all sharing one protocol object. */
  function MaskRound(p: Protocol, draw: Draw, gen: Generator, cs: seq<Participant>, peers: seq<int>): (r: (seq<ModelState>, Protocol))
    ensures |r.0| == |cs|
    ensures Extends(r.1, p)
    decreases |cs|
  {
    if |cs| == 0 then ([], p)
    else
      var (m, p1) := MaskModel(p, draw, gen, cs[0].id, cs[0].model, peers);
      var (rest, p2) := MaskRound(p1, draw, gen, cs[1..], peers);
      ExtendsTransitive(p2, p1, p);
      ([m] + rest, p2)
  }

  /** Participant `c`'s masked element `j` of layer `k`, with every pair's secret
      read from `final`. */
  function Masked(final: ((int, int)) -> Secret, gen: Generator, c: Participant, peers: seq<int>, k: string, j: nat): real
    requires k in c.model.params && j < |c.model.params[k]|
  {
    c.model.params[k][j] + PairSums.RowSum(PairTerm(final, gen, |c.model.params[k]|, j), c.id, peers)
  }

  lemma {:induction false} MaskRoundValue(p: Protocol, draw: Draw, gen: Generator, cs: seq<Participant>, peers: seq<int>,
                                         final: ((int, int)) -> Secret, i: nat, k: string, j: nat)
    requires Agrees(final, MaskRound(p, draw, gen, cs, peers).1)
    requires i < |cs| && k in cs[i].model.params && j < |cs[i].model.params[k]|
    ensures k in MaskRound(p, draw, gen, cs, peers).0[i].params && j < |MaskRound(p, draw, gen, cs, peers).0[i].params[k]|
    ensures MaskRound(p, draw, gen, cs, peers).0[i].params[k][j] == Masked(final, gen, cs[i], peers, k, j)
    decreases i
  {
    MaskRoundCons(p, draw, gen, cs, peers);
    var mm := MaskModel(p, draw, gen, cs[0].id, cs[0].model, peers);
    var rest := MaskRound(mm.1, draw, gen, cs[1..], peers);
    if i == 0 {
      AgreesShrinks(final, rest.1, mm.1);
      MaskModelValue(p, draw, gen, cs[0].id, cs[0].model, peers, final, k, j);
    } else {
      var c := cs[i];
      assert cs[1..][i - 1] == c;
      MaskRoundValue(mm.1, draw, gen, cs[1..], peers, final, i - 1, k, j);
      assert MaskRound(p, draw, gen, cs, peers).0[i] == rest.0[i - 1];
    }
  }

  /** One step of the round: participant 0 masks first, the rest continue from
      the cache it leaves. */
  lemma MaskRoundCons(p: Protocol, draw: Draw, gen: Generator, cs: seq<Participant>, peers: seq<int>)
    requires |cs| > 0
    ensures var mm := MaskModel(p, draw, gen, cs[0].id, cs[0].model, peers);
      var rest := MaskRound(mm.1, draw, gen, cs[1..], peers);
      && MaskRound(p, draw, gen, cs, peers).0[0] == mm.0
      && MaskRound(p, draw, gen, cs, peers).1 == rest.1
      && forall i :: 1 <= i < |cs| ==> MaskRound(p, draw, gen, cs, peers).0[i] == rest.0[i - 1]
  {
    var mm := MaskModel(p, draw, gen, cs[0].id, cs[0].model, peers);
    var rest := MaskRound(mm.1, draw, gen, cs[1..], peers);
    var all := MaskRound(p, draw, gen, cs, peers).0;
    assert all == [mm.0] + rest.0;
    forall i | 1 <= i < |cs| ensures all[i] == rest.0[i - 1] {
      assert ([mm.0] + rest.0)[i] == rest.0[i - 1];
    }
  }

  lemma AgreesShrinks(final: ((int, int)) -> Secret, q: Protocol, p: Protocol)
    requires Agrees(final, q) && Extends(q, p)
    ensures Agrees(final, p)
  {
  }

  /** Element `j` of layer `k`, summed over a list of models. */
  function LayerSum(ms: seq<ModelState>, k: string, j: nat): real
    requires forall i :: 0 <= i < |ms| ==> k in ms[i].params && j < |ms[i].params[k]|
  {
    if |ms| == 0 then 0.0 else ms[0].params[k][j] + LayerSum(ms[1..], k, j)
  }

  function Models(cs: seq<Participant>): (ms: seq<ModelState>)
    ensures |ms| == |cs| && forall i :: 0 <= i < |cs| ==> ms[i] == cs[i].model
  {
    seq(|cs|, i requires 0 <= i < |cs| => cs[i].model)
  }

  /** Every participant holds layer `k` with `n` elements. */
  predicate LayerShared(cs: seq<Participant>, k: string, n: nat)
  {
    forall i :: 0 <= i < |cs| ==> k in cs[i].model.params && |cs[i].model.params[k]| == n
  }

  /** The masked sum split into the raw sum plus every participant's row. */
  lemma {:induction false} MaskedSumSplits(masked: seq<ModelState>, cs: seq<Participant>, k: string, j: nat, n: nat,
                                          h: (int, int) -> real, peers: seq<int>)
    requires |masked| == |cs| && LayerShared(cs, k, n) && j < n
    requires forall i :: 0 <= i < |cs| ==> k in masked[i].params && j < |masked[i].params[k]|
    requires forall i :: 0 <= i < |cs| ==> masked[i].params[k][j] == cs[i].model.params[k][j] + PairSums.RowSum(h, cs[i].id, peers)
    ensures LayerSum(masked, k, j) == LayerSum(Models(cs), k, j) + PairSums.DoubleSum(h, Ids(cs), peers)
  {
    if |cs| > 0 {
      MaskedSumSplits(masked[1..], cs[1..], k, j, n, h, peers);
      assert Models(cs)[1..] == Models(cs[1..]);
      assert Ids(cs)[1..] == Ids(cs[1..]);
    }
  }

  /** The cancellation theorem: when every participant masks against the list of
      all participants' ids, the masked models add up to the raw models, element
      by element, whatever the secrets drawn and whatever the generator. */
  lemma MasksCancel(p: Protocol, draw: Draw, gen: Generator, cs: seq<Participant>, k: string, n: nat, j: nat)
    requires LayerShared(cs, k, n) && j < n
    ensures forall i :: 0 <= i < |cs| ==>
      (k in MaskRound(p, draw, gen, cs, Ids(cs)).0[i].params && j < |MaskRound(p, draw, gen, cs, Ids(cs)).0[i].params[k]|)
    ensures LayerSum(MaskRound(p, draw, gen, cs, Ids(cs)).0, k, j) == LayerSum(Models(cs), k, j)
  {
    var (masked, q) := MaskRound(p, draw, gen, cs, Ids(cs));
    var final := (key: (int, int)) => if key in q.secrets then q.secrets[key] else [];
    var h := PairTerm(final, gen, n, j);
    forall i | 0 <= i < |cs|
      ensures k in masked[i].params && j < |masked[i].params[k]|
      ensures masked[i].params[k][j] == cs[i].model.params[k][j] + PairSums.RowSum(h, cs[i].id, Ids(cs))
    {
      MaskRoundValue(p, draw, gen, cs, Ids(cs), final, i, k, j);
    }
    MaskedSumSplits(masked, cs, k, j, n, h, Ids(cs));
    PairTermAntisymmetric(final, gen, n, j);
    PairSums.AntisymmetricCancels(h, Ids(cs));
  }

  /** `unmask_aggregated_model`: the summed model is returned as it is, whoever
      took part. */
  function UnmaskAggregatedModel(aggregated: ModelState, active: seq<int>): (r: ModelState)
    ensures r.keys == aggregated.keys && r.params == aggregated.params
  {
    aggregated
  }

  /** Without compensation a dropout leaves a mask behind: of participants 1 and 2,
      only 1's masked model reaches the server, and the "unmasked" result is off
      by exactly the pair's mask. */
  lemma DropoutLeavesMask(p: Protocol, draw: Draw, gen: Generator, m1: ModelState, m2: ModelState, k: string, n: nat, j: nat)
    requires k in m1.params && |m1.params[k]| == n && j < n
    ensures var (masked, q) := MaskRound(p, draw, gen, [Participant(1, m1), Participant(2, m2)], [1, 2]);
      k in masked[0].params && j < |masked[0].params[k]|
      && PairKey(1, 2) in q.secrets
      && UnmaskAggregatedModel(masked[0], [1]).params[k][j] == m1.params[k][j] + gen(Seed(q.secrets[(1, 2)]), n, j)
  {
    var cs := [Participant(1, m1), Participant(2, m2)];
    var (masked, q) := MaskRound(p, draw, gen, cs, [1, 2]);
    var (x1, p1) := MaskModel(p, draw, gen, 1, m1, [1, 2]);
    var final := (key: (int, int)) => if key in q.secrets then q.secrets[key] else [];
    MaskRoundValue(p, draw, gen, cs, [1, 2], final, 0, k, j);
    var h := PairTerm(final, gen, n, j);
    assert PairSums.RowSum(h, 1, [1, 2]) == h(1, 1) + (h(1, 2) + PairSums.RowSum(h, 1, []));
    KeysInModel(m1);
    assert (1, 2) in p1.secrets by {
      MaskLayersHasPair(p, draw, gen, 1, m1, m1.keys, [1, 2], map[], k);
    }
  }

  /** Masking a layer against a peer other than oneself caches their pair. */
  lemma {:induction false} MaskTensorHasPair(p: Protocol, draw: Draw, gen: Generator, client: int, x: Tensor, peers: seq<int>, peer: int)
    requires peer in peers && peer != client
    ensures PairKey(client, peer) in MaskTensor(p, draw, gen, client, x, peers).1.secrets
    decreases |peers|
  {
    if peers[0] == client {
      MaskTensorHasPair(p, draw, gen, client, x, peers[1..], peer);
    } else {
      var (secret, p1) := GeneratePairwiseSecret(p, draw, client, peers[0]);
      var mask := SecretToMask(gen, secret, |x|);
      var x1 := if client < peers[0] then Add(x, mask) else Sub(x, mask);
      if peers[0] != peer {
        MaskTensorHasPair(p1, draw, gen, client, x1, peers[1..], peer);
      }
    }
  }

  lemma {:induction false} MaskLayersHasPair(p: Protocol, draw: Draw, gen: Generator, client: int, m: ModelState, ks: seq<string>,
                                            peers: seq<int>, acc: map<string, Tensor>, k: string)
    requires forall t :: 0 <= t < |ks| ==> ks[t] in m.params
    requires k in ks && client == 1 && peers == [1, 2]
    ensures (1, 2) in MaskLayers(p, draw, gen, client, m, ks, peers, acc).1.secrets
  {
    var (t, p1) := MaskTensor(p, draw, gen, client, m.params[ks[0]], peers);
    MaskTensorHasPair(p, draw, gen, client, m.params[ks[0]], peers, 2);
    var r := MaskLayers(p1, draw, gen, client, m, ks[1..], peers, acc[ks[0] := t]);
    assert Extends(r.1, p1);
  }

  // ---------------------------------------------------------------- commitment

  /** `verify_client_contribution`: the model hash (keys in sorted order) matches
      the commitment. */
  function VerifyClientContribution(sha256: seq<real> -> string, client: int, masked: ModelState, commitment: string): (ok: bool)
    ensures ok <==> sha256(ConcatTensors(masked.params, KeyOrder.SortKeys(masked.keys))) == commitment
  {
    ModelHash(sha256, masked) == commitment
  }

  /** The verdict depends on the tensors only, not on the order the layers were
      inserted in. */
  lemma VerificationIgnoresKeyOrder(sha256: seq<real> -> string, client: int, m1: ModelState, m2: ModelState, commitment: string)
    requires m1.params == m2.params
    ensures VerifyClientContribution(sha256, client, m1, commitment) == VerifyClientContribution(sha256, client, m2, commitment)
  {
    HashIgnoresInsertionOrder(sha256, m1, m2);
  }

  /** A commitment made to a masked model accepts that model. */
  lemma CommitmentAcceptsItsModel(sha256: seq<real> -> string, client: int, m: ModelState)
    ensures VerifyClientContribution(sha256, client, m, ModelHash(sha256, m))
  {
  }
}

=== FILE: src/sorting.dfy ===
/** Ascending sort of real values (Python's `sorted`, stable) and the lower median
    that `torch.median` returns. */
module Sorting {

  predicate Sorted(s: seq<real>)
  {
    forall i, j :: 0 <= i < j < |s| ==> s[i] <= s[j]
  }

  /** Inserts `x` before the first element strictly greater than it. */
  function Insert(x: real, s: seq<real>): seq<real>
  {
    if |s| == 0 then [x]
    else if x <= s[0] then [x] + s
    else [s[0]] + Insert(x, s[1..])
  }

  /** `sorted(xs)` */
  function Sort(xs: seq<real>): seq<real>
  {
    if |xs| == 0 then [] else Insert(xs[0], Sort(xs[1..]))
  }

  /** How many entries are strictly below `r`. */
  function CountLess(xs: seq<real>, r: real): nat
  {
    if |xs| == 0 then 0 else (if xs[0] < r then 1 else 0) + CountLess(xs[1..], r)
  }

  /** How many entries are at most `r`. */
  function CountAtMost(xs: seq<real>, r: real): nat
  {
    if |xs| == 0 then 0 else (if xs[0] <= r then 1 else 0) + CountAtMost(xs[1..], r)
  }

  lemma {:induction false} InsertLowerBound(x: real, s: seq<real>, lo: real)
    requires lo <= x
    requires forall k :: 0 <= k < |s| ==> lo <= s[k]
    ensures forall k :: 0 <= k < |Insert(x, s)| ==> lo <= Insert(x, s)[k]
  {
    if |s| > 0 && x > s[0] {
      InsertLowerBound(x, s[1..], lo);
    }
  }

  lemma {:induction false} InsertProperties(x: real, s: seq<real>)
    requires Sorted(s)
    ensures Sorted(Insert(x, s))
    ensures multiset(Insert(x, s)) == multiset(s) + multiset{x}
  {
    if |s| == 0 {
      assert Insert(x, s) == [x];
    } else if x <= s[0] {
      assert Insert(x, s) == [x] + s;
    } else {
      var t := s[1..];
      assert s == [s[0]] + t;
      InsertProperties(x, t);
      InsertLowerBound(x, t, s[0]);
      var it := Insert(x, t);
      assert Insert(x, s) == [s[0]] + it;
    }
  }

  lemma {:induction false} InsertCounts(x: real, s: seq<real>, r: real)
    ensures CountLess(Insert(x, s), r) == CountLess(s, r) + (if x < r then 1 else 0)
    ensures CountAtMost(Insert(x, s), r) == CountAtMost(s, r) + (if x <= r then 1 else 0)
  {
    if |s| == 0 {
    } else if x <= s[0] {
      assert ([x] + s)[1..] == s;
    } else {
      InsertCounts(x, s[1..], r);
      assert ([s[0]] + Insert(x, s[1..]))[1..] == Insert(x, s[1..]);
    }
  }

  /** `sorted` returns an ascending permutation of its input with the same counts. */
  lemma SortProperties(xs: seq<real>)
    ensures Sorted(Sort(xs))
    ensures multiset(Sort(xs)) == multiset(xs)
    ensures |Sort(xs)| == |xs|
    ensures forall r :: CountLess(Sort(xs), r) == CountLess(xs, r)
    ensures forall r :: CountAtMost(Sort(xs), r) == CountAtMost(xs, r)
  {
    SortPermutes(xs);
    forall r
      ensures CountLess(Sort(xs), r) == CountLess(xs, r)
      ensures CountAtMost(Sort(xs), r) == CountAtMost(xs, r)
    {
      SortCounts(xs, r);
    }
  }

  lemma {:induction false} SortPermutes(xs: seq<real>)
    ensures Sorted(Sort(xs))
    ensures multiset(Sort(xs)) == multiset(xs)
    ensures |Sort(xs)| == |xs|
  {
    if |xs| > 0 {
      SortPermutes(xs[1..]);
      InsertProperties(xs[0], Sort(xs[1..]));
      assert xs == [xs[0]] + xs[1..];
      assert |multiset(Sort(xs))| == |multiset(xs)|;
    }
  }

  lemma {:induction false} SortCounts(xs: seq<real>, r: real)
    ensures CountLess(Sort(xs), r) == CountLess(xs, r)
    ensures CountAtMost(Sort(xs), r) == CountAtMost(xs, r)
  {
    if |xs| > 0 {
      SortCounts(xs[1..], r);
      InsertCounts(xs[0], Sort(xs[1..]), r);
    }
  }

  /** An already ascending sequence is its own sort. */
  lemma {:induction false} SortOfSorted(s: seq<real>)
    requires Sorted(s)
    ensures Sort(s) == s
  {
    if |s| > 0 {
      SortOfSorted(s[1..]);
      assert s == [s[0]] + s[1..];
    }
  }

  /** `s == sorted(s)` holds exactly when `s` is ascending. */
  lemma SortedIffSortFixed(s: seq<real>)
    ensures s == Sort(s) <==> Sorted(s)
  {
    SortProperties(s);
    if Sorted(s) {
      SortOfSorted(s);
    }
  }

  /** `torch.median`: for an even count, the lower of the two middle values. */
  function LowerMedian(xs: seq<real>): real
    requires |xs| > 0
  {
    SortProperties(xs);
    Sort(xs)[(|xs| - 1) / 2]
  }

  /** `m` is a lower median of `xs`: at most `(n-1)/2` entries lie below it and more
      than `(n-1)/2` lie at or below it. */
  predicate IsLowerMedian(xs: seq<real>, m: real)
  {
    CountLess(xs, m) <= (|xs| - 1) / 2 < CountAtMost(xs, m)
  }

  lemma {:induction false} AllAtLeastCountsNone(s: seq<real>, r: real)
    requires forall i :: 0 <= i < |s| ==> r <= s[i]
    ensures CountLess(s, r) == 0
  {
    if |s| > 0 {
      AllAtLeastCountsNone(s[1..], r);
    }
  }

  lemma {:induction false} SortedCounts(s: seq<real>, h: nat)
    requires Sorted(s) && h < |s|
    ensures CountLess(s, s[h]) <= h
    ensures CountAtMost(s, s[h]) >= h + 1
  {
    if h == 0 {
      AllAtLeastCountsNone(s, s[0]);
    } else {
      SortedCounts(s[1..], h - 1);
    }
  }

  lemma {:induction false} CountsMonotone(xs: seq<real>, a: real, b: real)
    requires a < b
    ensures CountAtMost(xs, a) <= CountLess(xs, b)
  {
    if |xs| > 0 {
      CountsMonotone(xs[1..], a, b);
    }
  }

  /** The lower median is an entry of `xs`, satisfies the counting characterisation,
      and is the only value that does. */
  lemma LowerMedianCharacterised(xs: seq<real>, m: real)
    requires |xs| > 0
    ensures LowerMedian(xs) in multiset(xs)
    ensures IsLowerMedian(xs, LowerMedian(xs))
    ensures IsLowerMedian(xs, m) ==> m == LowerMedian(xs)
  {
    SortProperties(xs);
    var s := Sort(xs);
    var h := (|xs| - 1) / 2;
    assert s[h] in multiset(s);
    SortedCounts(s, h);
    if IsLowerMedian(xs, m) && m != s[h] {
      if m < s[h] {
        CountsMonotone(xs, m, s[h]);
      } else {
        CountsMonotone(xs, s[h], m);
      }
    }
  }
}

=== FILE: src/stats.dfy ===
/** The numpy reductions the model needs, exactly over `real`: `np.sum`, `np.mean`,
    `np.var` (population variance, `ddof = 0`) and `np.diff`. */
module Stats {

  function Sum(xs: seq<real>): real
  {
    if |xs| == 0 then 0.0 else xs[0] + Sum(xs[1..])
  }

  lemma SumOfThree(a: real, b: real, c: real)
    ensures Sum([a, b, c]) == a + b + c
  {
    assert [a, b, c][1..] == [b, c];
    assert [b, c][1..] == [c];
    assert [c][1..] == [];
    assert Sum([c]) == c;
    assert Sum([b, c]) == b + c;
  }

  function Mean(xs: seq<real>): real
    requires |xs| > 0
  {
    Sum(xs) / (|xs| as real)
  }

  /** The squared deviations of `xs` from `mu`. */
  function SquaredDeviations(xs: seq<real>, mu: real): (r: seq<real>)
    ensures |r| == |xs|
  {
    seq(|xs|, i requires 0 <= i < |xs| => (xs[i] - mu) * (xs[i] - mu))
  }

  /** `np.var(xs)`: the mean squared deviation from the mean. */
  function Variance(xs: seq<real>): real
    requires |xs| > 0
  {
    Mean(SquaredDeviations(xs, Mean(xs)))
  }

  /** `np.diff(xs)`: consecutive differences, one fewer than the input. */
  function Diff(xs: seq<real>): (r: seq<real>)
    ensures |r| == if |xs| == 0 then 0 else |xs| - 1
  {
    if |xs| <= 1 then [] else seq(|xs| - 1, i requires 0 <= i < |xs| - 1 => xs[i + 1] - xs[i])
  }

  lemma {:induction false} SumNonNegative(xs: seq<real>)
    requires forall i :: 0 <= i < |xs| ==> 0.0 <= xs[i]
    ensures 0.0 <= Sum(xs)
  {
    if |xs| > 0 {
      SumNonNegative(xs[1..]);
    }
  }

  lemma {:induction false} SumOfConstant(xs: seq<real>, c: real)
    requires forall i :: 0 <= i < |xs| ==> xs[i] == c
    ensures Sum(xs) == (|xs| as real) * c
  {
    if |xs| > 0 {
      SumOfConstant(xs[1..], c);
    }
  }

  /** The sum of a concatenation is the sum of the parts. */
  lemma {:induction false} SumAppend(a: seq<real>, b: seq<real>)
    ensures Sum(a + b) == Sum(a) + Sum(b)
  {
    if |a| == 0 {
      assert a + b == b;
    } else {
      assert (a + b)[1..] == a[1..] + b;
      SumAppend(a[1..], b);
    }
  }

  /** The mean of a constant sequence is that constant. */
  lemma MeanOfConstant(xs: seq<real>, c: real)
    requires |xs| > 0
    requires forall i :: 0 <= i < |xs| ==> xs[i] == c
    ensures Mean(xs) == c
  {
    SumOfConstant(xs, c);
  }

  /** A variance is never negative. */
  lemma VarianceNonNegative(xs: seq<real>)
    requires |xs| > 0
    ensures 0.0 <= Variance(xs)
  {
    var d := SquaredDeviations(xs, Mean(xs));
    forall i | 0 <= i < |d|
      ensures 0.0 <= d[i]
    {
      var e := xs[i] - Mean(xs);
      if e < 0.0 {
        assert e * e == (-e) * (-e);
      }
    }
    SumNonNegative(d);
  }

  /** Constant data has zero variance. */
  lemma VarianceOfConstant(xs: seq<real>, c: real)
    requires |xs| > 0
    requires forall i :: 0 <= i < |xs| ==> xs[i] == c
    ensures Variance(xs) == 0.0
  {
    MeanOfConstant(xs, c);
    var d := SquaredDeviations(xs, c);
    MeanOfConstant(d, 0.0);
  }

  // ---------------------------------------------------------------- shifting

  /** `xs + c` elementwise: every observation moved by the same amount. */
  function Shift(xs: seq<real>, c: real): (r: seq<real>)
    ensures |r| == |xs| && forall i :: 0 <= i < |xs| ==> r[i] == xs[i] + c
  {
    seq(|xs|, i requires 0 <= i < |xs| => xs[i] + c)
  }

  lemma {:induction false} SumShift(xs: seq<real>, c: real)
    ensures Sum(Shift(xs, c)) == Sum(xs) + (|xs| as real) * c
  {
    if |xs| > 0 {
      assert Shift(xs, c)[1..] == Shift(xs[1..], c);
      SumShift(xs[1..], c);
    }
  }

  /** Moving every observation moves the mean by the same amount. */
  lemma MeanShift(xs: seq<real>, c: real)
    requires |xs| > 0
    ensures Mean(Shift(xs, c)) == Mean(xs) + c
  {
    SumShift(xs, c);
    var n := |xs| as real;
    calc {
      Mean(Shift(xs, c));
      (Sum(xs) + n * c) / n;
      Sum(xs) / n + c;
    }
  }

  /** `np.var` does not see where the data sits, only how it spreads. */
  lemma VarianceShiftInvariant(xs: seq<real>, c: real)
    requires |xs| > 0
    ensures Variance(Shift(xs, c)) == Variance(xs)
  {
    MeanShift(xs, c);
    var mu := Mean(xs);
    assert SquaredDeviations(Shift(xs, c), mu + c) == SquaredDeviations(xs, mu) by {
      forall i | 0 <= i < |xs|
        ensures SquaredDeviations(Shift(xs, c), mu + c)[i] == SquaredDeviations(xs, mu)[i]
      {
        assert Shift(xs, c)[i] - (mu + c) == xs[i] - mu;
      }
    }
  }

  /** `np.diff` does not see a common offset. */
  lemma DiffShift(xs: seq<real>, c: real)
    ensures Diff(Shift(xs, c)) == Diff(xs)
  {
  }
}

=== FILE: src/tensors.dfy ===
/** A model state dict: an insertion-ordered mapping from layer name to a tensor.
    Tensors are flattened to their elements in row-major order. */
module Tensors {
  import KeyOrder

  type Tensor = seq<real>

  /** An `OrderedDict[str, Tensor]`: `keys` is the iteration order of `params`. */
  datatype StateDict = StateDict(keys: seq<string>, params: map<string, Tensor>)

  predicate WellFormed(d: StateDict)
  {
    && KeyOrder.Distinct(d.keys)
    && d.params.Keys == KeyOrder.Elements(d.keys)
  }

  type ModelState = d: StateDict | WellFormed(d) witness StateDict([], map[])

  function Zeros(n: nat): (t: Tensor)
    ensures |t| == n && forall j :: 0 <= j < n ==> t[j] == 0.0
  {
    seq(n, j => 0.0)
  }

  /** Elementwise `a + b`. */
  function Add(a: Tensor, b: Tensor): (t: Tensor)
    requires |a| == |b|
    ensures |t| == |a| && forall j :: 0 <= j < |a| ==> t[j] == a[j] + b[j]
  {
    seq(|a|, j requires 0 <= j < |a| => a[j] + b[j])
  }

  /** Elementwise `a - b`. */
  function Sub(a: Tensor, b: Tensor): (t: Tensor)
    requires |a| == |b|
    ensures |t| == |a| && forall j :: 0 <= j < |a| ==> t[j] == a[j] - b[j]
  {
    seq(|a|, j requires 0 <= j < |a| => a[j] - b[j])
  }

  /** The elements of the tensors named by `ks`, one after the other. */
  function ConcatTensors(params: map<string, Tensor>, ks: seq<string>): seq<real>
  {
    if |ks| == 0 then []
    else (if ks[0] in params then params[ks[0]] else []) + ConcatTensors(params, ks[1..])
  }

  /** What the SHA-256 hasher is fed: `param.tobytes()` for each key in `sorted(keys)`,
      each call extending the same stream. */
  function HashInput(m: ModelState): seq<real>
  {
    ConcatTensors(m.params, KeyOrder.SortKeys(m.keys))
  }

  /** `_compute_model_hash`, the same in the version store and in secure aggregation;
      `sha256` stands for the hex digest of the byte stream. */
  function ModelHash(sha256: seq<real> -> string, m: ModelState): (h: string)
    ensures forall s :: KeyOrder.StrictlySorted(s) && KeyOrder.Elements(s) == m.params.Keys ==> h == sha256(ConcatTensors(m.params, s))
  {
    KeyOrder.SortKeysProperties(m.keys);
    assert forall s :: KeyOrder.StrictlySorted(s) && KeyOrder.Elements(s) == m.params.Keys ==> s == KeyOrder.SortKeys(m.keys) by {
      forall s | KeyOrder.StrictlySorted(s) && KeyOrder.Elements(s) == m.params.Keys
        ensures s == KeyOrder.SortKeys(m.keys)
      {
        KeyOrder.StrictlySortedUnique(s, KeyOrder.SortKeys(m.keys));
      }
    }
    sha256(HashInput(m))
  }

  /** Two state dicts holding the same tensors hash alike, whatever their key order. */
  lemma HashIgnoresInsertionOrder(sha256: seq<real> -> string, m1: ModelState, m2: ModelState)
    requires m1.params == m2.params
    ensures HashInput(m1) == HashInput(m2)
    ensures ModelHash(sha256, m1) == ModelHash(sha256, m2)
  {
    assert KeyOrder.Elements(m1.keys) == KeyOrder.Elements(m2.keys);
    KeyOrder.SortKeysIgnoresOrder(m1.keys, m2.keys);
  }

  /** The stream carries no key names or tensor boundaries: `{a: [1, 2]}` and
      `{a: [1], b: [2]}` are different models with the same hash. */
  lemma HashSeesOnlyConcatenation(sha256: seq<real> -> string)
    ensures var m1: ModelState := StateDict(["a"], map["a" := [1.0, 2.0]]);
            var m2: ModelState := StateDict(["a", "b"], map["a" := [1.0], "b" := [2.0]]);
            m1 != m2 && ModelHash(sha256, m1) == ModelHash(sha256, m2)
  {
    var m1: ModelState := StateDict(["a"], map["a" := [1.0, 2.0]]);
    var m2: ModelState := StateDict(["a", "b"], map["a" := [1.0], "b" := [2.0]]);
    ExampleKeysSorted();
    ExampleConcatenations();
    assert m1.params != m2.params by {
      assert m1.params["a"] != m2.params["a"];
    }
  }

  lemma ExampleKeysSorted()
    ensures KeyOrder.SortKeys(["a"]) == ["a"]
    ensures KeyOrder.SortKeys(["a", "b"]) == ["a", "b"]
  {
    assert KeyOrder.Less("a", "b");
    assert ["a", "b"][1..] == ["b"];
    assert KeyOrder.SortKeys(["b"]) == ["b"];
  }

  lemma ExampleConcatenations()
    ensures ConcatTensors(map["a" := [1.0, 2.0]], ["a"]) == [1.0, 2.0]
    ensures ConcatTensors(map["a" := [1.0], "b" := [2.0]], ["a", "b"]) == [1.0, 2.0]
  {
    var p := map["a" := [1.0], "b" := [2.0]];
    assert ConcatTensors(p, ["b"]) == [2.0];
    assert ["a", "b"][1..] == ["b"];
    assert ConcatTensors(p, ["a", "b"]) == [1.0] + ConcatTensors(p, ["b"]);
  }
}

=== FILE: src/tracking.dfy ===
/** `MultiCameraTracker` from ai_engine/pipelines/tracking_pipeline.py: tracks in
    insertion order, matching of a face embedding against each track's last five
    embeddings, allocation of fresh track ids, and removal of stale tracks.

    The similarity `np.dot` is the abstract `sim`; one clock reading `now` (in
    seconds) stands for every `datetime.utcnow()` of a call. */
module Tracking {
  import opened Wrappers
  import PySlice

  type Embedding = seq<real>

  /** A detection's metadata dict. */
  type Detection = map<string, string>

  datatype Sighting = Sighting(cameraId: int, timestamp: real, detection: Detection)

  /** `TrackedPerson`. */
  datatype Track = Track(
    trackId: int,
    embeddings: seq<Embedding>,
    sightings: seq<Sighting>,
    firstSeen: real,
    lastSeen: real,
    confidence: real)

  datatype TrackerState = TrackerState(threshold: real, ids: seq<int>, tracks: map<int, Track>, nextTrackId: int)

  predicate DistinctIds(s: seq<int>)
  {
    forall i, j :: 0 <= i < j < |s| ==> s[i] != s[j]
  }

  /** `active_tracks` as an insertion-ordered dict. */
  function Members(s: seq<int>): set<int>
  {
    set i | i in s
  }

  predicate Ordered(t: TrackerState)
  {
    DistinctIds(t.ids) && t.tracks.Keys == Members(t.ids)
  }

  type Tracker = t: TrackerState | Ordered(t) witness TrackerState(0.0, [], map[], 1)

  /** Every track is filed under its own id, and every id in use is below the next
      one to hand out. */
  predicate Valid(t: Tracker)
  {
    forall id :: id in t.tracks ==> t.tracks[id].trackId == id && id < t.nextTrackId
  }

  /** `MultiCameraTracker(similarity_threshold)`. */
  function NewTracker(threshold: real): (t: Tracker)
    ensures Valid(t) && t.tracks == map[] && t.nextTrackId == 1 && t.threshold == threshold
  {
    TrackerState(threshold, [], map[], 1)
  }

  /** `active_tracks[id] = track`: a new id goes last, an existing one keeps its place. */
  function Put(t: Tracker, id: int, track: Track): (r: Tracker)
    ensures r.tracks == t.tracks[id := track]
    ensures r.threshold == t.threshold && r.nextTrackId == t.nextTrackId
    ensures id in t.tracks ==> r.ids == t.ids
    ensures id !in t.tracks ==> r.ids == t.ids + [id]
  {
    if id in t.tracks then t.(tracks := t.tracks[id := track])
    else t.(ids := t.ids + [id], tracks := t.tracks[id := track])
  }

  // ---------------------------------------------------------------- matching

  /** `track.embeddings[-5:]`. */
  function Recent(es: seq<Embedding>): (r: seq<Embedding>)
    ensures |es| <= 5 ==> r == es
    ensures |es| > 5 ==> r == es[|es| - 5..]
  {
    if |es| <= 5 then PySlice.Suffix(es, -5)
    else
      PySlice.NegativeBound(es, 5);
      PySlice.Suffix(es, -5)
  }

  /** The inner loop of `_match_to_existing_track` over one track's recent
      embeddings: a strictly greater similarity becomes the best so far, tagged
      with the track's position `p`. */
  function InnerScan(sim: (Embedding, Embedding) -> real, e: Embedding, es: seq<Embedding>, p: nat,
                     bestPos: Option<nat>, best: real): (Option<nat>, real)
  {
    if |es| == 0 then (bestPos, best)
    else if sim(e, es[0]) > best then InnerScan(sim, e, es[1..], p, Some(p), sim(e, es[0]))
    else InnerScan(sim, e, es[1..], p, bestPos, best)
  }

  function Max(a: real, b: real): real
  {
    if a >= b then a else b
  }

  /** The greatest similarity between `e` and the members of `es`. */
  function MaxSim(sim: (Embedding, Embedding) -> real, e: Embedding, es: seq<Embedding>): real
    requires |es| > 0
  {
    if |es| == 1 then sim(e, es[0]) else Max(sim(e, es[0]), MaxSim(sim, e, es[1..]))
  }

  /** `MaxSim` is the greatest similarity, attained by some member. */
  lemma {:induction false} MaxSimIsMaximum(sim: (Embedding, Embedding) -> real, e: Embedding, es: seq<Embedding>)
    requires |es| > 0
    ensures forall i :: 0 <= i < |es| ==> sim(e, es[i]) <= MaxSim(sim, e, es)
    ensures exists i :: 0 <= i < |es| && sim(e, es[i]) == MaxSim(sim, e, es)
  {
    if |es| == 1 {
      assert sim(e, es[0]) == MaxSim(sim, e, es);
    } else {
      MaxSimIsMaximum(sim, e, es[1..]);
      assert forall i :: 1 <= i < |es| ==> es[i] == es[1..][i - 1];
      if sim(e, es[0]) < MaxSim(sim, e, es[1..]) {
        var i :| 0 <= i < |es[1..]| && sim(e, es[1..][i]) == MaxSim(sim, e, es[1..]);
        assert sim(e, es[i + 1]) == MaxSim(sim, e, es);
      } else {
        assert sim(e, es[0]) == MaxSim(sim, e, es);
      }
    }
  }

  /** The inner loop changes the best so far exactly when the track holds a
      strictly better embedding, and then to the track's best similarity. */
  lemma {:induction false} InnerScanIsMax(sim: (Embedding, Embedding) -> real, e: Embedding, es: seq<Embedding>, p: nat,
                                          bestPos: Option<nat>, best: real)
    ensures InnerScan(sim, e, es, p, bestPos, best) ==
      if |es| > 0 && MaxSim(sim, e, es) > best then (Some(p), MaxSim(sim, e, es)) else (bestPos, best)
  {
    if |es| > 0 {
      var s := sim(e, es[0]);
      if s > best {
        InnerScanIsMax(sim, e, es[1..], p, Some(p), s);
      } else {
        InnerScanIsMax(sim, e, es[1..], p, bestPos, best);
      }
    }
  }

  /** Each track's last five embeddings, in insertion order of the tracks. */
  function Recents(t: Tracker): (rs: seq<seq<Embedding>>)
    ensures |rs| == |t.ids|
    ensures forall p :: 0 <= p < |rs| ==> t.ids[p] in t.tracks && rs[p] == Recent(t.tracks[t.ids[p]].embeddings)
  {
    seq(|t.ids|, p requires 0 <= p < |t.ids| => assert t.ids[p] in Members(t.ids); Recent(t.tracks[t.ids[p]].embeddings))
  }

  /** The best similarity of `e` against the embeddings `rs[p]`; `None` for a
      track without embeddings. */
  function Score(sim: (Embedding, Embedding) -> real, e: Embedding, rs: seq<seq<Embedding>>, p: nat): Option<real>
    requires p < |rs|
  {
    if |rs[p]| == 0 then None else Some(MaxSim(sim, e, rs[p]))
  }

  predicate AtMost(s: Option<real>, x: real)
  {
    s.None? || s.value <= x
  }

  predicate Below(s: Option<real>, x: real)
  {
    s.None? || s.value < x
  }

  /** What the outer loop knows after the tracks before position `p`: the best so
      far is at least the threshold and no smaller than any score seen, and a best
      position, if any, holds the first score that high. */
  predicate ScanState(sim: (Embedding, Embedding) -> real, e: Embedding, rs: seq<seq<Embedding>>, threshold: real,
                      p: nat, bestPos: Option<nat>, best: real)
    requires p <= |rs|
  {
    && best >= threshold
    && (forall q :: 0 <= q < p ==> AtMost(Score(sim, e, rs, q), best))
    && (bestPos.None? ==> best == threshold)
    && (bestPos.Some? ==>
          && bestPos.value < p && Score(sim, e, rs, bestPos.value) == Some(best) && best > threshold
          && forall q :: 0 <= q < bestPos.value ==> Below(Score(sim, e, rs, q), best))
  }

  /** The outer loop of `_match_to_existing_track`, over track positions. */
  function OuterScan(sim: (Embedding, Embedding) -> real, e: Embedding, rs: seq<seq<Embedding>>, threshold: real,
                     p: nat, bestPos: Option<nat>, best: real): (r: (Option<nat>, real))
    requires p <= |rs|
    requires ScanState(sim, e, rs, threshold, p, bestPos, best)
    ensures ScanState(sim, e, rs, threshold, |rs|, r.0, r.1)
    decreases |rs| - p
  {
    if p == |rs| then (bestPos, best)
    else
      var next := InnerScan(sim, e, rs[p], p, bestPos, best);
      ScanStep(sim, e, rs, threshold, p, bestPos, best);
      OuterScan(sim, e, rs, threshold, p + 1, next.0, next.1)
  }

  lemma ScanStep(sim: (Embedding, Embedding) -> real, e: Embedding, rs: seq<seq<Embedding>>, threshold: real,
                 p: nat, bestPos: Option<nat>, best: real)
    requires p < |rs|
    requires ScanState(sim, e, rs, threshold, p, bestPos, best)
    ensures var next := InnerScan(sim, e, rs[p], p, bestPos, best);
      ScanState(sim, e, rs, threshold, p + 1, next.0, next.1)
  {
    var es := rs[p];
    InnerScanIsMax(sim, e, es, p, bestPos, best);
    var next := InnerScan(sim, e, es, p, bestPos, best);
    if |es| > 0 && MaxSim(sim, e, es) > best {
      var m := MaxSim(sim, e, es);
      assert Score(sim, e, rs, p) == Some(m);
      forall q | 0 <= q < p + 1 ensures AtMost(Score(sim, e, rs, q), m) {
        if q < p {
          assert AtMost(Score(sim, e, rs, q), best);
        }
      }
      forall q | 0 <= q < p ensures Below(Score(sim, e, rs, q), m) {
        assert AtMost(Score(sim, e, rs, q), best);
      }
    } else {
      assert next == (bestPos, best);
      assert AtMost(Score(sim, e, rs, p), best);
    }
  }

  /** `_match_to_existing_track`: `None` unless some recent embedding is strictly
      more similar than the threshold; otherwise a track attaining the greatest
      similarity, the earliest such track in insertion order. */
  function MatchToExistingTrack(sim: (Embedding, Embedding) -> real, e: Embedding, t: Tracker): (r: Option<int>)
    ensures r.Some? ==> r.value in t.tracks
  {
    match OuterScan(sim, e, Recents(t), t.threshold, 0, None, t.threshold).0
    case None => None
    case Some(b) => Some(t.ids[b])
  }

  /** The track at position `b` beats the threshold, no track scores higher, and
      every earlier track scores strictly lower. */
  predicate Winner(sim: (Embedding, Embedding) -> real, e: Embedding, rs: seq<seq<Embedding>>, threshold: real, b: nat)
    requires b < |rs|
  {
    var s := Score(sim, e, rs, b);
    && s.Some? && s.value > threshold
    && (forall q :: 0 <= q < |rs| ==> AtMost(Score(sim, e, rs, q), s.value))
    && (forall q :: 0 <= q < b ==> Below(Score(sim, e, rs, q), s.value))
  }

  /** No match exactly when no recent embedding beats the threshold; a match is
      the winning track. */
  lemma MatchCharacterised(sim: (Embedding, Embedding) -> real, e: Embedding, t: Tracker)
    ensures var rs := Recents(t);
      MatchToExistingTrack(sim, e, t).None? <==> forall q :: 0 <= q < |rs| ==> AtMost(Score(sim, e, rs, q), t.threshold)
    ensures var rs := Recents(t);
      MatchToExistingTrack(sim, e, t).Some? ==>
        exists b :: 0 <= b < |rs| && t.ids[b] == MatchToExistingTrack(sim, e, t).value && Winner(sim, e, rs, t.threshold, b)
  {
    var rs := Recents(t);
    var (pos, best) := OuterScan(sim, e, rs, t.threshold, 0, None, t.threshold);
    if pos.Some? {
      assert !AtMost(Score(sim, e, rs, pos.value), t.threshold);
    }
  }

  /** A score is the best similarity among the track's recent embeddings. */
  lemma ScoreMeaning(sim: (Embedding, Embedding) -> real, e: Embedding, rs: seq<seq<Embedding>>, p: nat)
    requires p < |rs|
    ensures Score(sim, e, rs, p).None? <==> |rs[p]| == 0
    ensures Score(sim, e, rs, p).Some? ==>
      && (forall i :: 0 <= i < |rs[p]| ==> sim(e, rs[p][i]) <= Score(sim, e, rs, p).value)
      && exists i :: 0 <= i < |rs[p]| && sim(e, rs[p][i]) == Score(sim, e, rs, p).value
  {
    if |rs[p]| > 0 {
      MaxSimIsMaximum(sim, e, rs[p]);
    }
  }

  /** Embeddings older than a track's last five never influence a match. */
  lemma OlderEmbeddingsIgnored(sim: (Embedding, Embedding) -> real, e: Embedding, t: Tracker, id: int, older: seq<Embedding>)
    requires id in t.tracks && |t.tracks[id].embeddings| >= 5
    ensures var tr := t.tracks[id];
      MatchToExistingTrack(sim, e, Put(t, id, tr.(embeddings := older + tr.embeddings))) == MatchToExistingTrack(sim, e, t)
  {
    var tr := t.tracks[id];
    var u := Put(t, id, tr.(embeddings := older + tr.embeddings));
    var es := tr.embeddings;
    assert Recent(older + es) == Recent(es) by {
      if |es| > 5 {
        assert (older + es)[|older + es| - 5..] == es[|es| - 5..];
      } else {
        assert (older + es)[|older + es| - 5..] == es;
      }
    }
    assert Recents(u) == Recents(t);
  }

  // ---------------------------------------------------------------- updates

  /** One pass of the loop of `update_tracks` for detection `idx`. A detection list
      shorter than the embeddings raises `IndexError` after the embedding was
      appended to the matched track, or after the next id was consumed. */
  function UpdateOne(sim: (Embedding, Embedding) -> real, t: Tracker, cameraId: int, now: real,
                     e: Embedding, detections: seq<Detection>, idx: nat): (out: (Tracker, Result<int>))
    ensures out.0.threshold == t.threshold
    ensures out.1.Ok? <==> idx < |detections|
    ensures var m := MatchToExistingTrack(sim, e, t);
      && (m.Some? ==> out.0.nextTrackId == t.nextTrackId && out.0.ids == t.ids)
      && (m.Some? && out.1.Ok? ==> out.1.value == m.value)
      && (m.None? ==> out.0.nextTrackId == t.nextTrackId + 1)
      && (m.None? && out.1.Ok? ==> out.1.value == t.nextTrackId)
  {
    match MatchToExistingTrack(sim, e, t)
    case Some(id) =>
      var track := t.tracks[id];
      var grown := track.(embeddings := track.embeddings + [e]);
      if idx >= |detections| then (Put(t, id, grown), Err(IndexError))
      else
        var seen := grown.(sightings := track.sightings + [Sighting(cameraId, now, detections[idx])], lastSeen := now);
        (Put(t, id, seen), Ok(id))
    case None =>
      var newId := t.nextTrackId;
      var bumped := t.(nextTrackId := newId + 1);
      if idx >= |detections| then (bumped, Err(IndexError))
      else
        var track := Track(newId, [e], [Sighting(cameraId, now, detections[idx])], now, now, 0.9);
        (Put(bumped, newId, track), Ok(newId))
  }

  /** A matched track gains exactly one embedding and one sighting, and is seen now;
      a new track starts with exactly one of each and confidence 0.9. */
  lemma UpdateOneGrowsByOne(sim: (Embedding, Embedding) -> real, t: Tracker, cameraId: int, now: real,
                            e: Embedding, detections: seq<Detection>, idx: nat)
    requires idx < |detections|
    ensures var (t', r) := UpdateOne(sim, t, cameraId, now, e, detections, idx);
      && r.value in t'.tracks
      && (MatchToExistingTrack(sim, e, t).Some? ==>
            && t'.tracks[r.value].embeddings == t.tracks[r.value].embeddings + [e]
            && t'.tracks[r.value].sightings == t.tracks[r.value].sightings + [Sighting(cameraId, now, detections[idx])]
            && t'.tracks[r.value].lastSeen == now)
      && (MatchToExistingTrack(sim, e, t).None? ==>
            t'.tracks[r.value] == Track(r.value, [e], [Sighting(cameraId, now, detections[idx])], now, now, 0.9))
      && forall id :: id in t.tracks && id != r.value ==> id in t'.tracks && t'.tracks[id] == t.tracks[id]
  {
  }

  /** A valid tracker stays valid, and a newly created track's id was never in use. */
  lemma UpdateOnePreservesValid(sim: (Embedding, Embedding) -> real, t: Tracker, cameraId: int, now: real,
                                e: Embedding, detections: seq<Detection>, idx: nat)
    ensures Valid(t) ==> Valid(UpdateOne(sim, t, cameraId, now, e, detections, idx).0)
    ensures Valid(t) ==> t.nextTrackId !in t.tracks
  {
    var t' := UpdateOne(sim, t, cameraId, now, e, detections, idx).0;
    if Valid(t) {
      match MatchToExistingTrack(sim, e, t)
      case Some(id) =>
        assert t'.tracks.Keys == t.tracks.Keys;
        assert t'.tracks[id].trackId == id;
      case None =>
        assert t'.tracks.Keys <= t.tracks.Keys + {t.nextTrackId};
    }
  }

  /** The loop of `update_tracks` from detection `idx` on, assignments so far in `acc`. */
  function UpdateFrom(sim: (Embedding, Embedding) -> real, t: Tracker, cameraId: int, now: real,
                      embeddings: seq<Embedding>, detections: seq<Detection>, idx: nat, acc: seq<(int, int)>): (out: (Tracker, Result<seq<(int, int)>>))
    requires idx <= |embeddings| && |acc| == idx
    requires forall k :: 0 <= k < idx ==> acc[k].1 == k
    ensures out.0.threshold == t.threshold && out.0.nextTrackId >= t.nextTrackId
    ensures out.1.Ok? <==> |embeddings| <= |detections| || |embeddings| == idx
    ensures out.1.Ok? ==> |out.1.value| == |embeddings|
    ensures out.1.Ok? ==> forall k :: 0 <= k < |embeddings| ==> out.1.value[k].1 == k
    ensures Valid(t) ==> Valid(out.0)
    decreases |embeddings| - idx
  {
    if idx == |embeddings| then (t, Ok(acc))
    else
      UpdateOnePreservesValid(sim, t, cameraId, now, embeddings[idx], detections, idx);
      var (t1, r) := UpdateOne(sim, t, cameraId, now, embeddings[idx], detections, idx);
      if r.Err? then (t1, Err(r.error))
      else
        UpdateFrom(sim, t1, cameraId, now, embeddings, detections, idx + 1, acc + [(r.value, idx)])
  }

  /** `_cleanup_old_tracks`: drop, keeping order, every track whose age exceeds
      `maxAge` seconds. */
  function CleanupOldTracks(t: Tracker, now: real, maxAge: int): (r: Tracker)
    ensures r.threshold == t.threshold && r.nextTrackId == t.nextTrackId
    ensures r.tracks.Keys == set id | id in t.tracks && now - t.tracks[id].lastSeen <= maxAge as real
    ensures forall id :: id in r.tracks ==> r.tracks[id] == t.tracks[id]
    ensures Valid(t) ==> Valid(r)
  {
    var keep := KeepFresh(t.ids, t.tracks, now, maxAge);
    assert forall id :: id in keep ==> id in Members(keep);
    TrackerState(t.threshold, keep, map id | id in keep :: t.tracks[id], t.nextTrackId)
  }

  /** The ids of `ids` whose tracks are fresh enough, in order. */
  function KeepFresh(ids: seq<int>, tracks: map<int, Track>, now: real, maxAge: int): (r: seq<int>)
    requires forall i :: 0 <= i < |ids| ==> ids[i] in tracks
    ensures Members(r) == set id | id in ids && now - tracks[id].lastSeen <= maxAge as real
    ensures DistinctIds(ids) ==> DistinctIds(r)
    ensures |r| <= |ids|
  {
    if |ids| == 0 then []
    else
      var rest := KeepFresh(ids[1..], tracks, now, maxAge);
      assert forall i :: 1 <= i < |ids| ==> ids[i] == ids[1..][i - 1];
      assert Members(ids) == {ids[0]} + Members(ids[1..]);
      assert DistinctIds(ids) ==> DistinctIds(ids[1..]);
      if now - tracks[ids[0]].lastSeen <= maxAge as real then
        assert DistinctIds(ids) ==> ids[0] !in Members(ids[1..]) by {
          if DistinctIds(ids) {
            forall i | 0 <= i < |ids[1..]| ensures ids[1..][i] != ids[0] {
              assert ids[1..][i] == ids[i + 1];
            }
          }
        }
        assert Members([ids[0]] + rest) == {ids[0]} + Members(rest);
        [ids[0]] + rest
      else rest
  }

  /** `update_tracks`: one `(track_id, idx)` per embedding, then the stale tracks
      (`max_age_seconds = 300`) removed. An `IndexError` skips the cleanup. */
  function UpdateTracks(sim: (Embedding, Embedding) -> real, t: Tracker, cameraId: int, now: real,
                        embeddings: seq<Embedding>, detections: seq<Detection>): (out: (Tracker, Result<seq<(int, int)>>))
    ensures out.1.Ok? <==> |embeddings| <= |detections|
    ensures out.1.Ok? ==> |out.1.value| == |embeddings| && forall k :: 0 <= k < |embeddings| ==> out.1.value[k].1 == k
    ensures out.0.nextTrackId >= t.nextTrackId
    ensures Valid(t) ==> Valid(out.0)
  {
    var (t1, r) := UpdateFrom(sim, t, cameraId, now, embeddings, detections, 0, []);
    if r.Err? then (t1, r) else (CleanupOldTracks(t1, now, 300), r)
  }

  /** An empty batch hands out no ids and only removes stale tracks. */
  lemma EmptyBatchOnlyCleans(sim: (Embedding, Embedding) -> real, t: Tracker, cameraId: int, now: real, detections: seq<Detection>)
    ensures UpdateTracks(sim, t, cameraId, now, [], detections) == (CleanupOldTracks(t, now, 300), Ok([]))
  {
  }

  /** Two detections with no track to match and mutually dissimilar embeddings
      get ids `1` and `2`. */
  lemma FreshIdsAreConsecutive(sim: (Embedding, Embedding) -> real, e1: Embedding, e2: Embedding, d1: Detection, d2: Detection, now: real)
    requires sim(e2, e1) <= 0.6
    ensures UpdateTracks(sim, NewTracker(0.6), 7, now, [e1, e2], [d1, d2]).1 == Ok([(1, 0), (2, 1)])
  {
    var t0 := NewTracker(0.6);
    var (t1, r1) := UpdateOne(sim, t0, 7, now, e1, [d1, d2], 0);
    FirstCreates(sim, e1, d1, d2, now);
    SecondCreates(sim, t1, e1, e2, d1, d2, now);
    var (t2, r2) := UpdateOne(sim, t1, 7, now, e2, [d1, d2], 1);
    UpdateFromStep(sim, t0, 7, now, [e1, e2], [d1, d2], 0, []);
    assert [] + [(1, 0)] == [(1, 0)];
    UpdateFromStep(sim, t1, 7, now, [e1, e2], [d1, d2], 1, [(1, 0)]);
    assert [(1, 0)] + [(2, 1)] == [(1, 0), (2, 1)];
  }

  lemma UpdateFromStep(sim: (Embedding, Embedding) -> real, t: Tracker, cameraId: int, now: real,
                       embeddings: seq<Embedding>, detections: seq<Detection>, idx: nat, acc: seq<(int, int)>)
    requires idx < |embeddings| && |acc| == idx
    requires forall k :: 0 <= k < idx ==> acc[k].1 == k
    requires UpdateOne(sim, t, cameraId, now, embeddings[idx], detections, idx).1.Ok?
    ensures var (t1, r) := UpdateOne(sim, t, cameraId, now, embeddings[idx], detections, idx);
      UpdateFrom(sim, t, cameraId, now, embeddings, detections, idx, acc)
        == UpdateFrom(sim, t1, cameraId, now, embeddings, detections, idx + 1, acc + [(r.value, idx)])
  {
  }

  lemma FirstCreates(sim: (Embedding, Embedding) -> real, e1: Embedding, d1: Detection, d2: Detection, now: real)
    ensures var (t1, r1) := UpdateOne(sim, NewTracker(0.6), 7, now, e1, [d1, d2], 0);
      r1 == Ok(1) && t1.ids == [1] && t1.tracks[1].embeddings == [e1] && t1.threshold == 0.6 && t1.nextTrackId == 2
  {
    assert MatchToExistingTrack(sim, e1, NewTracker(0.6)) == None;
  }

  lemma SecondCreates(sim: (Embedding, Embedding) -> real, t1: Tracker, e1: Embedding, e2: Embedding, d1: Detection, d2: Detection, now: real)
    requires t1.ids == [1] && t1.tracks[1].embeddings == [e1] && t1.threshold == 0.6 && t1.nextTrackId == 2
    requires sim(e2, e1) <= 0.6
    ensures UpdateOne(sim, t1, 7, now, e2, [d1, d2], 1).1 == Ok(2)
  {
    SingleTrackNoMatch(sim, t1, e1, e2);
  }

  /** Against a single track holding one embedding, an embedding no more similar
      than the threshold matches nothing. */
  lemma SingleTrackNoMatch(sim: (Embedding, Embedding) -> real, t: Tracker, e1: Embedding, e2: Embedding)
    requires t.ids == [1] && t.tracks[1].embeddings == [e1]
    requires sim(e2, e1) <= t.threshold
    ensures MatchToExistingTrack(sim, e2, t) == None
  {
    var rs := Recents(t);
    assert |rs| == 1 && rs[0] == [e1];
    var th := t.threshold;
    assert InnerScan(sim, e2, rs[0], 0, None, th) == (None, th);
    ScanStep(sim, e2, rs, th, 0, None, th);
    assert OuterScan(sim, e2, rs, th, 0, None, th) == OuterScan(sim, e2, rs, th, 1, None, th) == (None, th);
  }

  // ---------------------------------------------------------------- queries

  /** `get_track`. */
  function GetTrack(t: Tracker, id: int): (r: Option<Track>)
    ensures r.Some? <==> id in t.tracks
    ensures r.Some? ==> r.value == t.tracks[id]
  {
    if id in t.tracks then Some(t.tracks[id]) else None
  }

  /** `get_all_active_tracks`: the tracks in insertion order. */
  function GetAllActiveTracks(t: Tracker): (r: seq<Track>)
    ensures |r| == |t.ids| == |t.tracks|
    ensures forall i :: 0 <= i < |r| ==> r[i] == t.tracks[t.ids[i]]
  {
    DistinctCard(t.ids);
    seq(|t.ids|, i requires 0 <= i < |t.ids| => assert t.ids[i] in Members(t.ids); t.tracks[t.ids[i]])
  }

  lemma {:induction false} DistinctCard(s: seq<int>)
    requires DistinctIds(s)
    ensures |Members(s)| == |s|
  {
    if |s| > 0 {
      assert DistinctIds(s[1..]) by {
        forall a, b | 0 <= a < b < |s[1..]| ensures s[1..][a] != s[1..][b] {
          assert s[1..][a] == s[a + 1] && s[1..][b] == s[b + 1];
        }
      }
      DistinctCard(s[1..]);
      assert Members(s) == {s[0]} + Members(s[1..]);
      assert s[0] !in Members(s[1..]) by {
        forall k | 0 <= k < |s[1..]| ensures s[1..][k] != s[0] {
          assert s[1..][k] == s[k + 1];
        }
      }
    }
  }

  /** `get_person_trajectory`: the track's sightings, `[]` for an unknown id. */
  function GetPersonTrajectory(t: Tracker, id: int): (r: seq<Sighting>)
    ensures id !in t.tracks ==> r == []
    ensures id in t.tracks ==> r == t.tracks[id].sightings
  {
    match GetTrack(t, id)
    case None => []
    case Some(track) => track.sightings
  }
}

=== FILE: src/versioning.dfy ===
/** `ModelVersionManager` from federated_learning/model_versioning.py: an
    append-only history of version ids, an insertion-ordered id -> record table,
    and the checkpoint files the records point at.

    The clock is an input (`Clock`), the checkpoint store is the map `files`
    from path to saved model, and SHA-256 is the abstract `sha256`. */
module Versioning {
  import opened Wrappers
  import opened Tensors
  import KeyOrder
  import Decimal
  import PySlice

  /** One reading of `datetime.utcnow()`: its `'%Y%m%d_%H%M%S'` rendering and its
      `isoformat()`. */
  datatype Clock = Clock(stamp: string, iso: string)

  /** `ModelVersion`. */
  datatype ModelVersion = ModelVersion(
    version: string,
    epoch: int,
    modelHash: string,
    modelPath: string,
    metrics: map<string, real>,
    metadata: map<string, string>,
    createdAt: string)

  /** `Dict[str, ModelVersion]` with its insertion order. */
  datatype VersionTable = VersionTable(ids: seq<string>, entries: map<string, ModelVersion>)

  predicate OrderedTable(t: VersionTable)
  {
    KeyOrder.Distinct(t.ids) && t.entries.Keys == KeyOrder.Elements(t.ids)
  }

  type Versions = t: VersionTable | OrderedTable(t) witness VersionTable([], map[])

  datatype Registry = Registry(
    storageDir: string,
    versions: Versions,
    history: seq<string>,
    files: map<string, ModelState>)

  // ---------------------------------------------------------------- ids and paths

  /** `f"v{epoch}_{stamp}"`. */
  function VersionId(epoch: int, stamp: string): string
  {
    "v" + Decimal.IntToString(epoch) + "_" + stamp
  }

  /** The position of the first `_` in `s`, or `|s|` when there is none. */
  function FirstUnderscore(s: string): (i: nat)
    ensures i <= |s|
    ensures i < |s| ==> s[i] == '_'
    ensures forall t :: 0 <= t < i ==> s[t] != '_'
  {
    if |s| == 0 then 0 else if s[0] == '_' then 0 else 1 + FirstUnderscore(s[1..])
  }

  /** Reads the epoch text and the stamp back out of a version id. */
  function SplitVersionId(id: string): (string, string)
    requires |id| > 0
  {
    var body := id[1..];
    var i := FirstUnderscore(body);
    (body[..i], if i < |body| then body[i + 1..] else "")
  }

  /** The epoch never contains `_`, so the first `_` separates it from the stamp. */
  lemma VersionIdRoundTrip(epoch: int, stamp: string)
    ensures SplitVersionId(VersionId(epoch, stamp)) == (Decimal.IntToString(epoch), stamp)
  {
    var e := Decimal.IntToString(epoch);
    Decimal.NoUnderscore(epoch);
    var body := VersionId(epoch, stamp)[1..];
    assert body == e + "_" + stamp;
    assert body[|e|] == '_';
    var i := FirstUnderscore(body);
    assert i <= |e|;
    assert forall t :: 0 <= t < |e| ==> body[t] == e[t];
    assert i == |e|;
    assert body[..i] == e;
    assert body[i + 1..] == stamp;
  }

  /** Two saves get the same id exactly when epoch and stamp agree. */
  lemma VersionIdInjective(e1: int, s1: string, e2: int, s2: string)
    ensures VersionId(e1, s1) == VersionId(e2, s2) <==> e1 == e2 && s1 == s2
  {
    if VersionId(e1, s1) == VersionId(e2, s2) {
      VersionIdRoundTrip(e1, s1);
      VersionIdRoundTrip(e2, s2);
      Decimal.IntToStringInjective(e1, e2);
    }
  }

  /** `str(storage_dir / f"{version}.pth")`, the directory taken in its normal form. */
  function ModelPath(dir: string, id: string): string
  {
    dir + "/" + id + ".pth"
  }

  lemma ModelPathInjective(dir: string, a: string, b: string)
    ensures ModelPath(dir, a) == ModelPath(dir, b) <==> a == b
  {
    if ModelPath(dir, a) == ModelPath(dir, b) {
      var pa, pb := ModelPath(dir, a), ModelPath(dir, b);
      assert |a| == |b|;
      assert a == pa[|dir| + 1..|dir| + 1 + |a|];
      assert b == pb[|dir| + 1..|dir| + 1 + |b|];
    }
  }

  // ---------------------------------------------------------------- the table

  /** `versions[id] = mv`: a new id goes last, an existing one keeps its place. */
  function Put(t: Versions, id: string, mv: ModelVersion): (r: Versions)
    ensures r.entries == t.entries[id := mv]
    ensures id in t.entries ==> r.ids == t.ids
    ensures id !in t.entries ==> r.ids == t.ids + [id]
  {
    if id in t.entries then VersionTable(t.ids, t.entries[id := mv])
    else
      assert id !in t.ids by { assert id !in KeyOrder.Elements(t.ids); }
      assert KeyOrder.Elements(t.ids + [id]) == KeyOrder.Elements(t.ids) + {id};
      VersionTable(t.ids + [id], t.entries[id := mv])
  }

  /** `s` with every occurrence of `x` taken out, order kept. */
  function Without(s: seq<string>, x: string): (r: seq<string>)
    ensures KeyOrder.Elements(r) == KeyOrder.Elements(s) - {x}
    ensures KeyOrder.Distinct(s) ==> KeyOrder.Distinct(r)
    ensures |r| <= |s|
  {
    if |s| == 0 then []
    else
      var rest := Without(s[1..], x);
      assert KeyOrder.Elements(s) == {s[0]} + KeyOrder.Elements(s[1..]) by { assert s == [s[0]] + s[1..]; }
      DistinctCons(s);
      if s[0] == x then rest
      else
        assert s[0] !in KeyOrder.Elements(s[1..]) ==> s[0] !in KeyOrder.Elements(rest);
        assert KeyOrder.Elements([s[0]] + rest) == {s[0]} + KeyOrder.Elements(rest);
        [s[0]] + rest
  }

  /** `del versions[id]`. */
  function Delete(t: Versions, id: string): (r: Versions)
    requires id in t.entries
    ensures r.entries == t.entries - {id}
  {
    VersionTable(Without(t.ids, id), t.entries - {id})
  }

  // ---------------------------------------------------------------- the invariant

  /** Every id in the history has a record, every record is in the history, and a
      record knows its own id and checkpoint path. */
  ghost predicate Valid(r: Registry)
  {
    && r.versions.entries.Keys == KeyOrder.Elements(r.history)
    && (forall id :: id in r.versions.entries ==> r.versions.entries[id].version == id)
    && OwnPaths(r)
  }

  /** Every record's checkpoint is the file named after its own id. */
  ghost predicate OwnPaths(r: Registry)
  {
    forall id :: id in r.versions.entries ==> r.versions.entries[id].modelPath == ModelPath(r.storageDir, id)
  }

  /** The checkpoint paths of the recorded ids among `ids`. */
  function PathsOf(entries: map<string, ModelVersion>, ids: seq<string>): set<string>
  {
    set id | id in KeyOrder.Elements(ids) && id in entries :: entries[id].modelPath
  }

  /** A manager over a fresh storage directory. */
  function NewRegistry(dir: string, files: map<string, ModelState>): (r: Registry)
    ensures Valid(r) && r.history == [] && r.versions.entries == map[]
  {
    Registry(dir, VersionTable([], map[]), [], files)
  }

  // ---------------------------------------------------------------- save / load

  /** `save_version`: a record under `v{epoch}_{stamp}`, the checkpoint written to
      its path, the id appended to the history. */
  function SaveVersion(r: Registry, sha256: seq<real> -> string, model: ModelState, epoch: int,
                       metrics: map<string, real>, metadata: map<string, string>, now: Clock): (out: (Registry, ModelVersion))
    ensures var (r', mv) := out;
      && mv == ModelVersion(VersionId(epoch, now.stamp), epoch, ModelHash(sha256, model),
                            ModelPath(r.storageDir, VersionId(epoch, now.stamp)), metrics, metadata, now.iso)
      && r'.storageDir == r.storageDir
      && r'.history == r.history + [mv.version]
      && r'.versions.entries == r.versions.entries[mv.version := mv]
      && r'.files == r.files[mv.modelPath := model]
      && (mv.version !in r.versions.entries ==> r'.versions.ids == r.versions.ids + [mv.version])
  {
    var id := VersionId(epoch, now.stamp);
    var path := ModelPath(r.storageDir, id);
    var mv := ModelVersion(id, epoch, ModelHash(sha256, model), path, metrics, metadata, now.iso);
    (Registry(r.storageDir, Put(r.versions, id, mv), r.history + [id], r.files[path := model]), mv)
  }

  lemma SavePreservesValid(r: Registry, sha256: seq<real> -> string, model: ModelState, epoch: int,
                           metrics: map<string, real>, metadata: map<string, string>, now: Clock)
    requires Valid(r)
    ensures Valid(SaveVersion(r, sha256, model, epoch, metrics, metadata, now).0)
  {
    var (r', mv) := SaveVersion(r, sha256, model, epoch, metrics, metadata, now);
    assert KeyOrder.Elements(r'.history) == KeyOrder.Elements(r.history) + {mv.version};
  }

  /** With a fresh id, a save grows the history and the table by exactly that id and
      leaves every other record as it was. */
  lemma SaveAppendsOne(r: Registry, sha256: seq<real> -> string, model: ModelState, epoch: int,
                       metrics: map<string, real>, metadata: map<string, string>, now: Clock, other: string)
    requires VersionId(epoch, now.stamp) !in r.versions.entries
    requires other != VersionId(epoch, now.stamp)
    ensures var (r', mv) := SaveVersion(r, sha256, model, epoch, metrics, metadata, now);
      && |r'.history| == |r.history| + 1 && r'.history[..|r.history|] == r.history
      && |r'.versions.entries| == |r.versions.entries| + 1
      && GetVersionInfo(r', mv.version) == Some(mv)
      && GetVersionInfo(r', other) == GetVersionInfo(r, other)
  {
    var (r', mv) := SaveVersion(r, sha256, model, epoch, metrics, metadata, now);
    assert r'.history[..|r.history|] == r.history;
  }

  /** `load_version`: `None` for an unknown id, and `None` when the checkpoint
      cannot be read back. */
  function LoadVersion(r: Registry, id: string): (m: Option<ModelState>)
    ensures m.Some? <==> id in r.versions.entries && r.versions.entries[id].modelPath in r.files
    ensures m.Some? ==> m.value == r.files[r.versions.entries[id].modelPath]
  {
    if id !in r.versions.entries then None
    else
      var path := r.versions.entries[id].modelPath;
      if path in r.files then Some(r.files[path]) else None
  }

  /** What was saved loads back, and hashes to the recorded hash. */
  lemma LoadAfterSave(r: Registry, sha256: seq<real> -> string, model: ModelState, epoch: int,
                      metrics: map<string, real>, metadata: map<string, string>, now: Clock)
    ensures var (r', mv) := SaveVersion(r, sha256, model, epoch, metrics, metadata, now);
      && LoadVersion(r', mv.version) == Some(model)
      && ModelHash(sha256, LoadVersion(r', mv.version).value) == r'.versions.entries[mv.version].modelHash
  {
  }

  /** `get_version_info`: `versions.get(id)`. */
  function GetVersionInfo(r: Registry, id: string): (v: Option<ModelVersion>)
    ensures v.Some? <==> id in r.versions.entries
    ensures v.Some? ==> v.value == r.versions.entries[id]
  {
    if id in r.versions.entries then Some(r.versions.entries[id]) else None
  }

  /** `get_latest_version`: the record of the last id in the history. */
  function GetLatestVersion(r: Registry): (v: Option<ModelVersion>)
    ensures |r.history| == 0 ==> v == None
    ensures |r.history| > 0 ==> v == GetVersionInfo(r, r.history[|r.history| - 1])
  {
    if |r.history| == 0 then None else GetVersionInfo(r, r.history[|r.history| - 1])
  }

  /** In a valid registry a non-empty history always has a latest record. */
  lemma LatestExists(r: Registry)
    requires Valid(r) && |r.history| > 0
    ensures GetLatestVersion(r).Some?
    ensures GetLatestVersion(r).value.version == r.history[|r.history| - 1]
  {
    assert r.history[|r.history| - 1] in KeyOrder.Elements(r.history);
  }

  /** After a save the latest version is the one just saved. */
  lemma LatestAfterSave(r: Registry, sha256: seq<real> -> string, model: ModelState, epoch: int,
                        metrics: map<string, real>, metadata: map<string, string>, now: Clock)
    ensures var (r', mv) := SaveVersion(r, sha256, model, epoch, metrics, metadata, now);
      GetLatestVersion(r') == Some(mv)
  {
  }

  /** `list_versions`: the records in history order; an id without a record
      raises `KeyError`. */
  function ListVersions(r: Registry): (l: Result<seq<ModelVersion>>)
    ensures l.Ok? <==> forall t :: 0 <= t < |r.history| ==> r.history[t] in r.versions.entries
    ensures l.Ok? ==> |l.value| == |r.history|
    ensures l.Ok? ==> forall t :: 0 <= t < |r.history| ==> l.value[t] == r.versions.entries[r.history[t]]
  {
    if forall t :: 0 <= t < |r.history| ==> r.history[t] in r.versions.entries then
      Ok(seq(|r.history|, t requires 0 <= t < |r.history| => r.versions.entries[r.history[t]]))
    else Err(KeyError)
  }

  lemma ListValid(r: Registry)
    requires Valid(r)
    ensures ListVersions(r).Ok?
  {
    forall t | 0 <= t < |r.history| ensures r.history[t] in r.versions.entries {
      assert r.history[t] in KeyOrder.Elements(r.history);
    }
  }

  // ---------------------------------------------------------------- compare

  datatype Comparison =
    | NotFound
    | Compared(version1: string, version2: string, epochDiff: int, metricsDiff: map<string, real>, sameHash: bool)

  /** `compare_versions`. */
  function CompareVersions(r: Registry, id1: string, id2: string): (c: Comparison)
    ensures c.NotFound? <==> id1 !in r.versions.entries || id2 !in r.versions.entries
    ensures c.Compared? ==>
      var v1, v2 := r.versions.entries[id1], r.versions.entries[id2];
      && c.epochDiff == v2.epoch - v1.epoch
      && c.metricsDiff.Keys == v1.metrics.Keys * v2.metrics.Keys
      && (forall m :: m in c.metricsDiff ==> c.metricsDiff[m] == v2.metrics[m] - v1.metrics[m])
      && (c.sameHash <==> v1.modelHash == v2.modelHash)
  {
    if id1 !in r.versions.entries || id2 !in r.versions.entries then NotFound
    else
      var v1, v2 := r.versions.entries[id1], r.versions.entries[id2];
      var common := v1.metrics.Keys * v2.metrics.Keys;
      Compared(id1, id2, v2.epoch - v1.epoch,
               map m | m in common :: v2.metrics[m] - v1.metrics[m],
               v1.modelHash == v2.modelHash)
  }

  /** Swapping the arguments negates every difference. */
  lemma CompareAntisymmetric(r: Registry, id1: string, id2: string)
    requires CompareVersions(r, id1, id2).Compared?
    ensures var c, d := CompareVersions(r, id1, id2), CompareVersions(r, id2, id1);
      && d.Compared? && d.epochDiff == -c.epochDiff && d.sameHash == c.sameHash
      && d.metricsDiff.Keys == c.metricsDiff.Keys
      && forall m :: m in c.metricsDiff ==> d.metricsDiff[m] == -c.metricsDiff[m]
  {
  }

  // ---------------------------------------------------------------- rollback

  /** The metadata of a rollback record: the prior metadata with `rollback_from` and
      `rollback_at` set on top. */
  function RollbackMetadata(prior: map<string, string>, id: string, at: string): (m: map<string, string>)
    ensures m.Keys == prior.Keys + {"rollback_from", "rollback_at"}
    ensures m["rollback_from"] == id && m["rollback_at"] == at
    ensures forall k :: k in prior && k != "rollback_from" && k != "rollback_at" ==> m[k] == prior[k]
  {
    prior["rollback_from" := id]["rollback_at" := at]
  }

  /** `rollback_to_version`: the prior checkpoint re-saved as a new version with the
      prior epoch and metrics. `at` is the clock reading for `rollback_at`, `now` the
      one `save_version` takes. */
  function RollbackToVersion(r: Registry, sha256: seq<real> -> string, id: string, at: string, now: Clock): (out: (Registry, bool))
    ensures out.1 <==> LoadVersion(r, id).Some?
    ensures !out.1 ==> out.0 == r
    ensures out.1 ==>
      var prior := r.versions.entries[id];
      var newId := VersionId(prior.epoch, now.stamp);
      && out.0.history == r.history + [newId]
      && out.0.versions.entries.Keys == r.versions.entries.Keys + {newId}
      && out.0.versions.entries[newId].epoch == prior.epoch
      && out.0.versions.entries[newId].metrics == prior.metrics
      && out.0.versions.entries[newId].metadata == RollbackMetadata(prior.metadata, id, at)
      && out.0.versions.entries[newId].modelHash == ModelHash(sha256, LoadVersion(r, id).value)
      && (newId != id ==> out.0.versions.entries[id] == prior)
      && out.0.storageDir == r.storageDir
      && (forall k :: k in r.versions.entries && k != newId ==> out.0.versions.entries[k] == r.versions.entries[k])
      && out.0.files == r.files[ModelPath(r.storageDir, newId) := LoadVersion(r, id).value]
  {
    if id !in r.versions.entries then (r, false)
    else
      match LoadVersion(r, id)
      case None => (r, false)
      case Some(model) =>
        var prior := r.versions.entries[id];
        var (r', _) := SaveVersion(r, sha256, model, prior.epoch, prior.metrics, RollbackMetadata(prior.metadata, id, at), now);
        (r', true)
  }

  lemma RollbackPreservesValid(r: Registry, sha256: seq<real> -> string, id: string, at: string, now: Clock)
    requires Valid(r)
    ensures Valid(RollbackToVersion(r, sha256, id, at, now).0)
  {
    if LoadVersion(r, id).Some? {
      var prior := r.versions.entries[id];
      SavePreservesValid(r, sha256, LoadVersion(r, id).value, prior.epoch, prior.metrics, RollbackMetadata(prior.metadata, id, at), now);
    }
  }

  /** Rolling back, within the same second, to a version saved in that second
      replaces the very record rolled back to, and its id enters the history twice. */
  lemma RollbackCanOverwriteItsSource(r: Registry, sha256: seq<real> -> string, id: string, at: string, now: Clock)
    requires LoadVersion(r, id).Some?
    requires id == VersionId(r.versions.entries[id].epoch, now.stamp)
    requires id in r.history
    ensures var r' := RollbackToVersion(r, sha256, id, at, now).0;
      && r'.versions.entries[id].metadata["rollback_from"] == id
      && r'.history[|r'.history| - 1] == id
      && |r'.versions.entries| == |r.versions.entries|
  {
  }

  // ---------------------------------------------------------------- best

  /** `minimize` compares with `<` (the metric `"loss"`), otherwise with `>`. */
  predicate Better(minimize: bool, a: real, b: real)
  {
    if minimize then a < b else a > b
  }

  /** Among `vs[..upto]`, `b` holds the metric, no entry beats it, and every entry
      before it that holds the metric is strictly worse. */
  predicate FirstOptimum(vs: seq<ModelVersion>, metric: string, minimize: bool, upto: nat, b: nat)
    requires upto <= |vs|
  {
    && b < upto && metric in vs[b].metrics
    && (forall t :: 0 <= t < upto && metric in vs[t].metrics ==> !Better(minimize, vs[t].metrics[metric], vs[b].metrics[metric]))
    && (forall t :: 0 <= t < b && metric in vs[t].metrics ==> Better(minimize, vs[b].metrics[metric], vs[t].metrics[metric]))
  }

  predicate NoneHolds(vs: seq<ModelVersion>, metric: string, upto: nat)
    requires upto <= |vs|
  {
    forall t :: 0 <= t < upto ==> metric !in vs[t].metrics
  }

  /** The scan of `get_best_version` from position `i`, `best` the index of the
      best record so far. */
  function BestFrom(vs: seq<ModelVersion>, metric: string, minimize: bool, i: nat, best: Option<nat>): (r: Option<nat>)
    requires i <= |vs|
    requires best.None? ==> NoneHolds(vs, metric, i)
    requires best.Some? ==> FirstOptimum(vs, metric, minimize, i, best.value)
    ensures r.None? ==> NoneHolds(vs, metric, |vs|)
    ensures r.Some? ==> FirstOptimum(vs, metric, minimize, |vs|, r.value)
    decreases |vs| - i
  {
    if i == |vs| then best
    else if metric !in vs[i].metrics then BestFrom(vs, metric, minimize, i + 1, best)
    else if best.None? || Better(minimize, vs[i].metrics[metric], vs[best.value].metrics[metric]) then
      BetterIsStrict(vs, metric, minimize, i, best);
      BestFrom(vs, metric, minimize, i + 1, Some(i))
    else BestFrom(vs, metric, minimize, i + 1, best)
  }

  /** A new best beats every earlier entry that holds the metric. */
  lemma BetterIsStrict(vs: seq<ModelVersion>, metric: string, minimize: bool, i: nat, best: Option<nat>)
    requires i < |vs| && metric in vs[i].metrics
    requires best.None? ==> NoneHolds(vs, metric, i)
    requires best.Some? ==> FirstOptimum(vs, metric, minimize, i, best.value)
    requires best.None? || Better(minimize, vs[i].metrics[metric], vs[best.value].metrics[metric])
    ensures FirstOptimum(vs, metric, minimize, i + 1, i)
  {
    var x := vs[i].metrics[metric];
    forall t | 0 <= t < i && metric in vs[t].metrics
      ensures Better(minimize, x, vs[t].metrics[metric])
    {
      var b := vs[best.value].metrics[metric];
      assert !Better(minimize, vs[t].metrics[metric], b);
    }
  }

  /** The records in table order. */
  function Values(t: Versions): (vs: seq<ModelVersion>)
    ensures |vs| == |t.ids|
    ensures forall i :: 0 <= i < |vs| ==> vs[i] == t.entries[t.ids[i]]
  {
    seq(|t.ids|, i requires 0 <= i < |t.ids| => assert t.ids[i] in KeyOrder.Elements(t.ids); t.entries[t.ids[i]])
  }

  /** The position, in table order, of the record `get_best_version` returns. */
  function BestIndex(r: Registry, metric: string): (i: Option<nat>)
    ensures i.None? ==> NoneHolds(Values(r.versions), metric, |r.versions.ids|)
    ensures i.Some? ==> FirstOptimum(Values(r.versions), metric, metric == "loss", |r.versions.ids|, i.value)
  {
    BestFrom(Values(r.versions), metric, metric == "loss", 0, None)
  }

  /** `get_best_version`: the first record, in table order, with the least
      (`"loss"`) or greatest value of the metric; `None` when no record has it.
      Ties go to the record inserted first: every earlier record holding the
      metric is strictly worse. */
  function GetBestVersion(r: Registry, metric: string): (b: Option<ModelVersion>)
    ensures b.None? <==> forall id :: id in r.versions.entries ==> metric !in r.versions.entries[id].metrics
    ensures b.Some? ==> b.value in r.versions.entries.Values && metric in b.value.metrics
    ensures b.Some? ==> forall id :: id in r.versions.entries && metric in r.versions.entries[id].metrics ==>
      !Better(metric == "loss", r.versions.entries[id].metrics[metric], b.value.metrics[metric])
    ensures b.Some? ==> exists t :: (0 <= t < |r.versions.ids| && b.value == r.versions.entries[r.versions.ids[t]]
      && forall u :: 0 <= u < t && metric in r.versions.entries[r.versions.ids[u]].metrics ==>
           Better(metric == "loss", b.value.metrics[metric], r.versions.entries[r.versions.ids[u]].metrics[metric]))
  {
    var vs := Values(r.versions);
    var i := BestIndex(r, metric);
    forall id | id in r.versions.entries ensures exists t :: 0 <= t < |vs| && vs[t] == r.versions.entries[id] {
      assert id in KeyOrder.Elements(r.versions.ids);
      var t :| 0 <= t < |r.versions.ids| && r.versions.ids[t] == id;
      assert vs[t] == r.versions.entries[id];
    }
    match i
    case None => None
    case Some(t) =>
      assert r.versions.ids[t] in KeyOrder.Elements(r.versions.ids);
      Some(vs[t])
  }

  // ---------------------------------------------------------------- cleanup

  /** The loop of `cleanup_old_versions`: each id's checkpoint unlinked (a missing
      file is ignored) and its record deleted. An id without a record raises
      `KeyError`, leaving what was already removed removed; the flag says whether
      the loop finished. */
  function RemoveAll(r: Registry, ids: seq<string>): (out: (Registry, bool))
    ensures out.0.storageDir == r.storageDir && out.0.history == r.history
    ensures out.0.versions.entries.Keys <= r.versions.entries.Keys
    ensures forall id :: id in out.0.versions.entries ==> out.0.versions.entries[id] == r.versions.entries[id]
    ensures out.1 <==> (KeyOrder.Distinct(ids) && forall t :: 0 <= t < |ids| ==> ids[t] in r.versions.entries)
    ensures out.1 ==> out.0.versions.entries.Keys == r.versions.entries.Keys - KeyOrder.Elements(ids)
    ensures out.0.files.Keys <= r.files.Keys
    ensures out.1 ==> out.0.files == r.files - PathsOf(r.versions.entries, ids)
    decreases |ids|
  {
    if |ids| == 0 then (r, true)
    else if ids[0] !in r.versions.entries then (r, false)
    else
      var path := r.versions.entries[ids[0]].modelPath;
      var r1 := Registry(r.storageDir, Delete(r.versions, ids[0]), r.history, r.files - {path});
      var out := RemoveAll(r1, ids[1..]);
      assert ids == [ids[0]] + ids[1..];
      assert KeyOrder.Elements(ids) == {ids[0]} + KeyOrder.Elements(ids[1..]);
      DistinctCons(ids);
      RemoveOnePaths(r, ids);
      out
  }

  /** Removing records never takes away a surviving record's checkpoint: each
      survivor loads what it loaded before, whether or not the loop finished. */
  lemma {:induction false} RemoveAllKeepsOtherLoads(r: Registry, ids: seq<string>)
    requires OwnPaths(r)
    ensures var out := RemoveAll(r, ids);
      forall id :: id in out.0.versions.entries ==> LoadVersion(out.0, id) == LoadVersion(r, id)
    decreases |ids|
  {
    if |ids| > 0 && ids[0] in r.versions.entries {
      var r1 := Registry(r.storageDir, Delete(r.versions, ids[0]), r.history, r.files - {r.versions.entries[ids[0]].modelPath});
      DeleteKeepsOtherLoads(r, ids[0]);
      RemoveAllKeepsOtherLoads(r1, ids[1..]);
    }
  }

  /** Deleting one record and its checkpoint leaves every other record loading
      what it loaded before, since no two records share a checkpoint. */
  lemma DeleteKeepsOtherLoads(r: Registry, x: string)
    requires x in r.versions.entries && OwnPaths(r)
    ensures var r1 := Registry(r.storageDir, Delete(r.versions, x), r.history, r.files - {r.versions.entries[x].modelPath});
      && OwnPaths(r1)
      && forall id :: id in r1.versions.entries ==> LoadVersion(r1, id) == LoadVersion(r, id)
  {
    forall id | id in r.versions.entries && id != x
      ensures r.versions.entries[id].modelPath != r.versions.entries[x].modelPath
    {
      ModelPathInjective(r.storageDir, id, x);
    }
  }

  /** The paths of `ids` are the first id's path and the paths the rest still
      have once the first is out of the table. */
  lemma RemoveOnePaths(r: Registry, ids: seq<string>)
    requires |ids| > 0 && ids[0] in r.versions.entries
    ensures PathsOf(r.versions.entries, ids)
      == {r.versions.entries[ids[0]].modelPath} + PathsOf(Delete(r.versions, ids[0]).entries, ids[1..])
  {
    assert KeyOrder.Elements(ids) == {ids[0]} + KeyOrder.Elements(ids[1..]) by { assert ids == [ids[0]] + ids[1..]; }
  }

  lemma DistinctCons(ids: seq<string>)
    requires |ids| > 0
    ensures KeyOrder.Distinct(ids) <==> KeyOrder.Distinct(ids[1..]) && ids[0] !in ids[1..]
  {
    if KeyOrder.Distinct(ids[1..]) && ids[0] !in ids[1..] {
      forall a, b | 0 <= a < b < |ids| ensures ids[a] != ids[b] {
        assert ids[b] == ids[1..][b - 1];
        if a > 0 { assert ids[a] == ids[1..][a - 1]; }
      }
    }
    if KeyOrder.Distinct(ids) {
      forall a, b | 0 <= a < b < |ids[1..]| ensures ids[1..][a] != ids[1..][b] {
        assert ids[1..][a] == ids[a + 1] && ids[1..][b] == ids[b + 1];
      }
      forall t | 0 <= t < |ids[1..]| ensures ids[1..][t] != ids[0] {
        assert ids[1..][t] == ids[t + 1];
      }
    }
  }

  /** `cleanup_old_versions(keep_last_n)` with Python's slicing: drop
      `history[:-n]`, keep `history[-n:]`. A `KeyError` during removal leaves the
      history as it was. */
  function CleanupOldVersions(r: Registry, keepLastN: int): (out: (Registry, bool))
    ensures |r.history| <= keepLastN ==> out == (r, true)
    ensures out.0.storageDir == r.storageDir
    ensures var dropped := PySlice.Prefix(r.history, -keepLastN);
      out.1 <==> |r.history| <= keepLastN
                 || (KeyOrder.Distinct(dropped) && forall t :: 0 <= t < |dropped| ==> dropped[t] in r.versions.entries)
    ensures out.1 && |r.history| > keepLastN ==> out.0.history == PySlice.Suffix(r.history, -keepLastN)
    ensures out.1 && |r.history| > keepLastN ==>
      out.0.versions.entries.Keys == r.versions.entries.Keys - KeyOrder.Elements(PySlice.Prefix(r.history, -keepLastN))
    ensures !out.1 ==> out.0.history == r.history
    ensures out.0.versions.entries.Keys <= r.versions.entries.Keys
    ensures forall id :: id in out.0.versions.entries ==> out.0.versions.entries[id] == r.versions.entries[id]
    ensures out.1 && |r.history| > keepLastN ==>
      out.0.files == r.files - PathsOf(r.versions.entries, PySlice.Prefix(r.history, -keepLastN))
    ensures out.0.files.Keys <= r.files.Keys
    ensures OwnPaths(r) ==> forall id :: id in out.0.versions.entries ==> LoadVersion(out.0, id) == LoadVersion(r, id)
  {
    if |r.history| <= keepLastN then (r, true)
    else
      var (r1, ok) := RemoveAll(r, PySlice.Prefix(r.history, -keepLastN));
      assert OwnPaths(r) ==> forall id :: id in r1.versions.entries ==> LoadVersion(r1, id) == LoadVersion(r, id) by {
        if OwnPaths(r) { RemoveAllKeepsOtherLoads(r, PySlice.Prefix(r.history, -keepLastN)); }
      }
      if !ok then (r1, false)
      else (r1.(history := PySlice.Suffix(r.history, -keepLastN)), true)
  }

  /** For `0 < n < len(history)` over a history without repeats, cleanup keeps the
      last `n` ids, removes exactly the dropped ids' records and stays valid. */
  lemma CleanupKeepsLast(r: Registry, n: int)
    requires Valid(r) && KeyOrder.Distinct(r.history)
    requires 0 < n < |r.history|
    ensures var (r', ok) := CleanupOldVersions(r, n);
      && ok
      && r'.history == r.history[|r.history| - n..]
      && r'.versions.entries.Keys == r.versions.entries.Keys - KeyOrder.Elements(r.history[..|r.history| - n])
      && (forall id :: id in r'.versions.entries ==> r'.versions.entries[id] == r.versions.entries[id])
      && Valid(r')
  {
    var h := r.history;
    var cut := |h| - n;
    PySlice.NegativeBound(h, n);
    SplitDistinct(h, cut);
    forall t | 0 <= t < |h[..cut]| ensures h[..cut][t] in r.versions.entries {
      assert h[..cut][t] in KeyOrder.Elements(h);
    }
    var (r1, ok) := RemoveAll(r, h[..cut]);
    assert CleanupOldVersions(r, n) == (r1.(history := h[cut..]), true);
  }

  /** A history without repeats splits into two disjoint sets of ids, each part
      itself without repeats. */
  lemma SplitDistinct(h: seq<string>, cut: nat)
    requires KeyOrder.Distinct(h) && cut <= |h|
    ensures KeyOrder.Distinct(h[..cut])
    ensures KeyOrder.Elements(h) == KeyOrder.Elements(h[..cut]) + KeyOrder.Elements(h[cut..])
    ensures KeyOrder.Elements(h[..cut]) * KeyOrder.Elements(h[cut..]) == {}
  {
    assert h == h[..cut] + h[cut..];
    forall x | x in KeyOrder.Elements(h[..cut]) ensures x !in KeyOrder.Elements(h[cut..]) {
      var a :| 0 <= a < cut && h[..cut][a] == x;
      forall b | 0 <= b < |h[cut..]| ensures h[cut..][b] != x {
        assert h[cut..][b] == h[cut + b];
      }
    }
  }

  /** `keep_last_n = 0` removes nothing: `history[:-0]` is empty and `history[-0:]`
      is the whole history. */
  lemma CleanupZeroKeepsEverything(r: Registry)
    ensures CleanupOldVersions(r, 0) == (r, true)
  {
    PySlice.NegatedZero(r.history);
  }

  /** Corrected cleanup: keep the last `min(n, len(history))` ids and remove the
      rest, so that `n = 0` removes every version. */
  function CleanupKeepingLast(r: Registry, n: nat): (out: (Registry, bool))
    ensures out.0.storageDir == r.storageDir
    ensures out.1 ==> out.0.history == r.history[|r.history| - Min(n, |r.history|)..]
  {
    var cut := |r.history| - Min(n, |r.history|);
    var (r1, ok) := RemoveAll(r, r.history[..cut]);
    if !ok then (r1, false) else (r1.(history := r.history[cut..]), true)
  }

  function Min(a: nat, b: nat): nat
  {
    if a <= b then a else b
  }

  /** With the corrected cleanup, keeping zero versions empties the registry. */
  lemma CleanupKeepingNoneEmpties(r: Registry)
    requires Valid(r) && KeyOrder.Distinct(r.history)
    ensures var (r', ok) := CleanupKeepingLast(r, 0);
      ok && r'.history == [] && r'.versions.entries == map[]
  {
    forall t | 0 <= t < |r.history| ensures r.history[t] in r.versions.entries {
      assert r.history[t] in KeyOrder.Elements(r.history);
    }
    assert r.history[..|r.history|] == r.history;
  }

  /** Two saves of one epoch within one second share an id: the table keeps one
      record, the history both. */
  lemma CollidingSaves(dir: string, files: map<string, ModelState>, sha256: seq<real> -> string,
                       m1: ModelState, m2: ModelState, epoch: int, now: Clock)
    ensures var r0 := NewRegistry(dir, files);
      var (r1, v1) := SaveVersion(r0, sha256, m1, epoch, map[], map[], now);
      var (r2, v2) := SaveVersion(r1, sha256, m2, epoch, map[], map[], now);
      && v1.version == v2.version
      && r2.history == [v1.version, v1.version]
      && r2.versions.entries == map[v1.version := v2]
  {
  }

  /** Cleanup of such a history deletes the shared record while keeping its id in
      the history, and `list_versions` then raises `KeyError`. */
  lemma CleanupAfterCollision(r: Registry, id: string, v: ModelVersion)
    requires r.history == [id, id] && r.versions.entries == map[id := v]
    ensures CleanupOldVersions(r, 1).1
    ensures CleanupOldVersions(r, 1).0.history == [id]
    ensures ListVersions(CleanupOldVersions(r, 1).0).Err?
  {
    PySlice.NegativeBound(r.history, 1);
    assert PySlice.Prefix(r.history, -1) == [id];
    assert PySlice.Suffix(r.history, -1) == [id];
    var (r3, ok) := CleanupOldVersions(r, 1);
    assert r3.versions.entries.Keys == {id} - {id};
    assert r3.history[0] !in r3.versions.entries;
  }
}

=== FILE: src/wrappers.dfy ===
/** Failure-compatible wrappers shared by every module of the model. */
module Wrappers {

  /** Python's `Optional[T]`: `None` or a present value. */
  datatype Option<+T> = None | Some(value: T)

  /** The error kinds the modelled Python code raises or reports. */
  datatype Error =
    | KeyError          // a dict lookup on a missing key
    | IndexError        // a list index past the end
    | ShapeMismatch     // two tensors of different element counts combined
    | ZeroDivision      // a division by a zero sample total
    | UnknownMethod     // an aggregation method outside the dispatch table
    | ValueError        // text that does not parse, such as a malformed ISO timestamp
    | TypeError         // an argument of the wrong kind, such as a non-string timestamp

  /** A value or the error that aborted its computation. */
  datatype Result<+T> = Ok(value: T) | Err(error: Error)
}
